=== FILE: README.md ===
# Versat software core in Dafny

This project models the host-side software core of Versat, a coarse-grained reconfigurable
accelerator generator. It proves properties of that model. The model covers eight parts:

- **Memory primitives** (`arena.dfy`, `bit_array.dfy`, `pool.dfy`):
  - the bump `Arena` with mark/pop rollback, scoped markers and sub-arenas;
  - the bounded `PushPtr` cursor and the size helpers;
  - the MSB-first `BitArray` with its fill, copy, AND and set-bit iterator;
  - the pool page layout and the occupancy-driven pool iterator.
- **Integer and string helpers** (`utils_common.dfy`): C-style truncating division, `RoundUpDiv`, `log2i`,
  `AlignNextPower2`, digit counting, string comparison, the character class and the xorshift generator.
- **Accelerator graph records** (`accel.dfy`): declarations, instances, port instances, edges and accelerators.
  These are shared by the merge engine and by the graph operations of `versat.cpp`.
- **The graph-merging engine** of `merge.cpp`:
  - `merge_conflict.dfy`: mapping conflicts, port-mapping equality and candidate generation;
  - `merge_graph.dfy`: compatibility edges and minimum-degree relabelling;
  - `merge_clique.dfy`: the neighbour table, the clique test and the table-based branch-and-bound search;
  - `merge_mapping.dfy`: folding a clique into forward and reverse instance maps.
- **Pure pieces of `versat.cpp`**:
  - `versat_core.dfy`: the name check, the 32-bit binary formatter, the four-letter waveform identifier
    odometer, output counting, connect and remove on edge lists, and the debug-flag setter;
  - `memory_map.dfy`: memory-map address-bit sizing by pairwise merging of power-of-two regions.
- **The specification-language parser** (`spec_parser.dfy`): variable ranges, expansion of `->` ranges into edges,
  output sizing and the operator-to-unit mapping.
- **The Verilog front end** (`verilog.dfy`): constant-expression evaluation, the conditional-compile decision,
  `ParseRange` and `ParseParameters`.
- **The PC memory-port emulator** of `software/pc/mem.cpp` (`mem_port.dfy`): the bounds-checked memory, the
  resumable four-level address generator (AGU), the start/output/update cycle and the register setter.

`wrappers.dfy` holds the `Result`/`Option` types. Most aborts (`Assert`, `exit`) and undefined integer
overflows in the source become a `Failure`, so those error paths are part of each contract. The few places where
a precondition stands in for the source's behaviour instead are listed under "Left out". `tokens.dfy`
holds `Peek` on an abstract token sequence, which stands in for the tokenizer.

The following are parameters of the model:
- `ParseInt`, the tokenizer and the expression parser, none of whose bodies are part of this model;
- the OS page size;
- the free arena space;
- the clique search's time budget, modelled as a count of clock readings.

## Model

| member | source | states |
|---|---|---|
| UtilsCommon.CDivTruncates | software/utilsCommon.cpp:42-50 | C `/` and `%` truncate toward zero: quotient and remainder rebuild the dividend, the remainder is smaller than the divisor in magnitude and takes the dividend's sign |
| UtilsCommon.CRemMagnitude | software/utilsCommon.cpp:42-50 | C `%` has the magnitude of the mathematical remainder of the magnitudes and the dividend's sign |
| UtilsCommon.Mini | software/utilsCommon.cpp:30-34 | `mini` returns one of its arguments and it is at most both |
| UtilsCommon.Maxi | software/utilsCommon.cpp:36-40 | `maxi` returns one of its arguments and it is at least both |
| UtilsCommon.RoundUpDiv | software/utilsCommon.cpp:42-50 | for a ≥ 0 and b > 0 the result is the ceiling of a/b: the least r with a ≤ r·b |
| UtilsCommon.Log2i | software/utilsCommon.cpp:52-68 | 0 for values ≤ 0, 1 for 1, otherwise the r with 2^(r-1) < v ≤ 2^r |
| UtilsCommon.AlignNextPower2 | software/utilsCommon.cpp:70-81 | fails exactly when v > 2^30, where doubling past 2^30 overflows `int`; otherwise 0 for values ≤ 0 and, for v > 0, a power of two ≥ v whose half is below v (the smallest such power) |
| UtilsCommon.NumberDigitsRepresentation | software/utilsCommon.cpp:83-98 | fails exactly on INT_MIN, whose negation overflows `int`; otherwise the number of decimal digits of the magnitude (0 for zero), plus one for a minus sign |
| UtilsCommon.CompareString | software/utilsCommon.cpp:125-137 | true exactly when the two strings are equal (same length, same characters) |
| UtilsCommon.IsAlpha | software/utilsCommon.cpp:155-166 | accepts exactly 'a'..'y', 'A'..'Z' and '0'..'9'; the strict `< 'z'` test leaves out 'z' |
| UtilsCommon.SeedRandomNumber | software/utilsCommon.cpp:100-107 | the seed is never 0: a zero value becomes 1 and any other value is kept |
| UtilsCommon.GetRandomNumber | software/utilsCommon.cpp:109-115 | the xorshift (13, 17, 5) step is undone by `UndoRandomNumber`, so distinct seeds give distinct numbers, and a non-zero seed never yields 0 |
| Arenas.Kilobyte | software/pc-emul/memory.hpp:14 | defined exactly when −2^21 ≤ val < 2^21, that is when `val`·1024 fits an `int`; the result is a `size_t`, below 2^64 |
| Arenas.Megabyte | software/pc-emul/memory.hpp:15 | defined exactly when `Kilobyte(val)` is; the result is a `size_t`, below 2^64 |
| Arenas.Gigabyte | software/pc-emul/memory.hpp:16 | defined exactly when `Kilobyte(val)` is; the result is a `size_t`, below 2^64 |
| Arenas.SizeUnitValues | software/pc-emul/memory.hpp:14-16 | a defined unit is `val`·2^10, 2^20 or 2^30 reduced modulo 2^64, although Megabyte and Gigabyte reduce after every multiplication |
| Arenas.SizeUnitsExact | software/pc-emul/memory.hpp:14-16 | a non-negative `val` gives exactly `val`·2^10, 2^20 or 2^30 bytes |
| Arenas.SizeUnitsWrap | software/pc-emul/memory.hpp:14 | a negative `val` wraps to a `size_t` of at least 2^64 − 2^31 |
| Arenas.BitToByteSize | software/pc-emul/memory.hpp:18 | for n ≥ 0 the byte count is the ceiling of n/8 |
| Arenas.InitArena | software/pc-emul/memory.cpp:63-67 | a fresh arena of a `size_t` size is valid, empty, of the requested size, and its bytes are zero |
| Arenas.MarkArena | software/pc-emul/memory.cpp:93-95 | the mark is the address of the first unused byte |
| Arenas.PopMark | software/pc-emul/memory.cpp:97-99 | `used` becomes mark − base for a mark at or above the base, and wraps to 2^64 − (base − mark) for a mark below it, as the `size_t` subtraction does; base, bytes and capacity are unchanged |
| Arenas.PushBytes | software/pc-emul/memory.cpp:101-110 | succeeds exactly when used + n < total (strict); returns the old end, zeroes exactly those n bytes, keeps all other bytes, and advances `used` by n |
| Arenas.RunBlock | software/pc-emul/memory.cpp:54-61 | a scope guarded by `ArenaMarker`, however deeply nested, leaves `used` exactly where it found it |
| Arenas.RunItems | software/pc-emul/memory.cpp:54-61 | a sequence of pushes and nested scopes never lowers `used` and keeps the arena valid |
| Arenas.RunItem | software/pc-emul/memory.cpp:54-61 | one push or nested scope never lowers `used` and keeps the arena valid |
| Arenas.SubArena | software/pc-emul/memory.cpp:69-77 | succeeds exactly when the parent has room; the parent advances by `size`, and the child starts empty and zeroed at the parent's old end with capacity `size`; the parent's base and capacity are unchanged, as is every byte outside the carved range |
| Arenas.PopToSubArena | software/pc-emul/memory.cpp:79-85 | succeeds exactly when the child's current end lies between the parent's base and the parent's current end; the parent's `used` then becomes that end, and its memory, base and capacity are unchanged |
| Arenas.SubArenaRoundTrip | software/pc-emul/memory.cpp:69-85 | carving a child, pushing n bytes into it and popping back leaves the parent at its old use plus n; popping an unused child restores it exactly |
| Arenas.InitPushPtr | software/pc-emul/memory.hpp:54-58 | a cursor starts with no pushes and the given maximum |
| Arenas.InitPushPtrFromArray | software/pc-emul/memory.hpp:60-64 | a cursor over an array starts with no pushes and the array's size as maximum |
| Arenas.InitPushPtrFromAllocation | software/pc-emul/memory.hpp:66-70 | a cursor over an allocation starts with no pushes and the allocation's size as maximum |
| Arenas.Push | software/pc-emul/memory.hpp:72-79 | any `times`, negative included, moves the count; succeeds exactly when the returned slot `ptr + timesPushed` is an address (not below 0), the `int` sum does not overflow and the new count stays within the maximum; returns the slot at the old count and moves the count by `times` |
| Arenas.PushRetract | software/pc-emul/memory.hpp:72-79 | pushing −t right after a push of t restores the cursor, so the next push hands out the same slot again |
| Arenas.PushAllFits | software/pc-emul/memory.hpp:72-85 | a run of pushes succeeds exactly when their total fits the maximum and `INT_MAX`; the count is then that total, and `Empty` holds exactly when the total equals the maximum |
| Arenas.PushAll | software/pc-emul/memory.hpp:72-79 | successive pushes keep the base pointer and maximum and never lower the count |
| Arenas.PushArray | software/pc-emul/memory.hpp:117 | an array of `size` elements reserves exactly elemSize·size zeroed bytes at the arena's old end; base, capacity and every byte outside the new range are unchanged |
| BitArrays.MaskIsShift | software/pc-emul/memory.cpp:257-265 | bit k of a byte (MSB first) is the mask 1 << (7 - k) |
| BitArrays.ByteSizeFits | software/pc-emul/memory.cpp:235-238 | an array is valid exactly when its bytes cover BitToByteSize(bitSize) |
| BitArrays.InitFromArena | software/pc-emul/memory.cpp:235-238 | the array takes BitToByteSize(bitSize) fresh zero bytes from the arena, so every bit starts clear |
| BitArrays.Get | software/pc-emul/memory.cpp:257-267 | with C `/` and `%`: succeeds exactly when the index is below bitSize and byte index/8 lies in the buffer (any i ≥ 0, or −8 < i < 0 on a non-empty buffer); for i ≥ 0 returns 1 or 0 according to bit 7 − i%8 of byte i/8, and for a negative index, whose shift passes the byte, returns 0 |
| BitArrays.Set | software/pc-emul/memory.cpp:269-280 | succeeds under the same condition as `Get`; for i ≥ 0 the chosen bit takes the value and every other bit is unchanged; for a negative index the array is unchanged |
| BitArrays.SetBitOf | software/pc-emul/memory.cpp:269-280 | updating one bit of a byte sets that bit and leaves the other seven |
| BitArrays.UpdateOtherBit | software/pc-emul/memory.cpp:269-280 | updating one bit under its mask leaves every bit outside the mask as it was |
| BitArrays.BitShift | software/pc-emul/memory.cpp:257-280 | the shift `7 - index % 8` under C `%` stays below 16, so it fits the `int` the byte is promoted to |
| BitArrays.IndexPlacement | software/pc-emul/memory.cpp:257-280 | for i ≥ 0 the byte is i/8 and the shift 7 − i%8; for −8 < i < 0 the byte is 0 and the shift 8 or more; for i ≤ −8 the byte index is negative |
| BitArrays.WideWithinByte | software/pc-emul/memory.cpp:257-280 | a shift inside the byte reads and writes, through the `int` promotion, exactly the MSB-first bit 7 − shift |
| BitArrays.WideBeyondByte | software/pc-emul/memory.cpp:257-280 | a shift of 8 to 15 reads 0 and writes back the byte unchanged, because the byte store drops the high bits |
| BitArrays.SetThenGet | software/pc-emul/memory.cpp:257-280 | reading a bit right after setting it returns the value written |
| BitArrays.Fill | software/pc-emul/memory.cpp:241-248 | every byte in BitToByteSize(bitSize) becomes 0xFF or 0x00, padding bits included; bytes beyond are untouched and every bit reads the value |
| BitArrays.Copy | software/pc-emul/memory.cpp:250-255 | fails exactly when the source has fewer bits or its buffer is shorter than the bytes copied; otherwise the first BitToByteSize(bitSize) bytes come from the source, so every bit matches it |
| BitArrays.AndBits | software/pc-emul/memory.cpp:297-304 | bit k of the bytewise AND is the conjunction of the two bits |
| BitArrays.And | software/pc-emul/memory.cpp:297-304 | fails unless the sizes are equal; otherwise each covered byte is the AND of the two, and each bit is set exactly when it is set in both |
| BitArrays.IndexInjective | software/pc-emul/memory.cpp:183-228 | two iterators compare equal exactly when they yield the same index |
| BitArrays.End | software/pc-emul/memory.cpp:321-327 | the end iterator stands at index bitSize |
| BitArrays.Scan | software/pc-emul/memory.cpp:198-222 | the search loop stops on a set bit inside the whole bytes, or at the end of the whole bytes |
| BitArrays.ScanSkipsUnset | software/pc-emul/memory.cpp:198-222 | every bit the search loop passes over is clear |
| BitArrays.Advance | software/pc-emul/memory.cpp:188-223 | `++` moves strictly forward and never past bitSize |
| BitArrays.AdvanceSkipsUnset | software/pc-emul/memory.cpp:188-223 | every bit `++` skips is clear |
| BitArrays.Begin | software/pc-emul/memory.cpp:306-319 | `begin()` stands at or before the end; for bitSize 0 it equals `end()` |
| BitArrays.View | software/pc-emul/memory.cpp:257-267 | the array read as a sequence of bitSize booleans, one per `Get` |
| BitArrays.NextSet | software/pc-emul/memory.cpp:198-222 | reference search: the first set position at or after i, or the length |
| BitArrays.NextSetUnique | software/pc-emul/memory.cpp:198-222 | a set position with only clear bits before it is the one the reference search finds |
| BitArrays.SetBitsSkip | software/pc-emul/memory.cpp:198-222 | skipping clear bits does not change the set-bit indices still to come |
| BitArrays.AdvanceWholeBytes | software/pc-emul/memory.cpp:188-223 | when bitSize is a multiple of 8, `++` lands on the next set bit |
| BitArrays.BeginWholeBytes | software/pc-emul/memory.cpp:306-319 | when bitSize is a multiple of 8, `begin()` is the first set bit |
| BitArrays.ElementsWholeBytes | software/pc-emul/memory.cpp:188-228 | when bitSize is a multiple of 8, iterating from any position yields what the reference iterator yields |
| BitArrays.IteratesSetBits | software/pc-emul/memory.cpp:183-327 | when bitSize is a multiple of 8, `begin()`..`end()` yields exactly the set-bit indices in ascending order |
| BitArrays.PartialByteYieldsUnsetBits | software/pc-emul/memory.cpp:188-327 | as written, an array of 5 clear bits yields indices 1, 2, 3, 4 (see Findings) |
| BitArrays.FixedAdvance | software/pc-emul/memory.cpp:188-223 | corrected `++`: moves strictly forward within the array |
| BitArrays.FixedIteratesSetBits | software/pc-emul/memory.cpp:183-327 | the corrected iterator yields exactly the set bits for every bitSize |
| BitArrays.FixedBegin | software/pc-emul/memory.cpp:306-319 | corrected `begin()` stands inside the array or at its end |
| BitArrays.FixedElementsFrom | software/pc-emul/memory.cpp:188-228 | from a set position, the corrected iterator yields exactly the set-bit indices from there on |
| Pools.CalculatePoolInfo | software/pc-emul/memory.cpp:361-370 | the full-page unit count is the most units the page holds after the header; the units, the bitmap and the header together fit the page, and one more unit would not |
| Pools.GetPageInfo | software/pc-emul/memory.cpp:372-379 | the header ends at the page end, and the bitmap ends where the header starts |
| Pools.PageLayout | software/pc-emul/memory.cpp:361-379 | on a page the units come first, then the bitmap, then the header, with no overlap |
| Pools.Init | software/pc-emul/memory.cpp:381-395 | a fresh iterator starts at slot 0 of the first page when that slot is occupied or there is no page; otherwise it stands on the first stop (`FirstStop`) of the walk from slot 0 |
| Pools.Advance | software/pc-emul/memory.cpp:409-432 | `++` stops at the first stop of the slot-by-slot walk: the next occupied slot, the end of the page chain, or the element count; every slot passed over is free, and an iterator already past the count stays put |
| Pools.Next | software/pc-emul/memory.cpp:410-424 | one slot step: the next slot of the same page, or slot 0 of the next page after the last slot, with the element index one higher |
| Pools.Increment | software/pc-emul/memory.cpp:410-424 | the bit-cursor arithmetic of `++` (byte index, bit from 7 down, page switch) computes exactly the slot step `Next` |
| Pools.Walk | software/pc-emul/memory.cpp:409-432 | k slot steps, halted at the end of the page chain, keep the iterator in bounds and its element count and size |
| Pools.WalkStep | software/pc-emul/memory.cpp:409-432 | one more step of a walk still on a page is `Next` of it, and a walk of k steps on a page has advanced the element index by k |
| Pools.FirstStopUnique | software/pc-emul/memory.cpp:409-432 | the first stop of a walk is unique, so `Init` and `Advance` are fully determined by their contracts |
| Pools.Start | software/pc-emul/memory.cpp:381-388 | the iterator `Init` builds before it looks at the bitmap stands at slot 0, element 0, of the first page |
| Pools.Deref | software/pc-emul/memory.cpp:434-443 | dereferencing succeeds exactly on an occupied slot, at page + slot·elemSize |
| Pools.DerefSafe | software/pc-emul/memory.cpp:397-443 | while `HasNext` holds, dereferencing succeeds and the element lies inside the page's unit area |
| MergeConflicts.NodeConflictExactlyOne | software/pc-emul/merge.cpp:84-92 | two node correspondences conflict exactly when one side matches and the other does not |
| MergeConflicts.NodeMappingConflictSymmetric | software/pc-emul/merge.cpp:50-82 | the endpoint-pair conflict is symmetric |
| MergeConflicts.MappingConflictSymmetric | software/pc-emul/merge.cpp:84-141 | the conflict between any two candidates is symmetric, for all kinds of candidate |
| MergeConflicts.NodeMappingConflictIgnoresPorts | software/pc-emul/merge.cpp:28-82 | because of the non-const `==` overload, port numbers never affect an endpoint-pair conflict |
| MergeConflicts.NodeMappingConflictIsIncompatibility | software/pc-emul/merge.cpp:50-82 | for endpoints drawn from two disjoint accelerators with matching declarations, a conflict is exactly an injectivity violation of the two correspondences |
| MergeConflicts.InstancePairs | software/pc-emul/merge.cpp:84-141 | a node candidate proposes one instance correspondence, and an edge candidate one or two |
| MergeConflicts.ConflictIsIncompatibility | software/pc-emul/merge.cpp:84-141 | for candidates whose correspondences respect the two sides, a conflict is exactly some pair of their correspondences breaking injectivity |
| MergeConflicts.EqualPortMappingEquivalence | software/pc-emul/merge.cpp:397-412 | port-mapping equality is reflexive, symmetric and transitive, and equal ports have equal declarations |
| MergeConflicts.Row | software/pc-emul/merge.cpp:443-468 | one pass of an inner candidate loop keeps at most one candidate per element |
| MergeConflicts.Product | software/pc-emul/merge.cpp:443-468 | a nested candidate loop keeps at most one candidate per pair |
| MergeConflicts.RowMembership | software/pc-emul/merge.cpp:443-468 | one pass of an inner candidate loop keeps exactly the pairings that produce a candidate |
| MergeConflicts.ProductMembership | software/pc-emul/merge.cpp:443-468 | a nested candidate loop keeps exactly the pairs of elements that produce a candidate |
| MergeConflicts.ProductAll | software/pc-emul/merge.cpp:443-468 | a property of every value the pairing produces holds of every candidate the nested loop keeps |
| MergeConflicts.EdgeCandidates | software/pc-emul/merge.cpp:443-468 | at most one candidate per pair of edges, and each is an edge correspondence |
| MergeConflicts.EdgeCandidatesMembership | software/pc-emul/merge.cpp:443-468 | the edge candidates are exactly the edge pairs that pass the order filter and match on both endpoints |
| MergeConflicts.NodeCandidates | software/pc-emul/merge.cpp:472-515 | at most one candidate per pair of instances, each pairing an instance of the first accelerator with one of the second |
| MergeConflicts.NodeCandidatesMembership | software/pc-emul/merge.cpp:472-515 | the node candidates are exactly the same-declaration pairs that pass the order filter and where neither instance is an output or an input |
| MergeConflicts.InputCandidates | software/pc-emul/merge.cpp:529-552 | at most one candidate per pair of instances, each pairing two circuit inputs of the same port number |
| MergeConflicts.InputCandidatesMembership | software/pc-emul/merge.cpp:529-552 | the input candidates are exactly the pairs of circuit inputs with the same port id |
| MergeConflicts.OutputCandidate | software/pc-emul/merge.cpp:518-527 | the output pair is a candidate exactly when both accelerators have an output instance, and then it is the only one of this step |
| MergeConflicts.Candidates | software/pc-emul/merge.cpp:436-552 | the list starts with all the edge candidates and holds only node candidates after them |
| MergeConflicts.EdgesFirst | software/pc-emul/merge.cpp:436-552 | in edge candidates followed by node candidates, a position holds an edge candidate exactly when it lies before the node candidates |
| MergeConflicts.CandidatesSided | software/pc-emul/merge.cpp:436-552 | every candidate maps an instance of the first accelerator to one of the second with the same declaration |
| MergeConflicts.EdgeCandidateSided | software/pc-emul/merge.cpp:443-468 | an edge candidate maps endpoints of the first accelerator to endpoints of the second |
| MergeConflicts.CandidatesFiltered | software/pc-emul/merge.cpp:414-552 | in exact-order mode, edge candidates lie in the order window; a node candidate is the output pair, a same-id input pair, or a pair passing the node filters |
| MergeConflicts.CandidatesIncludeFixedPairs | software/pc-emul/merge.cpp:518-552 | the output pair and every same-id input pair are always candidates |
| MergeConflicts.CandidateConflicts | software/pc-emul/merge.cpp:554-567 | between candidates of two disjoint accelerators, a conflict is exactly an injectivity violation |
| ConsolidationGraphs.RowEdges | software/pc-emul/merge.cpp:559-581 | one pass of the inner pair loop makes edges from vertex i to lower vertices only |
| ConsolidationGraphs.RowEdgesMembership | software/pc-emul/merge.cpp:559-581 | that pass makes exactly the edges from i to the lower vertices it does not conflict with |
| ConsolidationGraphs.CompatibilityEdges | software/pc-emul/merge.cpp:554-582 | every compatibility edge joins a vertex to a strictly lower one |
| ConsolidationGraphs.RowEdgesSorted | software/pc-emul/merge.cpp:559-581 | one pass makes its edges in increasing order of the lower vertex |
| ConsolidationGraphs.CompatibilityEdgesSorted | software/pc-emul/merge.cpp:558-582 | the edges come out in lexicographic order of (higher, lower) vertex |
| ConsolidationGraphs.CompatibilityEdgesMembership | software/pc-emul/merge.cpp:554-582 | an edge is made exactly for each pair ii < i of non-conflicting candidates |
| ConsolidationGraphs.CompatibilityEdgesDistinct | software/pc-emul/merge.cpp:554-582 | no pair of vertices is joined twice, in either direction |
| ConsolidationGraphs.CompatibilityEdgesGraph | software/pc-emul/merge.cpp:554-582 | the edges form the compatibility graph: in range, no self-loops, only compatible pairs, no repeats, and every compatible pair joined |
| ConsolidationGraphs.CompatibilityEdgesCompatible | software/pc-emul/merge.cpp:565-567 | no edge joins two conflicting candidates |
| ConsolidationGraphs.CompatibilityEdgesNoRepeats | software/pc-emul/merge.cpp:558-582 | no two edges join the same unordered pair |
| ConsolidationGraphs.CompatibilityEdgesComplete | software/pc-emul/merge.cpp:558-582 | every compatible pair of distinct candidates is joined by some edge |
| ConsolidationGraphs.FindMinimum | software/pc-emul/merge.cpp:607-616 | returns -1 when every degree is at least 999999; otherwise the first index of least degree |
| ConsolidationGraphs.RemoveVertex | software/pc-emul/merge.cpp:621-633 | each vertex loses one degree per edge it shares with the removed vertex |
| ConsolidationGraphs.CountDegrees | software/pc-emul/merge.cpp:591-603 | each vertex's degree is the number of edge ends at it |
| ConsolidationGraphs.LiveSplit | software/pc-emul/merge.cpp:621-633 | each edge at a vertex either still counts toward its live degree or has been subtracted by the removal of its other end |
| ConsolidationGraphs.EndsWithoutLoops | software/pc-emul/merge.cpp:591-603 | without self-loops, the counted degree is the number of edges at the vertex |
| ConsolidationGraphs.NeighboursCount | software/pc-emul/merge.cpp:591-603 | with no self-loops and no repeated pairs, the edges at a vertex lead to as many distinct other vertices |
| ConsolidationGraphs.DegreeBelow | software/pc-emul/merge.cpp:591-603 | in such a graph on n vertices, no degree exceeds n − 1 |
| ConsolidationGraphs.MinimumRemains | software/pc-emul/merge.cpp:606-636 | while a vertex remains unpicked (and n ≤ 50000), the minimum search picks the first unpicked vertex of least live degree |
| ConsolidationGraphs.RemovalKeepsBounds | software/pc-emul/merge.cpp:621-635 | after removal, picked vertices stay near the 99999 mark and every unpicked vertex's array entry is its live degree |
| ConsolidationGraphs.ChoiceStep | software/pc-emul/merge.cpp:606-636 | appending a round's minimum choice extends the elimination order |
| ConsolidationGraphs.InverseIsPermutation | software/pc-emul/merge.cpp:605-636 | a labelling that inverts the picking order is a permutation |
| ConsolidationGraphs.OrderStep | software/pc-emul/merge.cpp:618-619 | recording a pick extends the partial labelling consistently |
| ConsolidationGraphs.MinimumDegreeOrder | software/pc-emul/merge.cpp:591-636 | for a graph with no self-loops or repeated pairs on at most 50000 vertices, `indexToMinimumNode` is a permutation that gives position r to the r-th vertex removed, where each round removes the first remaining vertex of least live degree |
| ConsolidationGraphs.Relabel | software/pc-emul/merge.cpp:649-671 | every candidate moves to its new position, and each edge is rewritten to join the same two candidates there |
| ConsolidationGraphs.Reorder | software/pc-emul/merge.cpp:589-671 | the new position r holds the r-th candidate of the minimum-degree elimination order; the reordering is a permutation that keeps every candidate and every edge's endpoints |
| ConsolidationGraphs.RelabelKeepsGraph | software/pc-emul/merge.cpp:649-671 | relabelling preserves every property of the compatibility graph |
| ConsolidationGraphs.RelabelKeepsJoins | software/pc-emul/merge.cpp:649-671 | after relabelling, every compatible pair is still joined |
| ConsolidationGraphs.RelabelKeepsEdges | software/pc-emul/merge.cpp:649-671 | after relabelling, edges stay in range, loop-free, compatible and unrepeated |
| ConsolidationGraphs.RelabelKeepsCandidates | software/pc-emul/merge.cpp:649-655 | relabelling keeps exactly the same set of candidates |
| ConsolidationGraphs.GenerateConsolidationGraph | software/pc-emul/merge.cpp:436-699 | defined for every input whose graph, if it fits, has at most 50000 candidates; the edge count always counts every compatible pair and every candidate is kept; on overrun the unreordered prefix is returned with no valid-node set; otherwise the result is the compatibility graph with every node valid |
| Cliques.Count | software/pc-emul/merge.cpp:182-191 | `ValidNodes` counts the set bits |
| Cliques.CountSubset | software/pc-emul/merge.cpp:182-191 | a sub-selection counts no more, and strictly fewer if it misses a selected vertex |
| Cliques.FirstValid | software/pc-emul/merge.cpp:291-296 | the scan finds the lowest selected vertex |
| Cliques.FirstValidFrom | software/pc-emul/merge.cpp:291-296 | scanning from a clear prefix finds a selected vertex with nothing selected before it |
| Cliques.AdjacentStep | software/pc-emul/merge.cpp:332-340 | adjacency through a list of edges grows one edge at a time |
| Cliques.CalculateNeighborsTable | software/pc-emul/merge.cpp:325-343 | row i, column j of the table is set exactly when an edge joins i and j; with no self-loops it is symmetric and irreflexive |
| Cliques.ValidDegree | software/pc-emul/merge.cpp:216-232 | the counted degree is at most the edge count |
| Cliques.DegreeCounts | software/pc-emul/merge.cpp:216-232 | with no self-loops or repeated pairs, the counted degree is the number of selected neighbours |
| Cliques.NeighboursStep | software/pc-emul/merge.cpp:217-231 | the last edge adds one selected neighbour exactly when it touches the vertex and its other end is selected |
| Cliques.IsClique | software/pc-emul/merge.cpp:198-242 | reports success exactly when every selected vertex has (count - 1) selected neighbours; on failure, names the first selected vertex that fails |
| Cliques.CountValidNeighbours | software/pc-emul/merge.cpp:216-232 | the inner loop counts the selected neighbours of a vertex |
| Cliques.IsCliqueExact | software/pc-emul/merge.cpp:198-242 | with no self-loops or repeated pairs, the counting test holds exactly when the selected vertices are pairwise adjacent |
| Cliques.NeighboursExcludeSelf | software/pc-emul/merge.cpp:216-232 | without self-loops a vertex is not its own neighbour |
| Cliques.NotAdjacentToSelf | software/pc-emul/merge.cpp:325-343 | with no self-loops, no vertex is adjacent to itself |
| Cliques.DistinctElements | software/pc-emul/merge.cpp:268-270 | a record of distinct indices marks as many vertices as it is long |
| Cliques.RecordIsClique | software/pc-emul/merge.cpp:262-273 | the vertices the record marks are pairwise neighbours, and their count equals the record's length |
| Cliques.ExtendRecord | software/pc-emul/merge.cpp:304-315 | picking a candidate and intersecting with its neighbours yields a larger record that still covers the remaining candidates |
| Cliques.Clique | software/pc-emul/merge.cpp:259-323 | the search never lowers the recorded maximum, keeps the best clique valid, and records at least the current size when no candidates remain |
| Cliques.SeedVertex | software/pc-emul/merge.cpp:357-370 | seeding at vertex i keeps the state valid, gives a maximum of at least one, sets `table[i]` to that maximum, and leaves every other table entry unchanged |
| Cliques.MaxClique | software/pc-emul/merge.cpp:345-394 | the returned selection is pairwise adjacent, and its size is the recorded maximum (at least one for a non-empty graph), which the table entry of the last vertex seeded records; with no repeated pairs the final clique check passes |
| Cliques.NeighboursArePairs | software/pc-emul/merge.cpp:325-343 | pairwise neighbours in the table are pairwise adjacent in the edge list |
| GraphMappings.DoInsertMapping | software/pc-emul/merge.cpp:782-791 | succeeds unless the key already maps elsewhere; the key maps to the value and other entries are kept |
| GraphMappings.DoInsertMappingIdempotent | software/pc-emul/merge.cpp:782-791 | inserting the same pair a second time changes nothing |
| GraphMappings.InsertMapping | software/pc-emul/merge.cpp:793-796 | succeeds exactly when neither direction already maps elsewhere; the edge map is untouched |
| GraphMappings.InverseIsConsistent | software/pc-emul/merge.cpp:793-796 | mutually inverse maps describe an injective correspondence |
| GraphMappings.InsertMappingKeepsInverse | software/pc-emul/merge.cpp:793-796 | insertion succeeds exactly when the new pair keeps the correspondence injective; the maps then stay mutual inverses and gain exactly that pair |
| GraphMappings.InsertNodeExact | software/pc-emul/merge.cpp:852-864 | inserting a candidate succeeds exactly when its correspondences keep the mapping injective, and adds exactly them |
| GraphMappings.InsertEdgeExact | software/pc-emul/merge.cpp:856-864 | the same for an edge candidate's two endpoint correspondences |
| GraphMappings.ConsistentSubset | software/pc-emul/merge.cpp:845-865 | any part of an injective correspondence is injective |
| GraphMappings.FoldCliqueExact | software/pc-emul/merge.cpp:845-865 | folding the selected candidates succeeds exactly when their correspondences together are injective, and the result holds exactly those |
| GraphMappings.FoldStep | software/pc-emul/merge.cpp:845-865 | one more candidate carries the fold's exactness from the prefix to the whole |
| GraphMappings.InsertNode | software/pc-emul/merge.cpp:852-864 | inserting a candidate never overwrites an edge-map entry; an edge candidate's edge is then recorded, and a node candidate leaves the edge map as it was |
| GraphMappings.FoldClique | software/pc-emul/merge.cpp:845-865 | a successful fold records the edge of every selected edge candidate |
| GraphMappings.ChosenPairsMembership | software/pc-emul/merge.cpp:845-865 | the folded correspondences are exactly those of the selected candidates |
| GraphMappings.CliqueFoldSucceeds | software/pc-emul/merge.cpp:845-865 | folding a clique of self-consistent candidates of two disjoint accelerators never hits the remap assertion |
| GraphMappings.AdjacentCompatible | software/pc-emul/merge.cpp:554-582 | adjacent vertices of the compatibility graph do not conflict |
| GraphMappings.ConsolidationGraphMapping | software/pc-emul/merge.cpp:798-900 | defined whenever the consolidation graph, if it fits, has at most 50000 candidates; a returned mapping has mutually inverse maps, and for disjoint accelerators with self-consistent candidates the mapping always succeeds |
| VersatCore.CheckName | software/pc-emul/versat.cpp:1167-1184 | accepts exactly the names whose every character is a letter, '_', '.', '/', or a digit not at position 0; the empty name is accepted |
| VersatCore.CheckNameCharacterClass | software/pc-emul/versat.cpp:1167-1184 | a name is accepted exactly when it does not start with a digit and every character is allowed, and a valid name stays valid with any allowed suffix |
| VersatCore.SubU32Below | software/pc-emul/versat.cpp:2070 | unsigned subtraction goes below v exactly when it does not wrap around |
| VersatCore.Bin | software/pc-emul/versat.cpp:2065-2078 | the buffer is 32 binary digits, most significant first, spelling the value |
| VersatCore.BinDigitStep | software/pc-emul/versat.cpp:2069-2076 | each step appends the next binary digit and keeps the spelled prefix plus the remainder equal to the value |
| VersatCore.BinDigit | software/pc-emul/versat.cpp:2070-2075 | the digit the wrap-around test chooses keeps the prefix and the remainder summing to the value |
| VersatCore.ResetMapping | software/pc-emul/versat.cpp:1959-1965 | the reset identifier is "aaaa", spelling 0 |
| VersatCore.SpelledAllA | software/pc-emul/versat.cpp:1959-1965 | all 'a' letters spell 0 |
| VersatCore.SpelledUpdate | software/pc-emul/versat.cpp:1967-1978 | changing one letter changes the spelled number by the difference times that letter's power of 26 |
| VersatCore.SpelledAllZ | software/pc-emul/versat.cpp:1967-1978 | all 'z' letters spell the largest value 26^n - 1 |
| VersatCore.SpelledBounds | software/pc-emul/versat.cpp:1967-1978 | lower-case letters spell a number below 26^n |
| VersatCore.IncrementFrom | software/pc-emul/versat.cpp:1967-1978 | from letter i, a successful increment keeps four lower-case letters, leaves the letters right of i alone, and counts one increment per letter it touches (at least one, at most i + 1) |
| VersatCore.IncrementMapping | software/pc-emul/versat.cpp:1967-1978 | a successful increment keeps four lower-case letters and counts one to four increments |
| VersatCore.IncrementFromAdds | software/pc-emul/versat.cpp:1967-1978 | incrementing from letter i fails exactly when letters 0..i are all 'z', and otherwise adds 26^(3-i) |
| VersatCore.IncrementCarries | software/pc-emul/versat.cpp:1970-1973 | a 'z' rolls to 'a' and carries into the next letter to the left |
| VersatCore.CarrySpelled | software/pc-emul/versat.cpp:1970-1973 | rolling a 'z' over to 'a' while adding one to the letter on its left keeps the spelled number |
| VersatCore.IncrementMappingCounts | software/pc-emul/versat.cpp:1967-1978 | `IncrementMapping` adds exactly one to the base-26 number, and fails only on "zzzz" |
| VersatCore.AfterIncrements | software/pc-emul/versat.cpp:1959-1978 | n increments after a reset leave a well-formed identifier when they succeed |
| VersatCore.AfterIncrementsSpells | software/pc-emul/versat.cpp:1959-1978 | after a reset, n < 26^4 increments spell n in base 26 ('a' = 0, rightmost least significant), and the 26^4-th asserts |
| VersatCore.OutputPortCount | software/pc-emul/versat.cpp:978-987 | the output count exceeds every port of an edge endpoint on the output instance, and is one more than a port actually used |
| VersatCore.Outputs | software/pc-emul/versat.cpp:978-987 | no output instance means no outputs |
| VersatCore.ConnectUnitsWithDelay | software/pc-emul/versat.cpp:2509-2526 | fails exactly when an instance is foreign or a port is out of range; otherwise appends exactly the one edge with the given ports and delay |
| VersatCore.ConnectKeepsValid | software/pc-emul/versat.cpp:2509-2526 | connecting keeps every edge between instances of the accelerator, and the two ports are then connected |
| VersatCore.ConnectUnitsIfNotConnected | software/pc-emul/versat.cpp:2528-2539 | an existing connection leaves the accelerator unchanged; otherwise one zero-delay edge is added |
| VersatCore.ConnectIfNotConnectedIdempotent | software/pc-emul/versat.cpp:2528-2539 | repeating the call adds nothing further |
| VersatCore.ConnectKeepsValidEdge | software/pc-emul/versat.cpp:2505-2526 | after `ConnectUnits` the two ports are connected |
| VersatCore.RemoveFUInstance | software/pc-emul/versat.cpp:1218-1231 | the instance is gone, exactly the edges touching it are gone, and all other instances and edges remain |
| VersatCore.RemoveKeepsValid | software/pc-emul/versat.cpp:1218-1231 | removing a non-output instance keeps every edge between instances of the accelerator |
| VersatCore.SetDebug | software/pc-emul/versat.cpp:370-399 | returns the flag's previous value, sets that flag, and changes no other flag |
| VersatCore.SetDebugUndo | software/pc-emul/versat.cpp:370-399 | setting a flag back to the returned value restores the original state |
| MemoryMaps.CeilLog2 | software/pc-emul/versat.cpp:1015-1049 | reference: the least exponent whose power of two covers x |
| MemoryMaps.CarryKeepsWeight | software/pc-emul/versat.cpp:1019-1022 | carrying pairs of regions to the next level keeps the total address space |
| MemoryMaps.MergeWeight | software/pc-emul/versat.cpp:1041-1043 | merging the two lowest single regions raises the total by 2^second - 2^first |
| MemoryMaps.MergeInSourceOrder | software/pc-emul/versat.cpp:1041-1043 | clearing both levels and incrementing level max(first, second) + 1 is the merge |
| MemoryMaps.MergeBound | software/pc-emul/versat.cpp:1041-1043 | a merge never pushes the total past the next power of two above it |
| MemoryMaps.Histogram | software/pc-emul/versat.cpp:942-966 | the per-level counts have 32 non-negative entries |
| MemoryMaps.HistogramWeight | software/pc-emul/versat.cpp:964-966 | the counts' total address space is the sum of 2^bits over the units |
| MemoryMaps.CarryFacts | software/pc-emul/versat.cpp:1019-1022 | one carry keeps the total, leaves at most one region at its level, and touches only two levels |
| MemoryMaps.PassCarryStep | software/pc-emul/versat.cpp:1018-1024 | a carry step at a non-empty level keeps the pass invariant and records that level as `last` |
| MemoryMaps.PassSkipStep | software/pc-emul/versat.cpp:1018-1024 | an empty level keeps the pass invariant |
| MemoryMaps.CarryPass | software/pc-emul/versat.cpp:1018-1024 | a carry pass keeps the total, leaves every level with at most one region, and sets `last` to the highest occupied level |
| MemoryMaps.FindPair | software/pc-emul/versat.cpp:1026-1035 | finds the lowest level holding a single region and the next one above it, or reports none |
| MemoryMaps.UnitBits | software/pc-emul/versat.cpp:964-966 | the bit counts are exactly those of the memory-mapped units |
| MemoryMaps.SizingStep | software/pc-emul/versat.cpp:1017-1044 | one round either settles or strictly grows the total within the covering power of two |
| MemoryMaps.NoPairSettled | software/pc-emul/versat.cpp:1037-1039 | when no pair remains, the counts have settled |
| MemoryMaps.MergeStep | software/pc-emul/versat.cpp:1041-1043 | a merge strictly grows the total and stays within the covering power of two |
| MemoryMaps.FinalLevel | software/pc-emul/versat.cpp:1046-1049 | the single remaining level is the least exponent covering the total |
| MemoryMaps.SingleLevelWeight | software/pc-emul/versat.cpp:1046-1049 | a single set level b stands for 2^b addresses |
| MemoryMaps.CeilLog2Below | software/pc-emul/versat.cpp:1015-1049 | a total of at most 2^e needs at most e bits |
| MemoryMaps.LeastExponent | software/pc-emul/versat.cpp:1046-1049 | a power of two between the total and its ceiling power is that ceiling power |
| MemoryMaps.CeilLog2OfPow2 | software/pc-emul/versat.cpp:1015-1049 | a single unit of b bits needs exactly b bits |
| MemoryMaps.MemoryMapSizing | software/pc-emul/versat.cpp:942-1049 | the accelerator is memory-mapped exactly when some unit is; its bits are then the least b with 2^b ≥ Σ 2^(unit bits), and the loop ends with that one level set |
| SpecParser.GetIndex | software/pc-emul/versatSpecificationParser.cpp:20-29 | returns the first index holding the name, and asserts when there is none |
| SpecParser.ParseBounds | software/pc-emul/versatSpecificationParser.cpp:49-60 | a bound without `..` has its end equal to its start |
| SpecParser.ParseDelay | software/pc-emul/versatSpecificationParser.cpp:44-64 | without `[` the delay range is 0..0 and nothing is consumed |
| SpecParser.ParsePort | software/pc-emul/versatSpecificationParser.cpp:66-82 | without `:` the port range is 0..0 and nothing is consumed |
| SpecParser.ParseVar | software/pc-emul/versatSpecificationParser.cpp:39-96 | a parsed variable has ordered ranges, is named by the first token, and consumes input |
| SpecParser.ParseVarRoundTrip | software/pc-emul/versatSpecificationParser.cpp:39-96 | parsing the full spelling `name[d0..d1]:p0..p1` gives back an ordered variable and fails on a reversed range |
| SpecParser.ParseVarDefaults | software/pc-emul/versatSpecificationParser.cpp:44-67 | a bare name has delay 0..0 and port 0..0 |
| SpecParser.ParseVarSingleRanges | software/pc-emul/versatSpecificationParser.cpp:49-81 | `name[d]:p` gives the ranges d..d and p..p |
| SpecParser.ExpandConnection | software/pc-emul/versatSpecificationParser.cpp:340-377 | accepted exactly when the ranges agree; then exactly inRange edges, one into each input port; a single out port fans out, otherwise ports and delays pair one to one |
| SpecParser.AddEdges | software/pc-emul/versatSpecificationParser.cpp:366-377 | the edges are appended in order with the given ports and delays |
| SpecParser.ConnectToOut | software/pc-emul/versatSpecificationParser.cpp:353-361 | a connection into `out` leaves the module with an output instance and an output count covering its port range, the least such count not below the old one; the instance is created only if there was none |
| SpecParser.OutputsAfter | software/pc-emul/versatSpecificationParser.cpp:353-361 | the output count covers every port range into `out` and is reached by one; the output instance exists exactly when `out` is a target, created once |
| SpecParser.OperatorType | software/pc-emul/versatSpecificationParser.cpp:140-161 | exactly the eight listed operators have a unit type; any other operator aborts |
| SpecParser.OperatorTypeInverse | software/pc-emul/versatSpecificationParser.cpp:140-161 | the operator-to-type mapping is one to one |
| SpecParser.Expression | software/pc-emul/versatSpecificationParser.cpp:129-171 | a lone term followed by `;` is that term's instance; otherwise a new unit of the operator's type takes the first term on port 0 and the second on port 1 |
| VerilogParser.ExtendsKeepsLookups | software/pc-emul/verilogParser.cpp:319-321 | binding default values for missing names never changes what any lookup returns |
| VerilogParser.ExtendsTransitive | software/pc-emul/verilogParser.cpp:319-321 | adding defaults twice is adding defaults once |
| VerilogParser.Apply | software/pc-emul/verilogParser.cpp:296-316 | only `+`, `-`, `*` and `/` (by first character) apply; a successful `+`, `-` or `*` yields the sum, difference or product; division by zero fails and otherwise truncates toward zero; results stay 32-bit |
| VerilogParser.ApplySucceeds | software/pc-emul/verilogParser.cpp:296-316 | each operator succeeds exactly when its 32-bit result does not overflow, and a successful division yields the C quotient |
| VerilogParser.Eval | software/pc-emul/verilogParser.cpp:290-332 | evaluation only adds default bindings for unknown identifiers to the map |
| VerilogParser.Meaning | software/pc-emul/verilogParser.cpp:290-332 | reference: the value of an expression, where an operation yields a plain number |
| VerilogParser.MeaningUnderDefaults | software/pc-emul/verilogParser.cpp:319-321 | the meaning is unaffected by default bindings added to the map |
| VerilogParser.EvalMeaning | software/pc-emul/verilogParser.cpp:290-332 | `Eval` succeeds exactly when the meaning is defined, returns it, and leaves every identifier of the expression bound |
| VerilogParser.EvalStable | software/pc-emul/verilogParser.cpp:290-332 | evaluating again in the updated map gives the same value and map |
| VerilogParser.IfTaken | software/pc-emul/verilogParser.cpp:41-55 | only `ifdef`, `elsif` and `ifndef` are accepted directives |
| VerilogParser.IfdefIfndefComplementary | software/pc-emul/verilogParser.cpp:41-55 | `ifdef` and `elsif` take the branch exactly when the macro is defined; `ifndef` exactly when it is not |
| Tokens.Peek | software/pc-emul/verilogParser.cpp:244 | the parsers' look-ahead is the first token still to be read, or the empty token once none is left |
| VerilogParser.ParseAtom | software/pc-emul/verilogParser.cpp:241-272 | a leading digit gives a number literal and an identifier consumes one token |
| VerilogParser.ParseAtomRoundTrip | software/pc-emul/verilogParser.cpp:241-272 | parsing the spelling of a number, string or identifier gives it back and leaves the rest |
| VerilogParser.ParseRange | software/pc-emul/verilogParser.cpp:380-400 | without `[` the range is {0, 0} and nothing is consumed |
| VerilogParser.ParseRangeMeaning | software/pc-emul/verilogParser.cpp:380-400 | `[high:low]` evaluates high first and then low, and succeeds exactly when both are defined |
| VerilogParser.ParseAssignment | software/pc-emul/verilogParser.cpp:357-368 | an assignment fails on an exhausted stream, where `AssertNextToken("=")` fails; otherwise it consumes its name and value, and only adds default bindings to the map |
| VerilogParser.ParseParametersFrom | software/pc-emul/verilogParser.cpp:342-369 | the list ends before `)` or just after `;` |
| VerilogParser.ParseParameters | software/pc-emul/verilogParser.cpp:334-372 | the running map keeps every name it had |
| VerilogParser.ParseParametersKeys | software/pc-emul/verilogParser.cpp:342-369 | the loop never drops a name from either map |
| VerilogParser.ParametersInValues | software/pc-emul/verilogParser.cpp:366-367 | every returned parameter is also stored, with the same value, in the running map |
| VerilogParser.ParametersInValuesFrom | software/pc-emul/verilogParser.cpp:342-369 | from any point of the list, every parameter returned is stored with the same value in the running map |
| VerilogParser.AssignmentStep | software/pc-emul/verilogParser.cpp:357-368 | an assignment stores its value in both maps before the loop goes on |
| VerilogParser.NumberAssignment | software/pc-emul/verilogParser.cpp:357-368 | `name = 5` binds the number |
| VerilogParser.IdentifierAssignment | software/pc-emul/verilogParser.cpp:357-368 | `name = other` binds other's value, defaulting it if unknown |
| VerilogParser.LaterAssignmentWins | software/pc-emul/verilogParser.cpp:357-368 | a later assignment to the same name overwrites the earlier one in both maps |
| VerilogParser.ParameterReadsEarlierOne | software/pc-emul/verilogParser.cpp:362-366 | a parameter may be defined by one assigned earlier in the same list |
| MemPort.MemRead | software/pc/mem.cpp:4-17 | a read succeeds exactly inside the memory |
| MemPort.MemWrite | software/pc/mem.cpp:18-29 | a write succeeds exactly inside the memory and keeps its size |
| MemPort.ReadAfterWrite | software/pc/mem.cpp:4-29 | reading a written address returns the value, and other addresses are unchanged |
| MemPort.Agu | software/pc/mem.cpp:158-193 | an exhausted nest returns 0 and resets the counters; otherwise the next position is the address plus `incr` |
| MemPort.RankInside | software/pc/mem.cpp:158-185 | loop indices in range have a position below iter2·per2·iter·per |
| MemPort.RankInjective | software/pc/mem.cpp:158-185 | distinct loop indices have distinct positions in the sequence |
| MemPort.RankBound | software/pc/mem.cpp:158-185 | the position of an aligned state lies between 0 and iter2·per2·iter·per |
| MemPort.EmittedIndices | software/pc/mem.cpp:167-172 | the address emitted just before position n + 1 is the one with position n |
| MemPort.CarryInner | software/pc/mem.cpp:174-176 | closing the innermost loop adds `shift` and keeps the position in the sequence |
| MemPort.CarryMiddle | software/pc/mem.cpp:178-180 | closing the third loop adds `incr2` and keeps the position in the sequence |
| MemPort.CarryOuter | software/pc/mem.cpp:182-184 | closing the second loop adds `shift2` and keeps the position in the sequence |
| MemPort.Emit | software/pc/mem.cpp:167-172 | emitting advances `pos` by `incr` and the position by one |
| MemPort.EmitSteps | software/pc/mem.cpp:167-172 | a state inside every loop emits its address and moves one position forward |
| MemPort.InnerCarrySteps | software/pc/mem.cpp:174-176 | a state whose innermost counter has run out still emits the next address in sequence |
| MemPort.MiddleCarrySteps | software/pc/mem.cpp:178-180 | a state whose third loop has run out still emits the next address in sequence |
| MemPort.OuterCarrySteps | software/pc/mem.cpp:182-184 | a state whose second loop has run out still emits the next address in sequence |
| MemPort.DoneSteps | software/pc/mem.cpp:186-192 | a state past the outermost loop reports done and resets |
| MemPort.AguStep | software/pc/mem.cpp:158-193 | from any consistent state one call either reports done at the end or emits the address of the current indices and moves one forward |
| MemPort.RunAligned | software/pc/mem.cpp:100-193 | after n calls from a fresh start the counters stand at position n |
| MemPort.AguCount | software/pc/mem.cpp:158-193 | from a fresh start the generator yields exactly iter2·per2·iter·per addresses before reporting done |
| MemPort.AguZeroCount | software/pc/mem.cpp:158-193 | any zero count yields no address |
| MemPort.AguAddressAt | software/pc/mem.cpp:100-185 | the address emitted for loop indices (a, b, c, d) is start + a·stride2 + b·stride1 + c·stride0 + d·incr |
| MemPort.PortRead | software/pc/mem.cpp:442-451 | after the run a port read returns 0; before, it is the memory read |
| MemPort.PortWrite | software/pc/mem.cpp:435-440 | after the run a port write does nothing; before, it is the memory write |
| MemPort.ResetPort | software/pc/mem.cpp:53-60 | reset clears the start delay and leaves `pos` |
| MemPort.StartRun | software/pc/mem.cpp:100-114 | a run starts not done, with the configured delay |
| MemPort.ResetThenStart | software/pc/mem.cpp:53-114 | reset followed by start puts the generator at its fresh state |
| MemPort.Output | software/pc/mem.cpp:195-207 | while the delay runs nothing changes; after the run the output is 0 |
| MemPort.OutputAccess | software/pc/mem.cpp:195-229 | a live port reads or writes the generated address, failing exactly outside the memory, and keeps the generator's new counters |
| MemPort.TrickleAsWritten | software/pc/mem.cpp:148-154 | as written, the upward copy loop fills every slot after the first with the old first slot |
| MemPort.TrickleLosesWords | software/pc/mem.cpp:148-154 | as written, line [5, 6, 7] with new output 8 becomes [8, 5, 5] instead of [8, 5, 6] |
| MemPort.Trickle | software/pc/mem.cpp:148-154 | corrected: the line shifts by one and the new output enters at the front |
| MemPort.Pushed | software/pc/mem.cpp:148-154 | the corrected shift keeps the delay line's length |
| MemPort.PushedDelays | software/pc/mem.cpp:148-154 | with the corrected shift, a value pushed m updates ago sits in slot m |
| MemPort.UpdateAsWritten | software/pc/mem.cpp:115-156 | as written: while the delay runs it only counts down; otherwise it publishes the last slot and smears the first |
| MemPort.Update | software/pc/mem.cpp:115-156 | corrected: it publishes the last slot and shifts the delay line by one |
| MemPort.SetIncr2AsWritten | software/pc/mem.cpp:413-422 | as written, the member keeps its value and the configuration register takes a copy of it |
| MemPort.SetIncr2IgnoresArgument | software/pc/mem.cpp:413-422 | as written, the result does not depend on the argument: registers (0, 0) set to 4 stay (0, 0) |
| MemPort.SetIncr2 | software/pc/mem.cpp:413-422 | corrected: both registers take the argument |
| MemPort.SetIncr2Stores | software/pc/mem.cpp:413-422 | corrected: a later set overrides an earlier one |

## Left out

- Wall-clock deadline of the clique search: `std::chrono` readings become a tick counter against a `limit` parameter. Validity of the result is proved; maximality is not.
- Cliques.Clique: maximality of the found clique is not stated; only validity, monotone maximum and the table discipline.
- File and console I/O: `printf`, `OutputConsolidationGraph`, VCD printing, `PushFile`, `PointArena` and the string pushers. None of them affects the modelled state.
- OS pages (`GetPageSize`, `AllocatePages`, `DeallocatePages`): the page size is a parameter and pages are a map from address to page.
- `Pool<T>` and `Hashmap` method bodies are not part of this model. Only `CalculatePoolInfo`, `GetPageInfo` and `GenericPoolIterator` are modelled.
- The tokenizer, `ParseInt` and `ParseOperationType` are not part of this model: they are parameters over token sequences.
- In verilogParser.cpp, the region-copying loop of `DoIfStatement` (file inclusion and macro substitution) is left out; only its branch decision is modelled. `PreprocessVerilogFile` and `ParseModule` ports are left out.
- VerilogParser.ParseAtom: a string literal is taken as one token between quote tokens; the `PeekFindUntil` scan is not modelled.
- The Verilog `Value` layout is not part of this model: it is a (number, text) record, default (0, "").
- VerilogParser.Apply: 32-bit overflow, which the source leaves undefined, is modelled as a failure.
- ConsolidationGraphs.GenerateConsolidationGraph: the arena pushes of the candidate and edge arrays (merge.cpp lines 457, 505, 520, 544, 592, 605, 649 and 695) are unguarded in the source; the model assumes they fit.
- ConsolidationGraphs.MinimumDegreeOrder: requires at most 50000 vertices, as do Reorder, GenerateConsolidationGraph (on the path that reorders) and GraphMappings.ConsolidationGraphMapping. Beyond 2·(n − 1) ≥ 99999 a removed vertex's 99999 sentinel could fall below a live degree, and the order is then no longer a minimum-degree order.
- UtilsCommon.RoundUpDiv, UtilsCommon.CDiv and UtilsCommon.CRem: require a non-zero divisor, because C division by zero is undefined and every caller divides by a constant or a checked size.
- Arenas.InitArena: requires `size` < 2^64, the range of its `size_t` parameter.
- Arenas.SubArena: the child holds a copy of the carved bytes, while the source's child shares the parent's buffer. Bytes written through the child therefore never reach the parent's `mem`; only `used` flows back through `PopToSubArena`.
- Pools.CalculatePoolInfo: requires a page size of at least the 16-byte header and a positive element size, as do Pools.Start, Pools.Init and Pools.DerefSafe. These are facts of the environment: the page size comes from the OS and the element size is `sizeof(T)`. Pools.Init and the iterator lemmas also require the page chain to be well formed (`PagesValid`), as the pool builds it.
- Cliques.MaxClique: requires a graph without self-loops. It is only called on consolidation graphs, which have none: ConsolidationGraphs.CompatibilityEdgesMembership shows every compatibility edge joins two distinct vertices.
- MemoryMaps.MemoryMapSizing: requires Σ 2^(unit bits) ≤ 2^30. That is exactly when the loop never touches `memoryMapBits[32]`; above it the source writes past the array.
- MemPort.Agu: counters are unbounded integers; the source's `uint32_t` wrap of `pos` is not modelled.
- `MEM_SIZE` and `MEMP_LAT` are the lengths of the data and delay-line sequences. The global `conf`, `shadow_reg` and `stage` arrays and the other register setters are left out; the databus index `sel` is replaced by the input value.
- From utilsCommon.cpp: `SimpleHash`, `SizedStringToCStr`, `FixedStringCpy` and `GetHierarchyNameRepr` (C-string plumbing).
- `CompositeMemoryAccess`: it falls off the end without a return value, which is undefined behaviour.
- `OrderedMatch`, `OrderedFitGraphMapping`, `FirstFitGraphMapping` and the `MergeAccelerator` drivers: they are built on `std::sort` and pointer-linked copies.
- `BinaryRHR`/`BinaryRHL` are left out; only their type names appear in the operator mapping.
- `BitArray::PrintRepresentation` is console output only.
- GraphMappings.CliqueFoldSucceeds: requires every chosen candidate to be self-consistent. An edge candidate pairing a self-loop edge with an ordinary edge is not, and folding it would hit the remap assertion.
- `CalculateAcceleratorValues`: only the memory-map and output-count parts are modelled. The config/state/delay tallies and static-instance bookkeeping are not.

## Findings

| source | as written | input that shows it | evidently intended | confidence | as-written member | corrected member |
|---|---|---|---|---|---|---|
| software/pc-emul/memory.cpp:188-327 | `operator++` scans only whole bytes (`bitSize / 8`), and `end()` stands at (bitSize/8, bitSize%8), so every index of a trailing partial byte is yielded whether set or not | a 5-bit array with byte 0x00 yields 1, 2, 3, 4 | iteration yields exactly the set bits | not executed | BitArrays.PartialByteYieldsUnsetBits | BitArrays.FixedIteratesSetBits |
| software/pc/mem.cpp:148-154 | the delay-line copy runs upward (`output_port[i] = output_port[i-1]` for i = 1..), so every slot receives the old slot 0 | line [5, 6, 7] with `out` = 8 becomes [8, 5, 5] | shift by one: [8, 5, 6] | not executed | MemPort.TrickleLosesWords | MemPort.Update |
| software/pc/mem.cpp:413-422 | `setIncr2(int incr)` assigns the member `incr2` to itself and to `conf`; the argument is dropped | registers (0, 0) set to 4 stay (0, 0) | both become 4 | not executed | MemPort.SetIncr2IgnoresArgument | MemPort.SetIncr2Stores |

=== FILE: accel.dfy ===
/** The accelerator graph shared by the merge engine and `versat.cpp`.

    Pointers to registered declarations and allocated instances are modelled
    by the records themselves: a declaration is identified by its contents
    (declarations are registered once, under distinct names) and an instance
    carries a unique `uid` standing for its address, so two instance records
    are equal exactly when the source's pointers are.
 */
module Accelerators {
  import opened Wrappers

  /** The parts of an `FUDeclaration` the model reads. */
  datatype Decl = Decl(
    name: string,
    nInputs: int,
    nOutputs: int,
    isMemoryMapped: bool,
    memoryMapBits: int)

  /** A `ComplexFUInstance`: `id` is the entity id (for circuit inputs, the
      input port number) and `order` the graph order computed for merging. */
  datatype Instance = Instance(uid: nat, name: string, decl: Decl, id: int, order: int)

  datatype PortInstance = PortInstance(inst: Instance, port: int)

  /** An edge runs from an output port (`units[0]`) to an input port
      (`units[1]`). */
  datatype Edge = Edge(outPort: PortInstance, inPort: PortInstance, delay: int)

  /** An accelerator: its instance and edge pools in iteration order, and the
      circuit's output instance, if any. */
  datatype Accelerator = Accelerator(instances: seq<Instance>, edges: seq<Edge>, output: Option<Instance>)
  {
    /** Edges connect instances of the accelerator, and the output instance is
        one of them. */
    ghost predicate Valid() {
      && (forall e :: e in edges ==> e.outPort.inst in instances && e.inPort.inst in instances)
      && (output.Some? ==> output.value in instances)
    }
  }

  /** The declarations Versat instantiates itself. */
  datatype Versat = Versat(input: Decl, output: Decl)
}

=== FILE: arena.dfy ===
/** The arena (bump) allocator, the size helpers and `PushPtr` of
    `memory.hpp` / `memory.cpp`.

    An arena is a byte buffer starting at address `base`, of which the first
    `used` bytes are handed out. Addresses (`Byte*` in the source) are
    modelled as naturals, so a mark is `base + used`. In the source a
    sub-arena shares its parent's bytes; here the child holds a copy of the
    carved region, and only `used` flows back through `PopToSubArena`.
 */
module Arenas {
  import opened Wrappers
  import opened UtilsCommon

  type Byte = bv8

  /** `size_t` is 64 bits wide. */
  const SIZE_T_MODULUS: nat := 0x1_0000_0000_0000_0000

  /** Conversion of an integer to `size_t`: reduction modulo 2^64. */
  function ToSizeT(x: int): (r: nat)
    ensures r < SIZE_T_MODULUS
  {
    x % SIZE_T_MODULUS
  }

  /** `Kilobyte(int val)`: `val * 1024` is computed in `int`, where overflow
      is undefined (a failure here), and the result is returned as `size_t`;
      so it is defined exactly when |val| is below 2^21, or val = -2^21. */
  function Kilobyte(val: int): (r: Result<nat>)
    ensures r.Success? <==> -0x20_0000 <= val < 0x20_0000
    ensures r.Success? ==> r.value < SIZE_T_MODULUS
  {
    var product := val * 1024;
    if IsInt32(product) then Success(ToSizeT(product)) else Failure("int overflow in Kilobyte")
  }

  /** `Megabyte` and `Gigabyte` multiply the `size_t` result by 1024 again,
      which wraps modulo 2^64. */
  function Megabyte(val: int): (r: Result<nat>)
    ensures r.Success? <==> Kilobyte(val).Success?
    ensures r.Success? ==> r.value < SIZE_T_MODULUS
  {
    var k :- Kilobyte(val);
    Success(ToSizeT(k * 1024))
  }

  function Gigabyte(val: int): (r: Result<nat>)
    ensures r.Success? <==> Kilobyte(val).Success?
    ensures r.Success? ==> r.value < SIZE_T_MODULUS
  {
    var m :- Megabyte(val);
    Success(ToSizeT(m * 1024))
  }

  /** Adding multiples of 2^64 does not change a `size_t` value. */
  lemma ToSizeTShift(y: int, k: int)
    ensures ToSizeT(y + k * SIZE_T_MODULUS) == ToSizeT(y)
  {
    var q := y / SIZE_T_MODULUS;
    var r := y % SIZE_T_MODULUS;
    assert y + k * SIZE_T_MODULUS == (q + k) * SIZE_T_MODULUS + r;
    DivUnique(y + k * SIZE_T_MODULUS, SIZE_T_MODULUS, q + k, r);
  }

  /** Reducing before a multiplication gives the same `size_t` value. */
  lemma ToSizeTMul(x: int, c: int)
    ensures ToSizeT(ToSizeT(x) * c) == ToSizeT(x * c)
  {
    var q := x / SIZE_T_MODULUS;
    assert x * c == ToSizeT(x) * c + (q * c) * SIZE_T_MODULUS;
    ToSizeTShift(ToSizeT(x) * c, q * c);
  }

  /** A defined unit is val·2^10, val·2^20 or val·2^30 read as `size_t`,
      although Megabyte and Gigabyte reduce after every step. */
  lemma SizeUnitValues(val: int)
    requires -0x20_0000 <= val < 0x20_0000
    ensures Kilobyte(val) == Success(ToSizeT(val * 0x400))
    ensures Megabyte(val) == Success(ToSizeT(val * 0x10_0000))
    ensures Gigabyte(val) == Success(ToSizeT(val * 0x4000_0000))
  {
    ToSizeTMul(val * 0x400, 0x400);
    ToSizeTMul(val * 0x10_0000, 0x400);
  }

  /** A non-negative count gives exactly that many bytes. */
  lemma SizeUnitsExact(val: int)
    requires 0 <= val < 0x20_0000
    ensures Kilobyte(val) == Success(val * 0x400)
    ensures Megabyte(val) == Success(val * 0x10_0000)
    ensures Gigabyte(val) == Success(val * 0x4000_0000)
  {
    SizeUnitValues(val);
    DivUnique(val * 0x400, SIZE_T_MODULUS, 0, val * 0x400);
    DivUnique(val * 0x10_0000, SIZE_T_MODULUS, 0, val * 0x10_0000);
    DivUnique(val * 0x4000_0000, SIZE_T_MODULUS, 0, val * 0x4000_0000);
  }

  /** A negative count wraps to a size of at least 2^64 - 2^31. */
  lemma SizeUnitsWrap(val: int)
    requires -0x20_0000 <= val < 0
    ensures Kilobyte(val).Success? && Kilobyte(val).value >= SIZE_T_MODULUS - 0x8000_0000
  {
    DivUnique(val * 0x400, SIZE_T_MODULUS, -1, val * 0x400 + SIZE_T_MODULUS);
  }

  /** `BitToByteSize`: bytes needed to hold `bitSize` bits (C division). */
  function BitToByteSize(bitSize: int): (r: int)
    ensures bitSize >= 0 ==> r >= 0 && 8 * (r - 1) < bitSize <= 8 * r
  {
    CDiv(bitSize + 7, 8)
  }

  function Zeros(n: nat): (z: seq<Byte>)
    ensures |z| == n && forall i :: 0 <= i < n ==> z[i] == 0
  {
    if n == 0 then [] else Zeros(n - 1) + [0]
  }

  datatype Arena = Arena(base: nat, mem: seq<Byte>, used: nat, totalAllocated: nat) {
    ghost predicate Valid() {
      |mem| == totalAllocated && used <= totalAllocated < SIZE_T_MODULUS
    }
  }

  /** `InitArena`: a zeroed buffer of `size` bytes at address `base`
      (the address `calloc` returned), nothing used; `size` is a `size_t`. */
  function InitArena(base: nat, size: nat): (a: Arena)
    requires size < SIZE_T_MODULUS
    ensures a.Valid() && a.used == 0 && a.totalAllocated == size && a.base == base
    ensures forall i :: 0 <= i < size ==> a.mem[i] == 0
  {
    Arena(base, Zeros(size), 0, size)
  }

  /** `MarkArena`: the address of the first unused byte. */
  function MarkArena(a: Arena): (mark: nat)
    ensures mark >= a.base && mark - a.base == a.used
  {
    a.base + a.used
  }

  /** `PopMark`: sets `used` to the distance from the buffer to `mark`, a
      `size_t`: a mark below the buffer wraps around to a huge `used`. */
  function PopMark(a: Arena, mark: nat): (r: Arena)
    ensures a.base <= mark < a.base + SIZE_T_MODULUS ==> r.used == mark - a.base
    ensures mark < a.base <= mark + SIZE_T_MODULUS ==> r.used == SIZE_T_MODULUS - (a.base - mark)
    ensures r.base == a.base && r.mem == a.mem && r.totalAllocated == a.totalAllocated
  {
    a.(used := ToSizeT(mark - a.base))
  }

  /** `PushBytes`: `size` zeroed bytes at the old end; the capacity check is
      strict, so the last byte of the buffer is never handed out. */
  function PushBytes(a: Arena, size: nat): (r: Result<(nat, Arena)>)
    requires a.Valid()
    ensures r.Success? <==> a.used + size < a.totalAllocated
    ensures r.Success? ==>
      var (ptr, a') := r.value;
      && a'.Valid()
      && ptr == a.base + a.used
      && a'.used == a.used + size
      && a'.base == a.base && a'.totalAllocated == a.totalAllocated
      && (forall i :: a.used <= i < a.used + size ==> a'.mem[i] == 0)
      && (forall i :: 0 <= i < a.totalAllocated && !(a.used <= i < a.used + size) ==> a'.mem[i] == a.mem[i])
  {
    if a.used + size < a.totalAllocated then
      var mem' := a.mem[..a.used] + Zeros(size) + a.mem[a.used + size..];
      Success((a.base + a.used, a.(mem := mem', used := a.used + size)))
    else
      Failure("arena out of space")
  }

  /** A C++ block that holds an `ArenaMarker`: its statements push bytes or
      open nested blocks. */
  datatype Block = Block(items: seq<Item>)
  datatype Item = PushItem(size: nat) | NestedBlock(block: Block)

  /** Runs a block: the marker's constructor marks the arena, the items run in
      order, and the destructor pops back to the mark. Every scope, at every
      nesting depth, leaves `used` exactly where it found it. */
  function RunBlock(a: Arena, b: Block): (r: Result<Arena>)
    requires a.Valid()
    ensures r.Success? ==> r.value.Valid() && r.value.base == a.base && r.value.totalAllocated == a.totalAllocated
    ensures r.Success? ==> r.value.used == a.used
    decreases b, 1
  {
    var mark := MarkArena(a);
    var inner :- RunItems(a, b.items);
    Success(PopMark(inner, mark))
  }

  function RunItems(a: Arena, items: seq<Item>): (r: Result<Arena>)
    requires a.Valid()
    ensures r.Success? ==> r.value.Valid() && r.value.base == a.base && r.value.totalAllocated == a.totalAllocated
    ensures r.Success? ==> r.value.used >= a.used
    decreases items, 0
  {
    if |items| == 0 then Success(a)
    else
      var a1 :- RunItem(a, items[0]);
      RunItems(a1, items[1..])
  }

  function RunItem(a: Arena, item: Item): (r: Result<Arena>)
    requires a.Valid()
    ensures r.Success? ==> r.value.Valid() && r.value.base == a.base && r.value.totalAllocated == a.totalAllocated
    ensures r.Success? ==> r.value.used >= a.used
    decreases item, 2
  {
    match item
    case PushItem(size) =>
      var (_, a1) :- PushBytes(a, size);
      Success(a1)
    case NestedBlock(block) =>
      RunBlock(a, block)
  }

  /** `SubArena`: reserves `size` bytes of the parent and returns an empty
      arena over exactly those bytes. */
  function SubArena(parent: Arena, size: nat): (r: Result<(Arena, Arena)>)
    requires parent.Valid()
    ensures r.Success? <==> parent.used + size < parent.totalAllocated
    ensures r.Success? ==>
      var (parent', child) := r.value;
      && parent'.Valid() && child.Valid()
      && parent'.used == parent.used + size
      && child.used == 0 && child.totalAllocated == size
      && child.base == parent.base + parent.used
      && (forall i :: 0 <= i < size ==> child.mem[i] == 0)
      && parent'.base == parent.base && parent'.totalAllocated == parent.totalAllocated
      && (forall i :: 0 <= i < parent.totalAllocated && !(parent.used <= i < parent.used + size) ==>
            parent'.mem[i] == parent.mem[i])
  {
    var (ptr, parent') :- PushBytes(parent, size);
    Success((parent', Arena(ptr, parent'.mem[parent.used..parent.used + size], 0, size)))
  }

  /** `PopToSubArena`: the parent's `used` becomes the child's current end;
      the source asserts that this does not grow the parent. */
  function PopToSubArena(parent: Arena, child: Arena): (r: Result<Arena>)
    ensures r.Success? <==> parent.base <= child.base + child.used <= parent.base + parent.used
    ensures r.Success? ==> r.value.used == child.base + child.used - parent.base
    ensures r.Success? ==> r.value.used <= parent.used
    ensures r.Success? ==>
      r.value.mem == parent.mem && r.value.base == parent.base && r.value.totalAllocated == parent.totalAllocated
  {
    var newUsed := child.base + child.used - parent.base;
    if newUsed < 0 then Failure("sub-arena ends before its parent")
    else if parent.used >= newUsed then Success(parent.(used := newUsed))
    else Failure("sub-arena grew its parent")
  }

  /** Allocating from a sub-arena and handing it back moves the parent to
      exactly the bytes the child used; an untouched child returns the
      parent to where it was before `SubArena`. */
  lemma SubArenaRoundTrip(parent: Arena, size: nat, n: nat)
    requires parent.Valid() && SubArena(parent, size).Success?
    requires var child := SubArena(parent, size).value.1; PushBytes(child, n).Success?
    ensures var (parent', child) := SubArena(parent, size).value;
            var child' := PushBytes(child, n).value.1;
            PopToSubArena(parent', child').Success?
            && PopToSubArena(parent', child').value.used == parent.used + n
            && PopToSubArena(parent', child).value.used == parent.used
  {
  }

  /** `PushPtr<T>`: a cursor over `maximumTimes` slots starting at slot `ptr`. */
  datatype PushPtr = PushPtr(ptr: nat, maximumTimes: int, timesPushed: int)

  /** A view of an array (`Array<T>`) or an allocation (`Allocation<T>`). */
  datatype ArrayView = ArrayView(data: nat, size: int)
  datatype Allocation = Allocation(ptr: nat, size: int, reserved: int)

  /** The three `Init` overloads. */
  function InitPushPtr(ptr: nat, maximum: int): (p: PushPtr)
    ensures p.timesPushed == 0 && p.maximumTimes == maximum && p.ptr == ptr
  {
    PushPtr(ptr, maximum, 0)
  }

  function InitPushPtrFromArray(arr: ArrayView): (p: PushPtr)
    ensures p.timesPushed == 0 && p.maximumTimes == arr.size && p.ptr == arr.data
  {
    PushPtr(arr.data, arr.size, 0)
  }

  function InitPushPtrFromAllocation(alloc: Allocation): (p: PushPtr)
    ensures p.timesPushed == 0 && p.maximumTimes == alloc.size && p.ptr == alloc.ptr
  {
    PushPtr(alloc.ptr, alloc.size, 0)
  }

  /** `Push(times)`: the slot at the old count, after which the count moves
      by `times`. Neither is checked for sign, so a negative `times` moves the
      count back, below zero if need be. Fails when the returned slot would
      lie before address 0, when the `int` addition overflows, and when the
      count passes the maximum. */
  function Push(p: PushPtr, times: int): (r: Result<(nat, PushPtr)>)
    ensures r.Success? <==>
      && p.ptr + p.timesPushed >= 0
      && IsInt32(p.timesPushed + times)
      && p.timesPushed + times <= p.maximumTimes
    ensures r.Success? ==>
      && r.value.0 == p.ptr + p.timesPushed
      && r.value.1 == p.(timesPushed := p.timesPushed + times)
  {
    var res := p.ptr + p.timesPushed;
    if res < 0 then Failure("PushPtr slot before address 0")
    else
      var p' := p.(timesPushed := p.timesPushed + times);
      if !IsInt32(p'.timesPushed) then Failure("int overflow in PushPtr count")
      else if p'.timesPushed <= p'.maximumTimes then Success((res, p'))
      else Failure("PushPtr overflow")
  }

  /** A push of `-times` right after a push of `times` hands back the cursor
      as it was, so the next push returns the same slot again. */
  lemma PushRetract(p: PushPtr, times: nat)
    requires IsInt32(p.timesPushed) && Push(p, times).Success?
    ensures var (slot, p1) := Push(p, times).value;
            && Push(p1, -(times as int)).Success?
            && Push(p1, -(times as int)).value == (slot + times, p)
            && Push(p, 0).Success? && Push(p, 0).value.0 == slot
  {
  }

  /** `Empty`: every slot has been handed out. */
  predicate Empty(p: PushPtr) {
    p.maximumTimes == p.timesPushed
  }

  function Sum(ts: seq<nat>): nat {
    if |ts| == 0 then 0 else Sum(ts[..|ts| - 1]) + ts[|ts| - 1]
  }

  /** Pushes `ts` in order, stopping at the first failure. */
  function PushAll(p: PushPtr, ts: seq<nat>): (r: Result<PushPtr>)
    ensures r.Success? ==> r.value.timesPushed >= p.timesPushed
    ensures r.Success? ==> r.value.ptr == p.ptr && r.value.maximumTimes == p.maximumTimes
  {
    if |ts| == 0 then Success(p)
    else
      var p1 :- PushAll(p, ts[..|ts| - 1]);
      var pushed :- Push(p1, ts[|ts| - 1]);
      Success(pushed.1)
  }

  /** From a fresh cursor, a run of pushes succeeds iff the counts fit, and
      the cursor is `Empty` afterwards iff they fill it exactly. The `int`
      count overflows exactly when the total passes `INT_MAX`. */
  lemma {:induction false} PushAllFits(ptr: nat, maximum: nat, ts: seq<nat>)
    ensures PushAll(InitPushPtr(ptr, maximum), ts).Success? <==> Sum(ts) <= maximum && Sum(ts) <= INT_MAX
    ensures PushAll(InitPushPtr(ptr, maximum), ts).Success? ==>
      var p := PushAll(InitPushPtr(ptr, maximum), ts).value;
      p.timesPushed == Sum(ts) && (Empty(p) <==> Sum(ts) == maximum)
  {
    var p0 := InitPushPtr(ptr, maximum);
    if |ts| > 0 {
      var prefix := ts[..|ts| - 1];
      PushAllFits(ptr, maximum, prefix);
      assert Sum(ts) == Sum(prefix) + ts[|ts| - 1];
      if PushAll(p0, prefix).Success? {
        var p1 := PushAll(p0, prefix).value;
        assert p1.timesPushed == Sum(prefix);
        var r := Push(p1, ts[|ts| - 1]);
        assert r.Success? <==> Sum(ts) <= maximum && Sum(ts) <= INT_MAX;
        if r.Success? {
          assert PushAll(p0, ts) == Success(r.value.1);
        } else {
          assert PushAll(p0, ts).Failure?;
        }
      }
    }
  }

  /** `PushArray`: `size` zeroed elements of `elemSize` bytes. */
  function PushArray(a: Arena, size: nat, elemSize: nat): (r: Result<(ArrayView, Arena)>)
    requires a.Valid()
    ensures r.Success? <==> a.used + elemSize * size < a.totalAllocated
    ensures r.Success? ==>
      var (arr, a') := r.value;
      && arr.size == size && arr.data == a.base + a.used
      && a'.used == a.used + elemSize * size
      && a'.Valid()
      && (forall i :: a.used <= i < a'.used ==> a'.mem[i] == 0)
      && a'.base == a.base && a'.totalAllocated == a.totalAllocated
      && (forall i :: 0 <= i < a.totalAllocated && !(a.used <= i < a'.used) ==> a'.mem[i] == a.mem[i])
  {
    var (ptr, a') :- PushBytes(a, elemSize * size);
    Success((ArrayView(ptr, size), a'))
  }
}

=== FILE: bit_array.dfy ===
/** `BitArray` and its set-bit iterator (`memory.cpp`).

    The bits live MSB-first: bit `i` is bit `7 - i % 8` of byte `i / 8`.
    `mem` is the buffer from `memory` onwards; it must hold at least
    `BitToByteSize(bitSize)` bytes.
 */
module BitArrays {
  import opened Wrappers
  import opened UtilsCommon
  import opened Arenas

  /** The mask `1 << (7 - k)` that selects bit `k`, counting from the most
      significant bit (k = 0); these are the constants of `operator++`'s
      `switch`. */
  function Mask(k: nat): (m: Byte)
    requires k < 8
    ensures m != 0
  {
    match k
    case 0 => 0x80
    case 1 => 0x40
    case 2 => 0x20
    case 3 => 0x10
    case 4 => 0x08
    case 5 => 0x04
    case 6 => 0x02
    case _ => 0x01
  }

  /** `Mask(k)` is the source's `1 << (7 - k)`. */
  lemma MaskIsShift(k: nat)
    requires k < 8
    ensures Mask(k) == (1 as Byte) << (7 - k)
  {
  }

  /** Bit `k` of a byte, counting from the most significant bit. */
  predicate BitOf(byte: Byte, k: nat)
    requires k < 8
  {
    byte & Mask(k) != 0
  }

  /** The buffer holds every bit: `8 * |mem| >= bitSize`, which is
      `|mem| >= BitToByteSize(bitSize)` (see `ByteSizeFits`). */
  datatype BitArray = BitArray(mem: seq<Byte>, bitSize: int) {
    predicate Valid() {
      bitSize >= 0 && 8 * |mem| >= bitSize
    }
  }

  lemma ByteSizeFits(b: BitArray)
    requires b.bitSize >= 0
    ensures b.Valid() <==> BitToByteSize(b.bitSize) <= |b.mem|
  {
  }

  /** Every index below `bitSize` names a byte of the buffer. */
  lemma ByteInRange(b: BitArray, index: nat)
    requires b.Valid() && index < b.bitSize
    ensures index / 8 < BitToByteSize(b.bitSize) <= |b.mem|
  {
  }

  /** The bit at `index`, as `Get` reads it. */
  predicate IsSet(b: BitArray, index: nat)
    requires index / 8 < |b.mem|
  {
    BitOf(b.mem[index / 8], index % 8)
  }

  /** `Init(arena, bitSize)`: the buffer is pushed, zeroed, from the arena. */
  function InitFromArena(a: Arena, bitSize: nat): (r: Result<(BitArray, Arena)>)
    requires a.Valid()
    ensures r.Success? <==> a.used + BitToByteSize(bitSize) < a.totalAllocated
    ensures r.Success? ==>
      var (b, a') := r.value;
      && b.Valid() && b.bitSize == bitSize
      && a'.used == a.used + BitToByteSize(bitSize)
      && (forall i :: 0 <= i < bitSize ==> !IsSet(b, i))
  {
    var (_, a') :- PushBytes(a, BitToByteSize(bitSize));
    var b := BitArray(a'.mem[a.used..a'.used], bitSize);
    assert forall i :: 0 <= i < |b.mem| ==> b.mem[i] == 0;
    Success((b, a'))
  }

  /** Sets (`value`) or clears the bits of `mask` in `byte`. */
  function Update(byte: Byte, mask: Byte, value: bool): Byte {
    if value then byte | mask else byte & !mask
  }

  /** Sets or clears bit `k` of a byte; the other seven bits keep their value. */
  function SetBitOf(byte: Byte, k: nat, value: bool): (r: Byte)
    requires k < 8
    ensures BitOf(r, k) == value
    ensures forall k' :: 0 <= k' < 8 && k' != k ==> BitOf(r, k') == BitOf(byte, k')
  {
    UpdateBits(byte, k, value);
    Update(byte, Mask(k), value)
  }

  lemma UpdateBits(byte: Byte, k: nat, value: bool)
    requires k < 8
    ensures BitOf(Update(byte, Mask(k), value), k) == value
    ensures forall k' :: 0 <= k' < 8 && k' != k ==> BitOf(Update(byte, Mask(k), value), k') == BitOf(byte, k')
  {
    forall k' | 0 <= k' < 8 && k' != k
      ensures BitOf(Update(byte, Mask(k), value), k') == BitOf(byte, k')
    {
      MasksDisjoint(k, k');
      UpdateOtherBit(byte, Mask(k), Mask(k'), value);
    }
  }

  /** Distinct masks share no bit. */
  lemma MasksDisjoint(k: nat, k': nat)
    requires k < 8 && k' < 8 && k != k'
    ensures Mask(k) & Mask(k') == 0
  {
  }

  /** Updating the bits of `mask` leaves the bits of a disjoint mask alone. */
  lemma UpdateOtherBit(byte: Byte, mask: Byte, other: Byte, value: bool)
    requires mask & other == 0
    ensures Update(byte, mask, value) & other != 0 <==> byte & other != 0
  {
  }

  /** Bit `shift` of a byte, counting from the least significant one, as
      `byte & (1 << shift)` reads it in `int`; shifts up to 14 occur. */
  predicate WideBit(byte: Byte, shift: nat)
    requires shift < 16
  {
    (byte as bv16) & ((1 as bv16) << shift) != 0
  }

  /** `byte |= (1 << shift)` or `byte &= ~(1 << shift)`: computed in `int`
      and stored back into a byte. */
  function WideUpdate(byte: Byte, shift: nat, value: bool): Byte
    requires shift < 16
  {
    var mask := (1 as bv16) << shift;
    var wide := if value then (byte as bv16) | mask else (byte as bv16) & !mask;
    (wide & 0xFF) as Byte
  }

  /** The shift `7 - index % 8` of `Get` and `Set`, with C's `%`. */
  function BitShift(index: int): (shift: nat)
    ensures shift < 16
  {
    CDivTruncates(index, 8);
    7 - CRem(index, 8)
  }

  /** Where C's truncating division puts an index: a non-negative index at
      byte `index / 8` and shift `7 - index % 8`, an index from -7 to -1 at
      byte 0 and a shift past the byte, and one of -8 or below before the
      buffer. */
  lemma IndexPlacement(index: int)
    ensures index >= 0 ==> CDiv(index, 8) == index / 8 && BitShift(index) == 7 - index % 8
    ensures -8 < index < 0 ==> CDiv(index, 8) == 0 && 8 <= BitShift(index)
    ensures index <= -8 ==> CDiv(index, 8) < 0
  {
    CDivTruncates(index, 8);
  }

  /** At a shift inside the byte, the wide read and write are those of bit
      `k` counted from the most significant end. */
  lemma WideWithinByte(byte: Byte, k: nat, value: bool)
    requires k < 8
    ensures WideBit(byte, 7 - k) == BitOf(byte, k)
    ensures WideUpdate(byte, 7 - k, value) == Update(byte, Mask(k), value)
  {
    WideRead(byte, k);
    if value {
      WideSet(byte, k);
    } else {
      WideClear(byte, k);
    }
  }

  lemma WideRead(byte: Byte, k: nat)
    requires k < 8
    ensures WideBit(byte, 7 - k) == BitOf(byte, k)
  {
    WideMask(k);
  }

  lemma WideMask(k: nat)
    requires k < 8
    ensures (1 as bv16) << (7 - k) == Mask(k) as bv16
  {
  }

  lemma WideSet(byte: Byte, k: nat)
    requires k < 8
    ensures WideUpdate(byte, 7 - k, true) == byte | Mask(k)
  {
    WideMask(k);
  }

  lemma WideClear(byte: Byte, k: nat)
    requires k < 8
    ensures WideUpdate(byte, 7 - k, false) == byte & !Mask(k)
  {
    WideMask(k);
  }

  /** At a shift past the byte, the read gives 0 and the write leaves the
      byte as it was. */
  lemma WideBeyondByte(byte: Byte, shift: nat, value: bool)
    requires 8 <= shift < 16
    ensures !WideBit(byte, shift) && WideUpdate(byte, shift, value) == byte
  {
  }

  /** `Get`: asserts `index < bitSize` and reads byte `index / 8` at shift
      `7 - index % 8`, with C's truncating division. An index from -7 to -1
      therefore reads byte 0 past its top bit and gives 0; one of -8 or
      below reads before the buffer, which is undefined (a failure here). */
  function Get(b: BitArray, index: int): (r: Result<int>)
    requires b.Valid()
    ensures r.Success? <==> index < b.bitSize && (index >= 0 || (-8 < index && |b.mem| > 0))
    ensures r.Success? && index >= 0 ==> (r.value == 1 || r.value == 0) && (r.value == 1 <==> IsSet(b, index))
    ensures r.Success? && index < 0 ==> r.value == 0
  {
    if index >= b.bitSize then Failure("BitArray index out of range")
    else
      IndexPlacement(index);
      var byteIndex := CDiv(index, 8);
      if byteIndex < 0 || byteIndex >= |b.mem| then Failure("BitArray read outside its buffer")
      else
        var byte := b.mem[byteIndex];
        var shift := BitShift(index);
        if index >= 0 then
          WideWithinByte(byte, index % 8, false);
          Success(if WideBit(byte, shift) then 1 else 0)
        else
          WideBeyondByte(byte, shift, false);
          Success(if WideBit(byte, shift) then 1 else 0)
  }

  /** `Set`: asserts `index < bitSize` and sets or clears bit `index`,
      placed as in `Get`. An index from -7 to -1 changes nothing: its mask
      lies past the byte. */
  function Set(b: BitArray, index: int, value: bool): (r: Result<BitArray>)
    requires b.Valid()
    ensures r.Success? <==> index < b.bitSize && (index >= 0 || (-8 < index && |b.mem| > 0))
    ensures r.Success? ==> r.value.Valid() && r.value.bitSize == b.bitSize && |r.value.mem| == |b.mem|
    ensures r.Success? && index >= 0 ==>
      && IsSet(r.value, index) == value
      && (forall j :: 0 <= j < 8 * |b.mem| && j != index ==> IsSet(r.value, j) == IsSet(b, j))
    ensures r.Success? && index < 0 ==> r.value == b
  {
    if index >= b.bitSize then Failure("BitArray index out of range")
    else
      IndexPlacement(index);
      var byteIndex := CDiv(index, 8);
      if byteIndex < 0 || byteIndex >= |b.mem| then Failure("BitArray write outside its buffer")
      else
        var byte := b.mem[byteIndex];
        var shift := BitShift(index);
        if index >= 0 then
          WideWithinByte(byte, index % 8, value);
          assert WideUpdate(byte, shift, value) == SetBitOf(byte, index % 8, value);
          Success(b.(mem := b.mem[byteIndex := WideUpdate(byte, shift, value)]))
        else
          WideBeyondByte(byte, shift, value);
          assert b.mem[byteIndex := WideUpdate(byte, shift, value)] == b.mem;
          Success(b.(mem := b.mem[byteIndex := WideUpdate(byte, shift, value)]))
  }

  /** Reading a bit back after setting it gives the value written. */
  lemma SetThenGet(b: BitArray, index: nat, value: bool)
    requires b.Valid() && index < b.bitSize
    ensures Set(b, index, value).Success?
    ensures Get(Set(b, index, value).value, index) == Success(if value then 1 else 0)
  {
  }

  /** A byte whose bits are all `value`. */
  lemma FullBytes()
    ensures forall k :: 0 <= k < 8 ==> BitOf(0xFF, k) && !BitOf(0x00, k)
  {
  }

  /** `Fill`: every byte of `BitToByteSize(bitSize)`, padding bits included,
      becomes 0xFF or 0x00. */
  method Fill(b: BitArray, value: bool) returns (r: BitArray)
    requires b.Valid()
    ensures r.Valid() && r.bitSize == b.bitSize && |r.mem| == |b.mem|
    ensures forall i :: 0 <= i < BitToByteSize(b.bitSize) ==> r.mem[i] == (if value then 0xFF else 0x00)
    ensures forall i :: BitToByteSize(b.bitSize) <= i < |b.mem| ==> r.mem[i] == b.mem[i]
    ensures forall j :: 0 <= j < b.bitSize ==> j / 8 < |r.mem| && IsSet(r, j) == value
  {
    var fillValue: Byte := if value then 0xFF else 0x00;
    var byteSize := BitToByteSize(b.bitSize);
    var mem := b.mem;
    var i := 0;
    while i < byteSize
      invariant 0 <= i <= byteSize
      invariant |mem| == |b.mem|
      invariant forall k :: 0 <= k < i ==> mem[k] == fillValue
      invariant forall k :: i <= k < |mem| ==> mem[k] == b.mem[k]
    {
      mem := mem[i := fillValue];
      i := i + 1;
    }
    r := b.(mem := mem);
    FullBytes();
    forall j | 0 <= j < b.bitSize
      ensures j / 8 < |r.mem| && IsSet(r, j) == value
    {
      ByteInRange(b, j);
    }
  }

  /** `Copy`: asserts `bitSize >= other.bitSize`, then copies
      `BitToByteSize(bitSize)` bytes, the receiver's count, from `other`.
      A source buffer shorter than that is read past its end, which is
      undefined (a failure here). */
  method Copy(b: BitArray, other: BitArray) returns (r: Result<BitArray>)
    requires b.Valid() && other.Valid()
    ensures r.Success? <==> b.bitSize >= other.bitSize && |other.mem| >= BitToByteSize(b.bitSize)
    ensures r.Success? ==>
      && r.value.Valid() && r.value.bitSize == b.bitSize && |r.value.mem| == |b.mem|
      && r.value.mem[..BitToByteSize(b.bitSize)] == other.mem[..BitToByteSize(b.bitSize)]
      && r.value.mem[BitToByteSize(b.bitSize)..] == b.mem[BitToByteSize(b.bitSize)..]
      && (forall j :: 0 <= j < b.bitSize ==> j / 8 < |other.mem| && IsSet(r.value, j) == IsSet(other, j))
  {
    if b.bitSize < other.bitSize {
      return Failure("BitArray copy into a smaller array");
    }
    var byteSize := BitToByteSize(b.bitSize);
    if |other.mem| < byteSize {
      return Failure("BitArray copy reads past its source");
    }
    var mem := b.mem;
    var i := 0;
    while i < byteSize
      invariant 0 <= i <= byteSize
      invariant |mem| == |b.mem|
      invariant forall k :: 0 <= k < i ==> mem[k] == other.mem[k]
      invariant forall k :: i <= k < |mem| ==> mem[k] == b.mem[k]
    {
      mem := mem[i := other.mem[i]];
      i := i + 1;
    }
    var copied := b.(mem := mem);
    forall j | 0 <= j < b.bitSize
      ensures j / 8 < |other.mem| && IsSet(copied, j) == IsSet(other, j)
    {
      ByteInRange(b, j);
    }
    return Success(copied);
  }

  function AndByte(x: Byte, y: Byte): Byte {
    x & y
  }

  /** The AND of two bytes is the AND of their bits. */
  lemma AndBits(x: Byte, y: Byte, k: nat)
    requires k < 8
    ensures BitOf(AndByte(x, y), k) == (BitOf(x, k) && BitOf(y, k))
  {
  }

  /** `operator&=`: asserts equal bit sizes, then ANDs byte by byte. */
  method And(b: BitArray, other: BitArray) returns (r: Result<BitArray>)
    requires b.Valid() && other.Valid()
    ensures r.Success? <==> b.bitSize == other.bitSize
    ensures r.Success? ==>
      && r.value.Valid() && r.value.bitSize == b.bitSize && |r.value.mem| == |b.mem|
      && (forall i :: 0 <= i < BitToByteSize(b.bitSize) ==> r.value.mem[i] == AndByte(b.mem[i], other.mem[i]))
      && (forall i :: BitToByteSize(b.bitSize) <= i < |b.mem| ==> r.value.mem[i] == b.mem[i])
      && (forall j :: 0 <= j < b.bitSize ==>
            j / 8 < |other.mem| && IsSet(r.value, j) == (IsSet(b, j) && IsSet(other, j)))
  {
    if b.bitSize != other.bitSize {
      return Failure("BitArray sizes differ");
    }
    var byteSize := BitToByteSize(b.bitSize);
    var mem := b.mem;
    var i := 0;
    while i < byteSize
      invariant 0 <= i <= byteSize
      invariant |mem| == |b.mem|
      invariant forall k :: 0 <= k < i ==> mem[k] == AndByte(b.mem[k], other.mem[k])
      invariant forall k :: i <= k < |mem| ==> mem[k] == b.mem[k]
    {
      mem := mem[i := AndByte(mem[i], other.mem[i])];
      i := i + 1;
    }
    var anded := b.(mem := mem);
    forall j | 0 <= j < b.bitSize
      ensures j / 8 < |other.mem| && IsSet(anded, j) == (IsSet(b, j) && IsSet(other, j))
    {
      ByteInRange(b, j);
      AndBits(b.mem[j / 8], other.mem[j / 8], j % 8);
    }
    return Success(anded);
  }

  // ---------------------------------------------------------------------
  // The set-bit iterator

  datatype BitIterator = BitIterator(currentByte: nat, currentBit: nat) {
    predicate Valid() {
      currentBit < 8
    }
    /** `operator*` */
    function Index(): nat {
      currentByte * 8 + currentBit
    }
  }

  /** Two valid iterators are equal iff they stand at the same index. */
  lemma IndexInjective(it1: BitIterator, it2: BitIterator)
    requires it1.Valid() && it2.Valid()
    ensures it1 == it2 <==> it1.Index() == it2.Index()
  {
    if it1.Index() == it2.Index() {
      assert it1.currentByte == it1.Index() / 8;
      assert it2.currentByte == it2.Index() / 8;
    }
  }

  /** `end()`: the position just past the last bit. */
  function End(b: BitArray): (it: BitIterator)
    requires b.Valid()
    ensures it.Valid() && it.Index() == b.bitSize
  {
    BitIterator(b.bitSize / 8, b.bitSize % 8)
  }

  /** The `while` loop of `operator++`: from (byte, bit) it looks for a set
      bit, but only among the `bitSize / 8` whole bytes; once past them it
      stops wherever it stands. */
  function Scan(b: BitArray, byte: nat, bit: nat): (r: BitIterator)
    requires b.Valid() && bit < 8
    ensures r.Valid() && r.Index() >= byte * 8 + bit
    ensures r.currentByte < b.bitSize / 8 ==> r.currentByte < |b.mem| && IsSet(b, r.Index())
    ensures byte < b.bitSize / 8 ==> r.Index() <= 8 * (b.bitSize / 8)
    ensures byte >= b.bitSize / 8 ==> r == BitIterator(byte, bit)
    decreases b.bitSize / 8 - byte, 8 - bit
  {
    var byteSize := b.bitSize / 8;
    if byte >= byteSize then BitIterator(byte, bit)
    else
      WholeByteInRange(b, byte);
      IsSetAt(b, byte, bit);
      var ch := b.mem[byte];
      if ch == 0 then Scan(b, byte + 1, 0)
      else if BitOf(ch, bit) then BitIterator(byte, bit)
      else if bit == 7 then Scan(b, byte + 1, 0)
      else Scan(b, byte, bit + 1)
  }

  /** No bit in `[lo, hi)` is set. */
  predicate UnsetBetween(b: BitArray, lo: nat, hi: nat) {
    forall j :: lo <= j < hi ==> j / 8 < |b.mem| && !IsSet(b, j)
  }

  /** Every bit `Scan` passes over is unset. */
  lemma {:induction false} ScanSkipsUnset(b: BitArray, byte: nat, bit: nat)
    requires b.Valid() && bit < 8
    ensures UnsetBetween(b, byte * 8 + bit, Scan(b, byte, bit).Index())
    decreases b.bitSize / 8 - byte, 8 - bit
  {
    if byte < b.bitSize / 8 {
      WholeByteInRange(b, byte);
      IsSetAt(b, byte, bit);
      var ch := b.mem[byte];
      if ch == 0 {
        ZeroByteUnset(b, byte, bit);
        ScanSkipsUnset(b, byte + 1, 0);
      } else if BitOf(ch, bit) {
      } else if bit == 7 {
        ScanSkipsUnset(b, byte + 1, 0);
      } else {
        ScanSkipsUnset(b, byte, bit + 1);
      }
    }
  }

  lemma WholeByteInRange(b: BitArray, byte: nat)
    requires b.Valid() && byte < b.bitSize / 8
    ensures byte < |b.mem|
  {
    ByteInRange(b, byte * 8);
  }

  /** Bit `bit` of byte `byte` is the array's bit `byte * 8 + bit`. */
  lemma IsSetAt(b: BitArray, byte: nat, bit: nat)
    requires bit < 8 && byte < |b.mem|
    ensures (byte * 8 + bit) / 8 == byte && (byte * 8 + bit) % 8 == bit
    ensures IsSet(b, byte * 8 + bit) <==> BitOf(b.mem[byte], bit)
  {
  }

  /** A zero byte holds no set bit. */
  lemma ZeroByteUnset(b: BitArray, byte: nat, bit: nat)
    requires bit < 8 && byte < |b.mem| && b.mem[byte] == 0
    ensures forall j :: byte * 8 + bit <= j < byte * 8 + 8 ==> j / 8 < |b.mem| && !IsSet(b, j)
  {
    forall j | byte * 8 + bit <= j < byte * 8 + 8
      ensures j / 8 < |b.mem| && !IsSet(b, j)
    {
      IsSetAt(b, byte, j - byte * 8);
    }
  }

  /** `operator++`: one step forward, then `Scan`. While the iterator is
      before `end()` it moves strictly forward and never passes `end()`. */
  function Advance(b: BitArray, it: BitIterator): (r: BitIterator)
    requires b.Valid() && it.Valid()
    ensures r.Valid()
    ensures it.Index() < b.bitSize ==> it.Index() < r.Index() <= b.bitSize
  {
    if it.currentBit + 1 >= 8 then Scan(b, it.currentByte + 1, 0)
    else Scan(b, it.currentByte, it.currentBit + 1)
  }

  /** `begin()` */
  function Begin(b: BitArray): (it: BitIterator)
    requires b.Valid()
    ensures it.Valid() && it.Index() <= b.bitSize
  {
    if b.bitSize == 0 then BitIterator(0, 0)
    else
      var start := BitIterator(0, 0);
      if !IsSet(b, 0) then Advance(b, start) else start
  }

  /** The indices a range-`for` over the array visits from `it` on. */
  function Elements(b: BitArray, it: BitIterator): (r: seq<nat>)
    requires b.Valid() && it.Valid() && it.Index() <= b.bitSize
    decreases b.bitSize - it.Index()
  {
    if it == End(b) then []
    else
      IndexInjective(it, End(b));
      [it.Index()] + Elements(b, Advance(b, it))
  }

  /** The bits of the array as a sequence: `View(b)[i]` is what `Get(i)`
      reads. */
  function View(b: BitArray): (v: seq<bool>)
    requires b.Valid()
    ensures |v| == b.bitSize
    ensures forall j :: 0 <= j < b.bitSize ==> j / 8 < |b.mem| && v[j] == IsSet(b, j)
  {
    seq(b.bitSize, j requires 0 <= j < b.bitSize => ByteInRange(b, j); IsSet(b, j))
  }

  /** Reference: the indices at or after `i` whose bit is set, ascending. */
  function SetBitsFrom(bits: seq<bool>, i: nat): (r: seq<nat>)
    decreases |bits| - i
  {
    if i >= |bits| then []
    else (if bits[i] then [i] else []) + SetBitsFrom(bits, i + 1)
  }

  /** The first set bit at or after `i`, or `|bits|` when there is none. */
  function NextSet(bits: seq<bool>, i: nat): (r: nat)
    requires i <= |bits|
    ensures i <= r <= |bits|
    ensures r < |bits| ==> bits[r]
    ensures forall j :: i <= j < r ==> !bits[j]
    decreases |bits| - i
  {
    if i == |bits| then i
    else if bits[i] then i
    else NextSet(bits, i + 1)
  }

  /** `NextSet` is the only index with its three properties. */
  lemma {:induction false} NextSetUnique(bits: seq<bool>, i: nat, r: nat)
    requires i <= r <= |bits|
    requires r < |bits| ==> bits[r]
    requires forall j :: i <= j < r ==> !bits[j]
    ensures NextSet(bits, i) == r
    decreases r - i
  {
    if i < r {
      NextSetUnique(bits, i + 1, r);
    }
  }

  /** Skipping the unset bits before `NextSet` drops nothing. */
  lemma {:induction false} SetBitsSkip(bits: seq<bool>, i: nat)
    requires i <= |bits|
    ensures SetBitsFrom(bits, i) == SetBitsFrom(bits, NextSet(bits, i))
    decreases |bits| - i
  {
    if i < |bits| && !bits[i] {
      SetBitsSkip(bits, i + 1);
    }
  }

  /** The iterator as evidently intended, written on the index
      `currentByte * 8 + currentBit` it stands at: `operator++` and `begin()`
      move to the next set bit below `bitSize`, the partial last byte
      included. */
  function FixedAdvance(bits: seq<bool>, i: nat): (r: nat)
    requires i < |bits|
    ensures i < r <= |bits|
  {
    NextSet(bits, i + 1)
  }

  lemma FixedAdvanceFirst(bits: seq<bool>)
    requires |bits| > 0
    ensures FixedAdvance(bits, 0) == NextSet(bits, 1)
  {
  }

  function FixedBegin(bits: seq<bool>): (i: nat)
    ensures i <= |bits|
  {
    NextSet(bits, 0)
  }

  function FixedElements(bits: seq<bool>, i: nat): (r: seq<nat>)
    requires i <= |bits|
    decreases |bits| - i
  {
    if i == |bits| then [] else [i] + FixedElements(bits, FixedAdvance(bits, i))
  }

  /** From a set bit (or the end), the intended iterator visits exactly the
      set bits, in ascending order. */
  lemma {:induction false} FixedElementsFrom(bits: seq<bool>, i: nat)
    requires i <= |bits|
    requires i < |bits| ==> bits[i]
    ensures FixedElements(bits, i) == SetBitsFrom(bits, i)
    decreases |bits| - i
  {
    if i < |bits| {
      var next := NextSet(bits, i + 1);
      FixedElementsFrom(bits, next);
      SetBitsSkip(bits, i + 1);
      assert FixedElements(bits, i) == [i] + FixedElements(bits, next);
      assert SetBitsFrom(bits, i) == [i] + SetBitsFrom(bits, i + 1);
    }
  }

  /** The intended iterator yields exactly the set bits, in ascending order,
      for every bit size. */
  lemma FixedIteratesSetBits(bits: seq<bool>)
    ensures FixedElements(bits, FixedBegin(bits)) == SetBitsFrom(bits, 0)
  {
    FixedElementsFrom(bits, NextSet(bits, 0));
    SetBitsSkip(bits, 0);
  }

  /** `operator++` passes over unset bits only. */
  lemma AdvanceSkipsUnset(b: BitArray, it: BitIterator)
    requires b.Valid() && it.Valid()
    ensures UnsetBetween(b, it.Index() + 1, Advance(b, it).Index())
  {
    if it.currentBit + 1 >= 8 {
      ScanSkipsUnset(b, it.currentByte + 1, 0);
      assert (it.currentByte + 1) * 8 == it.Index() + 1;
    } else {
      ScanSkipsUnset(b, it.currentByte, it.currentBit + 1);
    }
  }

  /** Unset bits read as `false` in the view. */
  lemma UnsetInView(b: BitArray, lo: nat, hi: nat)
    requires b.Valid() && hi <= b.bitSize && UnsetBetween(b, lo, hi)
    ensures forall j :: lo <= j < hi ==> !View(b)[j]
  {
  }

  /** When `bitSize` is a multiple of 8 the source's `operator++` is the
      intended one. */
  lemma AdvanceWholeBytes(b: BitArray, it: BitIterator)
    requires b.Valid() && b.bitSize % 8 == 0 && it.Valid() && it.Index() < b.bitSize
    ensures Advance(b, it).Index() == FixedAdvance(View(b), it.Index())
  {
    var r := Advance(b, it);
    var bits := View(b);
    AdvanceSkipsUnset(b, it);
    assert it.currentByte < b.bitSize / 8;
    assert r.Index() < b.bitSize ==> bits[r.Index()];
    UnsetInView(b, it.Index() + 1, r.Index());
    NextSetUnique(bits, it.Index() + 1, r.Index());
  }

  lemma BeginWholeBytes(b: BitArray)
    requires b.Valid() && b.bitSize % 8 == 0
    ensures Begin(b).Index() == FixedBegin(View(b))
  {
    if b.bitSize > 0 {
      if !IsSet(b, 0) {
        BeginUnset(b);
        SkipFirstWholeBytes(b);
      } else {
        var bits := View(b);
        assert bits[0];
      }
    }
  }

  /** With the first bit unset, one `++` from index 0 reaches the intended
      first set bit. */
  lemma SkipFirstWholeBytes(b: BitArray)
    requires b.Valid() && b.bitSize % 8 == 0 && b.bitSize > 0
    requires 0 < |b.mem| && !IsSet(b, 0)
    ensures Advance(b, BitIterator(0, 0)).Index() == FixedBegin(View(b))
  {
    var bits := View(b);
    AdvanceWholeBytes(b, BitIterator(0, 0));
    FixedAdvanceFirst(bits);
    assert !bits[0];
  }

  lemma BeginUnset(b: BitArray)
    requires b.Valid() && b.bitSize > 0 && 0 < |b.mem| && !IsSet(b, 0)
    ensures Begin(b) == Advance(b, BitIterator(0, 0))
  {
    var start := BitIterator(0, 0);
    assert Begin(b) == if !IsSet(b, 0) then Advance(b, start) else start;
  }

  lemma {:induction false} ElementsWholeBytes(b: BitArray, it: BitIterator)
    requires b.Valid() && b.bitSize % 8 == 0 && it.Valid() && it.Index() <= b.bitSize
    ensures Elements(b, it) == FixedElements(View(b), it.Index())
    decreases b.bitSize - it.Index()
  {
    IndexInjective(it, End(b));
    if it != End(b) {
      AdvanceWholeBytes(b, it);
      ElementsWholeBytes(b, Advance(b, it));
    }
  }

  /** For a bit size that is a multiple of 8, iterating from `begin()` to
      `end()` visits exactly the set bits, in ascending order (none at all
      for bit size 0). */
  lemma IteratesSetBits(b: BitArray)
    requires b.Valid() && b.bitSize % 8 == 0
    ensures Elements(b, Begin(b)) == SetBitsFrom(View(b), 0)
  {
    BeginWholeBytes(b);
    ElementsWholeBytes(b, Begin(b));
    FixedIteratesSetBits(View(b));
  }

  /** With 5 bits, none set, the source's iterator still visits 1, 2, 3 and
      4: `operator++` never looks at the partial byte, and `end()` lies
      inside it. */
  lemma PartialByteYieldsUnsetBits()
    ensures var b := BitArray([0], 5);
            b.Valid() && SetBitsFrom(View(b), 0) == [] && Elements(b, Begin(b)) == [1, 2, 3, 4]
  {
    var b := BitArray([0], 5);
    assert Begin(b) == BitIterator(0, 1);
    assert Advance(b, BitIterator(0, 1)) == BitIterator(0, 2);
    assert Advance(b, BitIterator(0, 2)) == BitIterator(0, 3);
    assert Advance(b, BitIterator(0, 3)) == BitIterator(0, 4);
    assert Advance(b, BitIterator(0, 4)) == BitIterator(0, 5);
    assert Elements(b, BitIterator(0, 5)) == [];
    assert Elements(b, BitIterator(0, 4)) == [4];
    assert Elements(b, BitIterator(0, 3)) == [3, 4];
    assert Elements(b, BitIterator(0, 2)) == [2, 3, 4];
    var bits := View(b);
    assert forall i :: 0 <= i < 5 ==> !bits[i];
    assert SetBitsFrom(bits, 5) == [];
    assert SetBitsFrom(bits, 4) == [];
    assert SetBitsFrom(bits, 3) == [];
    assert SetBitsFrom(bits, 2) == [];
    assert SetBitsFrom(bits, 1) == [];
  }
}

=== FILE: mem_port.dfy ===
/** The memory units of the bare-metal Versat model in `mem.cpp`: the
    bounds-checked memory `CMem`, and the memory port `CMemPort` with its
    four-level address generator (`AGU`), its start delay and its output
    delay line.

    The global configuration, shadow-register and stage arrays are not part
    of this model: the port's configuration is a value, the databus word a
    write port stores is a parameter, and the word `update` publishes to the
    databus is returned. Counters and addresses are unbounded integers.
 */
module MemPort {
  import opened Wrappers
  import opened UtilsCommon

  // ---------------------------------------------------------------------
  // CMem

  /** A memory of `MEM_SIZE == |data|` words. */
  datatype Mem = Mem(data: seq<int>)

  /** `CMem::read`: an address past the end stops the program. A negative
      `int` address converts to a large `uint32_t` and fails the same test. */
  function MemRead(m: Mem, addr: int): (r: Result<int>)
    ensures r.Success? <==> 0 <= addr < |m.data|
  {
    if addr < 0 || addr >= |m.data| then Failure("Invalid READ MEM ADDR")
    else Success(m.data[addr])
  }

  /** `CMem::write`. */
  function MemWrite(m: Mem, addr: int, value: int): (r: Result<Mem>)
    ensures r.Success? <==> 0 <= addr < |m.data|
    ensures r.Success? ==> |r.value.data| == |m.data|
  {
    if addr < 0 || addr >= |m.data| then Failure("Invalid WRITE MEM ADDR")
    else Success(Mem(m.data[addr := value]))
  }

  /** A write followed by a read of the same address returns the written
      word; every other address keeps its word. */
  lemma ReadAfterWrite(m: Mem, addr: int, value: int, other: int)
    requires MemWrite(m, addr, value).Success?
    ensures MemRead(MemWrite(m, addr, value).value, addr) == Success(value)
    ensures other != addr ==> MemRead(MemWrite(m, addr, value).value, other) == MemRead(m, other)
  {
  }

  // ---------------------------------------------------------------------
  // The address generator

  /** The configuration the generator reads: a start address and, from the
      innermost level out, a count, a step and an end-of-level adjustment
      per level (`per`/`incr`, `iter`/`shift`, `per2`/`incr2`,
      `iter2`/`shift2`). */
  datatype AguConfig = AguConfig(start: int, per: int, incr: int, iter: int, shift: int,
                                 per2: int, incr2: int, iter2: int, shift2: int)

  /** The resumable state: the next address and the four loop counters,
      `l` innermost. */
  datatype Counters = Counters(pos: int, i: int, j: int, k: int, l: int)

  /** One call: the address returned, the counters left, and whether the
      call found the nest exhausted (`done = 1`). */
  datatype AguOut = AguOut(addr: int, counters: Counters, done: bool)

  predicate CountsNonNegative(c: AguConfig) {
    c.per >= 0 && c.iter >= 0 && c.per2 >= 0 && c.iter2 >= 0
  }

  /** `CMemPort::AGU`: resume the four nested loops where the counters
      stand; return the current address and step by `incr` at the innermost
      level, carry through the outer levels otherwise, and reset everything
      to 0 when the outermost count is reached. */
  function Agu(c: AguConfig, s: Counters): (r: AguOut)
    ensures r.done ==> r.addr == 0 && r.counters == Counters(0, 0, 0, 0, 0)
    ensures !r.done ==> r.counters.pos == r.addr + c.incr && r.counters.l <= c.per
    ensures !r.done ==> 0 <= r.counters.i - s.i && r.counters.i < c.iter2 && r.counters.j < c.per2 && r.counters.k < c.iter
    decreases c.iter2 - s.i, c.per2 - s.j, c.iter - s.k, c.per - s.l
  {
    if s.i < c.iter2 then
      if s.j < c.per2 then
        if s.k < c.iter then
          if s.l < c.per then
            AguOut(s.pos, s.(pos := s.pos + c.incr, l := s.l + 1), false)
          else
            Agu(c, s.(l := 0, pos := s.pos + c.shift, k := s.k + 1))
        else
          Agu(c, s.(k := 0, pos := s.pos + c.incr2, j := s.j + 1))
      else
        Agu(c, s.(pos := s.pos + c.shift2, j := 0, i := s.i + 1))
    else
      AguOut(0, Counters(0, 0, 0, 0, 0), true)
  }

  // The closed form the generator follows.

  /** The distance between consecutive starts of each level. */
  function Stride0(c: AguConfig): int {
    c.per * c.incr + c.shift
  }

  function Stride1(c: AguConfig): int {
    c.iter * Stride0(c) + c.incr2
  }

  function Stride2(c: AguConfig): int {
    c.per2 * Stride1(c) + c.shift2
  }

  /** The address at loop indices (a, b, cc, d), outermost first. */
  function Address(c: AguConfig, a: int, b: int, cc: int, d: int): int {
    c.start + a * Stride2(c) + b * Stride1(c) + cc * Stride0(c) + d * c.incr
  }

  /** How many addresses one turn of each level produces. */
  function Size1(c: AguConfig): int {
    c.iter * c.per
  }

  function Size2(c: AguConfig): int {
    c.per2 * Size1(c)
  }

  /** How many addresses the whole nest produces. */
  function Total(c: AguConfig): int {
    c.iter2 * Size2(c)
  }

  /** How many addresses precede loop indices (a, b, cc, d). */
  function RankOf(c: AguConfig, a: int, b: int, cc: int, d: int): int {
    a * Size2(c) + (b * Size1(c) + (cc * c.per + d))
  }

  function Rank(c: AguConfig, s: Counters): int {
    RankOf(c, s.i, s.j, s.k, s.l)
  }

  /** The counters at reset with `pos` at the start address, as
      `reset()` followed by `start_run()` leaves them. */
  function Reset(c: AguConfig): Counters {
    Counters(c.start, 0, 0, 0, 0)
  }

  /** The states the generator passes through during a run: counters in
      range, an exhausted level's inner counters at 0, and `pos` at the
      address the counters name. */
  predicate Aligned(c: AguConfig, s: Counters) {
    && 0 <= s.i <= c.iter2 && 0 <= s.j <= c.per2 && 0 <= s.k <= c.iter && 0 <= s.l <= c.per
    && (s.k == c.iter ==> s.l == 0)
    && (s.j == c.per2 ==> s.k == 0 && s.l == 0)
    && (s.i == c.iter2 ==> s.j == 0 && s.k == 0 && s.l == 0)
    && s.pos == Address(c, s.i, s.j, s.k, s.l)
  }

  lemma Distribute(a: int, d: int)
    ensures a * d + d == (a + 1) * d
  {
  }

  lemma MulMonotone(a: int, b: int, p: int)
    requires a <= b && p >= 0
    ensures a * p <= b * p
  {
    var d := b - a;
    assert b * p == a * p + d * p;
  }

  /** One more digit below a full digit still fits. */
  lemma DigitBelow(x: int, r: int, p: int, n: int)
    requires 0 <= x < n && 0 <= r < p
    ensures x * p + r < n * p
  {
    Distribute(x, p);
    MulMonotone(x + 1, n, p);
  }

  lemma DigitAtMost(x: int, r: int, p: int, n: int)
    requires 0 <= x <= n && 0 <= r <= p && (x == n ==> r == 0)
    ensures x * p + r <= n * p
  {
    if x < n {
      Distribute(x, p);
      MulMonotone(x + 1, n, p);
    }
  }

  /** Two digit pairs with the same value and digits below `p` are equal. */
  lemma DigitsUnique(x1: int, r1: int, x2: int, r2: int, p: int)
    requires 0 <= r1 < p && 0 <= r2 < p
    requires x1 * p + r1 == x2 * p + r2
    ensures x1 == x2 && r1 == r2
  {
    DivUnique(x1 * p + r1, p, x1, r1);
    DivUnique(x2 * p + r2, p, x2, r2);
  }

  /** An aligned state has not passed the end of the nest. */
  lemma RankBound(c: AguConfig, s: Counters)
    requires CountsNonNegative(c) && Aligned(c, s)
    ensures 0 <= s.k * c.per + s.l <= Size1(c)
    ensures 0 <= s.j * Size1(c) + (s.k * c.per + s.l) <= Size2(c)
    ensures 0 <= Rank(c, s) <= Total(c)
  {
    DigitAtMost(s.k, s.l, c.per, c.iter);
    DigitAtMost(s.j, s.k * c.per + s.l, Size1(c), c.per2);
    DigitAtMost(s.i, s.j * Size1(c) + (s.k * c.per + s.l), Size2(c), c.iter2);
  }

  /** In-range loop indices come before the end of the nest. */
  lemma RankInside(c: AguConfig, a: int, b: int, cc: int, d: int)
    requires 0 <= a < c.iter2 && 0 <= b < c.per2 && 0 <= cc < c.iter && 0 <= d < c.per
    ensures 0 <= cc * c.per + d < Size1(c)
    ensures 0 <= b * Size1(c) + (cc * c.per + d) < Size2(c)
    ensures 0 <= RankOf(c, a, b, cc, d) < Total(c)
  {
    DigitBelow(cc, d, c.per, c.iter);
    DigitBelow(b, cc * c.per + d, Size1(c), c.per2);
    DigitBelow(a, b * Size1(c) + (cc * c.per + d), Size2(c), c.iter2);
  }

  /** In-range loop indices are determined by how many addresses precede
      them. */
  lemma RankInjective(c: AguConfig, a1: int, b1: int, cc1: int, d1: int, a2: int, b2: int, cc2: int, d2: int)
    requires 0 <= a1 < c.iter2 && 0 <= b1 < c.per2 && 0 <= cc1 < c.iter && 0 <= d1 < c.per
    requires 0 <= a2 < c.iter2 && 0 <= b2 < c.per2 && 0 <= cc2 < c.iter && 0 <= d2 < c.per
    requires RankOf(c, a1, b1, cc1, d1) == RankOf(c, a2, b2, cc2, d2)
    ensures a1 == a2 && b1 == b2 && cc1 == cc2 && d1 == d2
  {
    RankInside(c, a1, b1, cc1, d1);
    RankInside(c, a2, b2, cc2, d2);
    DigitsUnique(a1, b1 * Size1(c) + (cc1 * c.per + d1), a2, b2 * Size1(c) + (cc2 * c.per + d2), Size2(c));
    DigitsUnique(b1, cc1 * c.per + d1, b2, cc2 * c.per + d2, Size1(c));
    DigitsUnique(cc1, d1, cc2, d2, c.per);
  }

  // The carries keep the state aligned and the rank unchanged.

  lemma CarryInner(c: AguConfig, s: Counters)
    requires CountsNonNegative(c) && Aligned(c, s)
    requires s.i < c.iter2 && s.j < c.per2 && s.k < c.iter && s.l >= c.per
    ensures Aligned(c, s.(l := 0, pos := s.pos + c.shift, k := s.k + 1))
    ensures Rank(c, s.(l := 0, pos := s.pos + c.shift, k := s.k + 1)) == Rank(c, s)
  {
    Distribute(s.k, c.per);
    Distribute(s.k, Stride0(c));
  }

  lemma CarryMiddle(c: AguConfig, s: Counters)
    requires CountsNonNegative(c) && Aligned(c, s)
    requires s.i < c.iter2 && s.j < c.per2 && s.k >= c.iter
    ensures Aligned(c, s.(k := 0, pos := s.pos + c.incr2, j := s.j + 1))
    ensures Rank(c, s.(k := 0, pos := s.pos + c.incr2, j := s.j + 1)) == Rank(c, s)
  {
    Distribute(s.j, Size1(c));
    Distribute(s.j, Stride1(c));
  }

  lemma CarryOuter(c: AguConfig, s: Counters)
    requires CountsNonNegative(c) && Aligned(c, s)
    requires s.i < c.iter2 && s.j >= c.per2
    ensures Aligned(c, s.(pos := s.pos + c.shift2, j := 0, i := s.i + 1))
    ensures Rank(c, s.(pos := s.pos + c.shift2, j := 0, i := s.i + 1)) == Rank(c, s)
  {
    Distribute(s.i, Size2(c));
    Distribute(s.i, Stride2(c));
  }

  lemma Emit(c: AguConfig, s: Counters)
    requires CountsNonNegative(c) && Aligned(c, s)
    requires s.i < c.iter2 && s.j < c.per2 && s.k < c.iter && s.l < c.per
    ensures Aligned(c, s.(pos := s.pos + c.incr, l := s.l + 1))
    ensures Rank(c, s.(pos := s.pos + c.incr, l := s.l + 1)) == Rank(c, s) + 1
  {
    Distribute(s.l, c.incr);
  }

  /** What a call from `s` does: it reports done exactly at the end of the
      nest; otherwise it returns the address of the loop indices it stops
      at and leaves an aligned state one address further. */
  predicate StepsForward(c: AguConfig, s: Counters) {
    var out := Agu(c, s);
    && (out.done <==> Rank(c, s) == Total(c))
    && (!out.done ==>
          && Aligned(c, out.counters) && Rank(c, out.counters) == Rank(c, s) + 1 && out.counters.l >= 1
          && out.addr == Address(c, out.counters.i, out.counters.j, out.counters.k, out.counters.l - 1))
  }

  /** A carry changes neither the call's outcome nor the rank. */
  lemma CarryTransports(c: AguConfig, s: Counters, carried: Counters)
    requires Agu(c, s) == Agu(c, carried) && Rank(c, carried) == Rank(c, s)
    requires StepsForward(c, carried)
    ensures StepsForward(c, s)
  {
  }

  lemma EmitSteps(c: AguConfig, s: Counters)
    requires CountsNonNegative(c) && Aligned(c, s)
    requires s.i < c.iter2 && s.j < c.per2 && s.k < c.iter && s.l < c.per
    ensures StepsForward(c, s)
  {
    Emit(c, s);
    RankInside(c, s.i, s.j, s.k, s.l);
  }

  lemma DoneSteps(c: AguConfig, s: Counters)
    requires CountsNonNegative(c) && Aligned(c, s)
    requires s.i >= c.iter2
    ensures StepsForward(c, s)
  {
  }

  /** From an aligned state, a call reports done exactly at the end of the
      nest; otherwise it returns the address of the loop indices it stops
      at, and leaves an aligned state one address further. */
  lemma {:induction false} AguStep(c: AguConfig, s: Counters)
    requires CountsNonNegative(c) && Aligned(c, s)
    ensures StepsForward(c, s)
    decreases c.iter2 - s.i, c.per2 - s.j, c.iter - s.k, c.per - s.l, 1
  {
    if s.i >= c.iter2 {
      DoneSteps(c, s);
    } else if s.j >= c.per2 {
      OuterCarrySteps(c, s);
    } else if s.k >= c.iter {
      MiddleCarrySteps(c, s);
    } else if s.l >= c.per {
      InnerCarrySteps(c, s);
    } else {
      EmitSteps(c, s);
    }
  }

  lemma {:induction false} InnerCarrySteps(c: AguConfig, s: Counters)
    requires CountsNonNegative(c) && Aligned(c, s)
    requires s.i < c.iter2 && s.j < c.per2 && s.k < c.iter && s.l >= c.per
    ensures StepsForward(c, s)
    decreases c.iter2 - s.i, c.per2 - s.j, c.iter - s.k, c.per - s.l, 0
  {
    var carried := s.(l := 0, pos := s.pos + c.shift, k := s.k + 1);
    CarryInner(c, s);
    AguStep(c, carried);
    CarryTransports(c, s, carried);
  }

  lemma {:induction false} MiddleCarrySteps(c: AguConfig, s: Counters)
    requires CountsNonNegative(c) && Aligned(c, s)
    requires s.i < c.iter2 && s.j < c.per2 && s.k >= c.iter
    ensures StepsForward(c, s)
    decreases c.iter2 - s.i, c.per2 - s.j, c.iter - s.k, c.per - s.l, 0
  {
    var carried := s.(k := 0, pos := s.pos + c.incr2, j := s.j + 1);
    CarryMiddle(c, s);
    AguStep(c, carried);
    CarryTransports(c, s, carried);
  }

  lemma {:induction false} OuterCarrySteps(c: AguConfig, s: Counters)
    requires CountsNonNegative(c) && Aligned(c, s)
    requires s.i < c.iter2 && s.j >= c.per2
    ensures StepsForward(c, s)
    decreases c.iter2 - s.i, c.per2 - s.j, c.iter - s.k, c.per - s.l, 0
  {
    var carried := s.(pos := s.pos + c.shift2, j := 0, i := s.i + 1);
    CarryOuter(c, s);
    AguStep(c, carried);
    CarryTransports(c, s, carried);
  }

  /** The counters after `n` calls. */
  function After(c: AguConfig, s: Counters, n: nat): Counters
    decreases n
  {
    if n == 0 then s else After(c, Agu(c, s).counters, n - 1)
  }

  /** The first `Total` calls of a run all produce addresses, in order. */
  lemma {:induction false} RunAligned(c: AguConfig, n: nat)
    requires CountsNonNegative(c) && n <= Total(c)
    ensures Aligned(c, After(c, Reset(c), n)) && Rank(c, After(c, Reset(c), n)) == n
  {
    if n > 0 {
      RunAligned(c, n - 1);
      var s := After(c, Reset(c), n - 1);
      AguStep(c, s);
      AfterLast(c, Reset(c), n - 1);
    }
  }

  lemma {:induction false} AfterLast(c: AguConfig, s: Counters, n: nat)
    ensures After(c, s, n + 1) == Agu(c, After(c, s, n)).counters
    decreases n
  {
    if n > 0 {
      AfterLast(c, Agu(c, s).counters, n - 1);
    }
  }

  /** From reset with non-negative counts, the generator yields exactly
      `iter2·per2·iter·per` addresses and reports done on the next call. */
  lemma AguCount(c: AguConfig, n: nat)
    requires CountsNonNegative(c) && n <= Total(c)
    ensures Agu(c, After(c, Reset(c), n)).done <==> n == Total(c)
  {
    RunAligned(c, n);
    AguStep(c, After(c, Reset(c), n));
  }

  /** Any zero count yields no address at all. */
  lemma AguZeroCount(c: AguConfig)
    requires CountsNonNegative(c)
    requires c.per == 0 || c.iter == 0 || c.per2 == 0 || c.iter2 == 0
    ensures Agu(c, Reset(c)).done
  {
    assert Total(c) == 0;
    AguCount(c, 0);
  }

  /** The address the run produces for loop indices (a, b, cc, d) is
      `start + a·Stride2 + b·Stride1 + cc·Stride0 + d·incr`, and it is the
      call that comes after `RankOf(a, b, cc, d)` others. */
  lemma AguAddressAt(c: AguConfig, a: int, b: int, cc: int, d: int)
    requires 0 <= a < c.iter2 && 0 <= b < c.per2 && 0 <= cc < c.iter && 0 <= d < c.per
    ensures 0 <= RankOf(c, a, b, cc, d) < Total(c)
    ensures var out := Agu(c, After(c, Reset(c), RankOf(c, a, b, cc, d)));
      !out.done && out.addr == Address(c, a, b, cc, d)
  {
    RankInside(c, a, b, cc, d);
    var n := RankOf(c, a, b, cc, d);
    RunAligned(c, n);
    var s := After(c, Reset(c), n);
    AguStep(c, s);
    var out := Agu(c, s);
    EmittedIndices(c, out.counters, n);
    RankInjective(c, out.counters.i, out.counters.j, out.counters.k, out.counters.l - 1, a, b, cc, d);
  }

  /** The counters a call leaves name, with `l - 1`, the indices of the
      address it returned. */
  lemma EmittedIndices(c: AguConfig, t: Counters, n: int)
    requires CountsNonNegative(c) && Aligned(c, t) && Rank(c, t) == n + 1 && t.l >= 1
    requires t.i < c.iter2 && t.j < c.per2 && t.k < c.iter
    ensures RankOf(c, t.i, t.j, t.k, t.l - 1) == n && 0 <= t.l - 1 < c.per
  {
  }

  // ---------------------------------------------------------------------
  // CMemPort

  /** A memory port: its configuration (`delay` and `in_wr` besides the
      generator's), its run state, the delay line `output_port` of
      `MEMP_LAT == |outputPort|` words, and the memory it reads and writes. */
  datatype Port = Port(conf: AguConfig, delay: int, inWr: bool,
                       counters: Counters, done: bool, runDelay: int,
                       out: int, outputPort: seq<int>, mem: Mem)

  /** `CMemPort::read`: 0 once the run is done. */
  function PortRead(p: Port, addr: int): (r: Result<int>)
    ensures p.done ==> r == Success(0)
    ensures !p.done ==> r == MemRead(p.mem, addr)
  {
    if p.done then Success(0) else MemRead(p.mem, addr)
  }

  /** `CMemPort::write`: nothing once the run is done. */
  function PortWrite(p: Port, addr: int, value: int): (r: Result<Mem>)
    ensures p.done ==> r == Success(p.mem)
    ensures !p.done ==> r == MemWrite(p.mem, addr, value)
  {
    if p.done then Success(p.mem) else MemWrite(p.mem, addr, value)
  }

  /** `CMemPort::reset`: the loop counters and the run delay go to 0. */
  function ResetPort(p: Port): (r: Port)
    ensures r.counters.pos == p.counters.pos && r.runDelay == 0
  {
    p.(counters := p.counters.(i := 0, j := 0, k := 0, l := 0), runDelay := 0)
  }

  /** `CMemPort::start_run`: not done, `pos` at the start address, and the
      configured delay loaded. */
  function StartRun(p: Port): (r: Port)
    ensures !r.done && r.runDelay == p.delay
  {
    p.(done := false, counters := p.counters.(pos := p.conf.start), runDelay := p.delay)
  }

  /** A reset followed by a start leaves the generator at the start of its
      nest, ready to produce the whole address sequence. */
  lemma ResetThenStart(p: Port)
    requires CountsNonNegative(p.conf)
    ensures StartRun(ResetPort(p)).counters == Reset(p.conf)
    ensures Aligned(p.conf, StartRun(ResetPort(p)).counters)
  {
  }

  /** `CMemPort::output`: while the start delay runs, nothing; once done,
      `out` is 0; otherwise one address from the generator, then a write of
      the databus word `input` (a write port) or a read into `out`. On the
      call that finds the nest exhausted the port is already done, so the
      access at address 0 reads 0 or writes nothing. */
  function Output(p: Port, input: int): (r: Result<Port>)
    ensures p.runDelay > 0 ==> r == Success(p)
    ensures p.runDelay <= 0 && p.done ==> r == Success(p.(out := 0))
  {
    if p.runDelay > 0 then Success(p)
    else if p.done then Success(p.(out := 0))
    else
      var g := Agu(p.conf, p.counters);
      var q := p.(counters := g.counters, done := g.done);
      if p.inWr then
        var mem :- PortWrite(q, g.addr, input);
        Success(q.(mem := mem, out := input))
      else
        var value :- PortRead(q, g.addr);
        Success(q.(out := value))
  }

  /** What one `output` call does once the delay has run out and before the
      run is done: a read port fails exactly on an address out of range and
      otherwise loads the word there; a write port stores its input there;
      the call that finds the nest exhausted touches no memory. */
  lemma OutputAccess(p: Port, input: int)
    requires p.runDelay <= 0 && !p.done
    ensures var g := Agu(p.conf, p.counters);
      && (g.done ==> Output(p, input).Success? && Output(p, input).value.mem == p.mem && Output(p, input).value.done)
      && (g.done && !p.inWr ==> Output(p, input).value.out == 0)
      && (!g.done && !p.inWr ==>
            (Output(p, input).Success? <==> 0 <= g.addr < |p.mem.data|)
            && (Output(p, input).Success? ==> Output(p, input).value.out == p.mem.data[g.addr] && Output(p, input).value.mem == p.mem))
      && (!g.done && p.inWr ==>
            (Output(p, input).Success? <==> 0 <= g.addr < |p.mem.data|)
            && (Output(p, input).Success? ==> Output(p, input).value.mem == MemWrite(p.mem, g.addr, input).value))
      && (Output(p, input).Success? ==> Output(p, input).value.counters == g.counters)
  {
  }

  // The delay line.

  /** The copy loop of `update` as written: upward from 1, so each slot
      receives the slot below it after that slot was itself overwritten. */
  method TrickleAsWritten(line: seq<int>, out: int) returns (r: seq<int>)
    requires |line| > 0
    ensures |r| == |line| && r[0] == out
    ensures forall i :: 1 <= i < |r| ==> r[i] == line[0]
  {
    r := line;
    var i := 1;
    while i < |r|
      invariant 1 <= i <= |r| || |r| == 1
      invariant |r| == |line| && r[0] == line[0]
      invariant forall m :: 1 <= m < i && m < |r| ==> r[m] == line[0]
      invariant forall m :: i <= m < |r| ==> r[m] == line[m]
    {
      r := r[i := r[i - 1]];
      i := i + 1;
    }
    r := r[0 := out];
  }

  /** The evidently intended delay line: every word moves one slot down. */
  method Trickle(line: seq<int>, out: int) returns (r: seq<int>)
    requires |line| > 0
    ensures r == [out] + line[..|line| - 1]
  {
    r := line;
    var i := |r| - 1;
    while i >= 1
      invariant 0 <= i < |r| && |r| == |line|
      invariant forall m :: 0 <= m <= i ==> r[m] == line[m]
      invariant forall m :: i < m < |r| ==> r[m] == line[m - 1]
    {
      r := r[i := r[i - 1]];
      i := i - 1;
    }
    r := r[0 := out];
  }

  /** The delay line after pushing `pushed` one by one through `Trickle`. */
  function Pushed(line: seq<int>, pushed: seq<int>): (r: seq<int>)
    requires |line| > 0
    ensures |r| == |line|
    decreases |pushed|
  {
    if |pushed| == 0 then line
    else
      var next := [pushed[0]] + line[..|line| - 1];
      Pushed(next, pushed[1..])
  }

  /** A word pushed into the intended delay line reaches the last slot,
      the one `update` publishes, after exactly `MEMP_LAT - 1` more pushes:
      the line holds the last pushes newest first, then the old words. */
  lemma {:induction false} PushedDelays(line: seq<int>, pushed: seq<int>)
    requires |line| > 0 && |pushed| <= |line|
    ensures forall m :: 0 <= m < |pushed| ==> Pushed(line, pushed)[m] == pushed[|pushed| - 1 - m]
    ensures forall m :: |pushed| <= m < |line| ==> Pushed(line, pushed)[m] == line[m - |pushed|]
    decreases |pushed|
  {
    if |pushed| > 0 {
      var next := [pushed[0]] + line[..|line| - 1];
      PushedDelays(next, pushed[1..]);
    }
  }

  /** With three slots the upward copy loses a word: from `[5, 6, 7]` and a
      new word 8 it leaves `[8, 5, 5]`, where a delay line holds
      `[8, 5, 6]`. */
  method TrickleLosesWords() returns (asWritten: seq<int>, intended: seq<int>)
    ensures asWritten == [8, 5, 5] && intended == [8, 5, 6]
  {
    asWritten := TrickleAsWritten([5, 6, 7], 8);
    intended := Trickle([5, 6, 7], 8);
    assert asWritten[1] == 5 && asWritten[2] == 5;
    assert [5, 6, 7][..2] == [5, 6];
  }

  /** What `update` leaves: the port and the word it publishes on the
      databus, if any. */
  datatype Updated = Updated(port: Port, databus: Option<int>)

  /** `CMemPort::update` as written: while the start delay runs it only
      counts down; otherwise it publishes the last slot of the delay line
      and runs the upward copy loop. */
  method UpdateAsWritten(p: Port) returns (u: Updated)
    requires |p.outputPort| > 0
    ensures p.runDelay > 0 ==> u == Updated(p.(runDelay := p.runDelay - 1), None)
    ensures p.runDelay <= 0 ==>
      && u.databus == Some(p.outputPort[|p.outputPort| - 1])
      && u.port == p.(outputPort := u.port.outputPort)
      && |u.port.outputPort| == |p.outputPort| && u.port.outputPort[0] == p.out
      && (forall i :: 1 <= i < |u.port.outputPort| ==> u.port.outputPort[i] == p.outputPort[0])
  {
    if p.runDelay > 0 {
      u := Updated(p.(runDelay := p.runDelay - 1), None);
    } else {
      var line := TrickleAsWritten(p.outputPort, p.out);
      u := Updated(p.(outputPort := line), Some(p.outputPort[|p.outputPort| - 1]));
    }
  }

  /** `CMemPort::update` with the intended delay line. */
  method Update(p: Port) returns (u: Updated)
    requires |p.outputPort| > 0
    ensures p.runDelay > 0 ==> u == Updated(p.(runDelay := p.runDelay - 1), None)
    ensures p.runDelay <= 0 ==>
      && u.databus == Some(p.outputPort[|p.outputPort| - 1])
      && u.port == p.(outputPort := Pushed(p.outputPort, [p.out]))
  {
    if p.runDelay > 0 {
      u := Updated(p.(runDelay := p.runDelay - 1), None);
    } else {
      var line := Trickle(p.outputPort, p.out);
      assert Pushed(p.outputPort, [p.out]) == Pushed(line, []);
      u := Updated(p.(outputPort := line), Some(p.outputPort[|p.outputPort| - 1]));
    }
  }

  // ---------------------------------------------------------------------
  // setIncr2

  /** The two copies of `incr2`: the configuration register and the
      port's own member. */
  datatype Incr2Regs = Incr2Regs(conf: int, member: int)

  /** `CMemPort::setIncr2` as written: its parameter is named `incr`, so
      both assignments read the member `incr2` and the argument is
      dropped. */
  function SetIncr2AsWritten(regs: Incr2Regs, incr: int): (r: Incr2Regs)
    ensures r.member == regs.member && r.conf == r.member
  {
    Incr2Regs(regs.member, regs.member)
  }

  /** The argument never reaches either copy. */
  lemma SetIncr2IgnoresArgument(regs: Incr2Regs, incr: int, other: int)
    ensures SetIncr2AsWritten(regs, incr) == SetIncr2AsWritten(regs, other)
    ensures regs == Incr2Regs(0, 0) ==> SetIncr2AsWritten(regs, 4) != Incr2Regs(4, 4)
  {
  }

  /** `setIncr2` as every other setter of the port is written: both copies
      take the argument. */
  function SetIncr2(regs: Incr2Regs, incr2: int): (r: Incr2Regs)
    ensures r.conf == incr2 && r.member == incr2
  {
    Incr2Regs(incr2, incr2)
  }

  /** With the intended setter a second call replaces the first. */
  lemma SetIncr2Stores(regs: Incr2Regs, incr2: int, later: int)
    ensures SetIncr2(SetIncr2(regs, incr2), later) == SetIncr2(regs, later)
  {
  }
}

=== FILE: memory_map.dfy ===
/** The memory-map sizing of `CalculateAcceleratorValues` (`versat.cpp`).

    Every memory-mapped unit needs an address window of `2^bits` words; the
    accelerator's window is found by counting units per width in a 32-entry
    array `memoryMapBits` and then repeatedly (1) carrying pairs of equal
    windows into one window of the next width and (2) merging the two
    smallest remaining windows into one twice as wide as the larger. The
    loop stops when a single window remains.

    The count array is `seq<int>` of length `LEVELS`, and the total address
    space it stands for is `Weight`, the sum of `count[j] * 2^j`.
 */
module MemoryMaps {
  import opened UtilsCommon
  import opened Accelerators

  /** The length of `memoryMapBits`. */
  const LEVELS: nat := 32

  predicate NonNegative(c: seq<int>) {
    forall j :: 0 <= j < |c| ==> c[j] >= 0
  }

  /** `count[t] + 2 * count[t + 1] + 4 * count[t + 2] + ...` */
  function WeightFrom(c: seq<int>, t: nat): int
    decreases |c| - t
  {
    if t >= |c| then 0 else c[t] + 2 * WeightFrom(c, t + 1)
  }

  /** The address space the counts stand for. */
  function Weight(c: seq<int>): int {
    WeightFrom(c, 0)
  }

  /** `count[0] * 2^0 + ... + count[t - 1] * 2^(t - 1)` */
  function Low(c: seq<int>, t: nat): int
    requires t <= |c|
  {
    if t == 0 then 0 else Low(c, t - 1) + c[t - 1] * Pow2(t - 1)
  }

  /** The total window `Σ 2^bits` of a list of unit widths. */
  function SumPow2(bits: seq<nat>): (s: nat) {
    if |bits| == 0 then 0 else SumPow2(bits[..|bits| - 1]) + Pow2(bits[|bits| - 1])
  }

  /** The least `r` with `2^r >= x`. */
  function CeilLog2(x: nat): (r: nat)
    ensures Pow2(r) >= x
    ensures r == 0 || Pow2(r - 1) < x
  {
    if x <= 1 then 0 else 1 + CeilLog2((x + 1) / 2)
  }

  // ---------------------------------------------------------------------
  // Weight arithmetic

  /** A write at an index below `t` leaves `WeightFrom(_, t)` alone. */
  lemma {:induction false} WeightFromBelow(c: seq<int>, j: nat, v: int, t: nat)
    requires j < |c| && j < t
    ensures WeightFrom(c[j := v], t) == WeightFrom(c, t)
    decreases |c| - t
  {
    if t < |c| {
      WeightFromBelow(c, j, v, t + 1);
    }
  }

  /** Writing `v` at `j` changes `WeightFrom(_, t)` by the difference
      times `2^(j - t)`. */
  lemma {:induction false} WeightFromUpdate(c: seq<int>, j: nat, v: int, t: nat)
    requires t <= j < |c|
    ensures WeightFrom(c[j := v], t) == WeightFrom(c, t) + (v - c[j]) * Pow2(j - t)
    decreases j - t
  {
    if t == j {
      WeightFromBelow(c, j, v, t + 1);
    } else {
      WeightFromUpdate(c, j, v, t + 1);
      assert Pow2(j - t) == 2 * Pow2(j - (t + 1));
    }
  }

  lemma WeightUpdate(c: seq<int>, j: nat, v: int)
    requires j < |c|
    ensures Weight(c[j := v]) == Weight(c) + (v - c[j]) * Pow2(j)
  {
    WeightFromUpdate(c, j, v, 0);
  }

  lemma {:induction false} WeightFromNonNegative(c: seq<int>, t: nat)
    requires NonNegative(c)
    ensures WeightFrom(c, t) >= 0
    decreases |c| - t
  {
    if t < |c| {
      WeightFromNonNegative(c, t + 1);
    }
  }

  lemma {:induction false} LowNonNegative(c: seq<int>, t: nat)
    requires NonNegative(c) && t <= |c|
    ensures Low(c, t) >= 0
  {
    if t > 0 {
      LowNonNegative(c, t - 1);
    }
  }

  /** The weight splits at any `t` into the part below and `2^t` times the
      part from `t` up. */
  lemma {:induction false} WeightSplit(c: seq<int>, t: nat)
    requires t <= |c|
    ensures Weight(c) == Low(c, t) + Pow2(t) * WeightFrom(c, t)
  {
    if t > 0 {
      WeightSplit(c, t - 1);
      var p := Pow2(t - 1);
      assert Pow2(t) == 2 * p;
      assert WeightFrom(c, t - 1) == c[t - 1] + 2 * WeightFrom(c, t);
      assert p * WeightFrom(c, t - 1) == c[t - 1] * p + (2 * p) * WeightFrom(c, t);
    }
  }

  /** Each level alone is already part of the weight. */
  lemma WeightAtLeast(c: seq<int>, j: nat)
    requires NonNegative(c) && j < |c|
    ensures Weight(c) >= c[j] * Pow2(j)
    ensures Weight(c) >= Low(c, j + 1)
  {
    WeightSplit(c, j + 1);
    LowNonNegative(c, j);
    WeightFromNonNegative(c, j + 1);
    assert Pow2(j + 1) * WeightFrom(c, j + 1) >= 0;
  }

  /** A non-negative count with no weight is all zero. */
  lemma WeightZero(c: seq<int>)
    requires NonNegative(c) && Weight(c) == 0
    ensures forall j :: 0 <= j < |c| ==> c[j] == 0
  {
    forall j | 0 <= j < |c|
      ensures c[j] == 0
    {
      WeightAtLeast(c, j);
    }
  }

  lemma {:induction false} LowZeros(c: seq<int>, a: nat, b: nat)
    requires a <= b <= |c|
    requires forall j :: a <= j < b ==> c[j] == 0
    ensures Low(c, b) == Low(c, a)
  {
    if a < b {
      LowZeros(c, a, b - 1);
    }
  }

  // ---------------------------------------------------------------------
  // The two steps

  /** One carry of the first loop: `count[i + 1] += count[i] / 2;
      count[i] %= 2` keeps the weight. */
  lemma CarryKeepsWeight(c: seq<int>, i: nat)
    requires i + 1 < |c| && c[i] >= 0
    ensures Weight(c[i + 1 := c[i + 1] + c[i] / 2][i := c[i] % 2]) == Weight(c)
  {
    var q, r := c[i] / 2, c[i] % 2;
    var c1 := c[i + 1 := c[i + 1] + q];
    WeightUpdate(c, i + 1, c[i + 1] + q);
    WeightUpdate(c1, i, r);
    var p := Pow2(i);
    assert Pow2(i + 1) == 2 * p;
    assert c[i] == 2 * q + r;
    assert (r - c[i]) * p == -(q * (2 * p));
  }

  /** The two lowest set levels `f < s` of a count of zeros and ones. */
  predicate LowestPair(c: seq<int>, f: nat, s: nat) {
    && f < s < |c| && c[f] == 1 && c[s] == 1
    && (forall j :: 0 <= j < s && j != f ==> c[j] == 0)
  }

  /** Below the two lowest levels the weight is exactly their sum. */
  lemma LowOfPair(c: seq<int>, f: nat, s: nat)
    requires LowestPair(c, f, s)
    ensures Low(c, s + 1) == Pow2(f) + Pow2(s)
  {
    LowZeros(c, 0, f);
    LowZeros(c, f + 1, s);
  }

  /** A weight within `2^k` places the pair below `k`. */
  lemma PairBelow(c: seq<int>, f: nat, s: nat, k: nat)
    requires NonNegative(c) && LowestPair(c, f, s) && Weight(c) <= Pow2(k)
    ensures s < k
  {
    LowOfPair(c, f, s);
    WeightAtLeast(c, s);
    if s >= k {
      Pow2Monotonic(k, s);
    }
  }

  /** The merge of the two lowest windows into one of width `s + 1`. */
  function Merge(c: seq<int>, f: nat, s: nat): seq<int>
    requires f < s && s + 1 < |c|
  {
    var c1 := c[f := 0];
    var c2 := c1[s := 0];
    c2[s + 1 := c2[s + 1] + 1]
  }

  /** Merging the lowest pair grows the weight by `2^s - 2^f`. */
  lemma MergeWeight(c: seq<int>, f: nat, s: nat)
    requires NonNegative(c) && LowestPair(c, f, s) && s + 1 < |c|
    ensures NonNegative(Merge(c, f, s))
    ensures Weight(Merge(c, f, s)) == Weight(c) + Pow2(s) - Pow2(f)
  {
    var c1 := c[f := 0];
    var c2 := c1[s := 0];
    WeightClear(c, f);
    WeightClear(c1, s);
    WeightIncrement(c2, s + 1);
    assert Pow2(s + 1) == 2 * Pow2(s);
  }

  lemma WeightClear(c: seq<int>, j: nat)
    requires j < |c| && c[j] == 1
    ensures Weight(c[j := 0]) == Weight(c) - Pow2(j)
  {
    WeightUpdate(c, j, 0);
  }

  lemma WeightIncrement(c: seq<int>, j: nat)
    requires j < |c|
    ensures Weight(c[j := c[j] + 1]) == Weight(c) + Pow2(j)
  {
    WeightUpdate(c, j, c[j] + 1);
  }

  /** ... and the new weight is still within any power of two the old one
      was within. */
  lemma MergeBound(c: seq<int>, f: nat, s: nat, k: nat)
    requires NonNegative(c) && LowestPair(c, f, s) && s + 1 < |c| && Weight(c) <= Pow2(k)
    ensures Weight(Merge(c, f, s)) <= Pow2(k)
  {
    MergeWeight(c, f, s);
    PairBelow(c, f, s, k);
    var q := WeightFrom(c, s + 1);
    var a := Pow2(s + 1);
    var m := Pow2(k - (s + 1));
    WeightSplit(c, s + 1);
    LowOfPair(c, f, s);
    assert Weight(c) == a * q + (Pow2(f) + Pow2(s));
    Pow2Add(s + 1, k - (s + 1));
    assert Pow2(k) == a * m;
    MergeFits(a, q, m, Pow2(f) + Pow2(s));
    assert a == 2 * Pow2(s);
  }

  /** `a * q + low <= a * m` with `0 < low` forces `a * q + a <= a * m`. */
  lemma MergeFits(a: int, q: int, m: int, low: int)
    requires a > 0 && low > 0 && a * q + low <= a * m
    ensures a * q + a <= a * m
  {
    var d := m - q;
    assert a * d == a * m - a * q;
    assert d >= 1;
    assert a * d == a + a * (d - 1);
  }

  // ---------------------------------------------------------------------
  // The loops

  /** The counts of the memory-mapped units, per width. */
  function Histogram(bits: seq<nat>): (c: seq<int>)
    requires forall k :: 0 <= k < |bits| ==> bits[k] < LEVELS
    ensures |c| == LEVELS && NonNegative(c)
  {
    if |bits| == 0 then seq(LEVELS, _ => 0)
    else
      var h := Histogram(bits[..|bits| - 1]);
      var b := bits[|bits| - 1];
      h[b := h[b] + 1]
  }

  lemma {:induction false} HistogramWeight(bits: seq<nat>)
    requires forall k :: 0 <= k < |bits| ==> bits[k] < LEVELS
    ensures Weight(Histogram(bits)) == SumPow2(bits)
  {
    if |bits| == 0 {
      WeightZeros(seq(LEVELS, _ => 0), 0);
    } else {
      var h := Histogram(bits[..|bits| - 1]);
      HistogramWeight(bits[..|bits| - 1]);
      WeightIncrement(h, bits[|bits| - 1]);
    }
  }

  lemma {:induction false} WeightZeros(c: seq<int>, t: nat)
    requires forall j :: 0 <= j < |c| ==> c[j] == 0
    ensures WeightFrom(c, t) == 0
    decreases |c| - t
  {
    if t < |c| {
      WeightZeros(c, t + 1);
    }
  }

  /** One carry of the first loop, in the source's order. */
  function Carry(c: seq<int>, i: nat): seq<int>
    requires i + 1 < |c|
  {
    var c1 := c[i + 1 := c[i + 1] + c[i] / 2];
    c1[i := c1[i] % 2]
  }

  /** A carry at a non-empty level leaves 0 or 1 there, pushes at least one
      window up when it leaves 0, and keeps the weight. */
  lemma CarryFacts(c: seq<int>, i: nat)
    requires i + 1 < |c| && NonNegative(c) && c[i] != 0
    ensures |Carry(c, i)| == |c| && NonNegative(Carry(c, i))
    ensures Weight(Carry(c, i)) == Weight(c)
    ensures Carry(c, i)[i] <= 1
    ensures Carry(c, i)[i] == 0 ==> Carry(c, i)[i + 1] >= 1
    ensures forall j :: 0 <= j < |c| && j != i && j != i + 1 ==> Carry(c, i)[j] == c[j]
  {
    CarryKeepsWeight(c, i);
  }

  /** What the carry pass keeps after visiting levels below `i`: the
      weight, every visited level at 0 or 1, and `last` at the highest
      visited level set, or where a carry just left 0 below a set level. */
  ghost predicate PassInvariant(c0: seq<int>, last0: int, c: seq<int>, i: int, last: int, updated: bool) {
    && 0 <= i <= LEVELS && |c| == LEVELS && NonNegative(c) && Weight(c) == Weight(c0)
    && (forall j :: 0 <= j < i ==> c[j] <= 1)
    && (!updated ==> last == last0 && forall j :: 0 <= j < i ==> c[j] == 0)
    && (Weight(c0) == 0 ==> !updated)
    && (updated ==> 0 <= last < i && forall j :: last < j < i ==> c[j] == 0)
    && (updated ==> c[last] == 1 || (c[last] == 0 && last + 1 == i && i < LEVELS && c[i] >= 1))
  }

  lemma PassCarryStep(c0: seq<int>, last0: int, c: seq<int>, i: int, last: int, updated: bool)
    requires Weight(c0) <= Pow2(30)
    requires PassInvariant(c0, last0, c, i, last, updated) && i < LEVELS && c[i] != 0
    ensures i + 1 < LEVELS && PassInvariant(c0, last0, Carry(c, i), i + 1, i, true)
  {
    WeightAtLeast(c, i);
    MulAtLeast(c[i] - 1, Pow2(i));
    CarryFacts(c, i);
  }

  lemma PassSkipStep(c0: seq<int>, last0: int, c: seq<int>, i: int, last: int, updated: bool)
    requires PassInvariant(c0, last0, c, i, last, updated) && i < LEVELS && c[i] == 0
    ensures PassInvariant(c0, last0, c, i + 1, last, updated)
  {
  }

  /** The first loop of an iteration: one upward pass of carries, ending
      with every level at 0 or 1 and `last` at the highest level set. */
  method CarryPass(c0: seq<int>, last0: int) returns (c: seq<int>, last: int)
    requires |c0| == LEVELS && NonNegative(c0) && Weight(c0) <= Pow2(30)
    ensures |c| == LEVELS && NonNegative(c) && Weight(c) == Weight(c0)
    ensures forall j :: 0 <= j < LEVELS ==> c[j] <= 1
    ensures Weight(c0) == 0 ==> last == last0
    ensures Weight(c0) > 0 ==> 0 <= last < LEVELS && c[last] == 1 && forall j :: last < j < LEVELS ==> c[j] == 0
  {
    c, last := c0, last0;
    ghost var updated := false;
    for i := 0 to LEVELS
      invariant PassInvariant(c0, last0, c, i, last, updated)
    {
      if c[i] != 0 {
        PassCarryStep(c0, last0, c, i, last, updated);
        ghost var before := c;
        c := c[i + 1 := c[i + 1] + c[i] / 2];
        c := c[i := c[i] % 2];
        assert c == Carry(before, i);
        last := i;
        updated := true;
      } else {
        PassSkipStep(c0, last0, c, i, last, updated);
      }
    }
    if !updated {
      WeightZeros(c, 0);
    }
  }

  /** The second loop of an iteration: the two lowest levels holding 1. */
  method FindPair(c: seq<int>) returns (first: int, second: int)
    requires |c| == LEVELS
    ensures -1 <= first < LEVELS && -1 <= second < LEVELS
    ensures first == -1 ==> second == -1 && forall j :: 0 <= j < LEVELS ==> c[j] != 1
    ensures first >= 0 ==> c[first] == 1 && forall j :: 0 <= j < first ==> c[j] != 1
    ensures first >= 0 && second == -1 ==> forall j :: first < j < LEVELS ==> c[j] != 1
    ensures second >= 0 ==> 0 <= first < second && c[second] == 1 && forall j :: first < j < second ==> c[j] != 1
  {
    first, second := -1, -1;
    var i := 0;
    while i < LEVELS
      invariant 0 <= i <= LEVELS && second == -1
      invariant first == -1 ==> forall j :: 0 <= j < i ==> c[j] != 1
      invariant first >= 0 ==> first < i && c[first] == 1
      invariant first >= 0 ==> (forall j :: 0 <= j < first ==> c[j] != 1) && forall j :: first < j < i ==> c[j] != 1
    {
      if first == -1 && c[i] == 1 {
        first := i;
      } else if second == -1 && c[i] == 1 {
        second := i;
        break;
      }
      i := i + 1;
    }
  }

  /** The widths of the memory-mapped instances. */
  function UnitBits(instances: seq<Instance>): (bits: seq<nat>)
    requires forall inst :: inst in instances && inst.decl.isMemoryMapped ==> inst.decl.memoryMapBits >= 0
    ensures |bits| == 0 <==> forall inst :: inst in instances ==> !inst.decl.isMemoryMapped
    ensures forall b :: b in bits <==> exists inst :: inst in instances && inst.decl.isMemoryMapped && inst.decl.memoryMapBits == b
  {
    if |instances| == 0 then []
    else
      var rest := UnitBits(instances[..|instances| - 1]);
      var inst := instances[|instances| - 1];
      assert instances == instances[..|instances| - 1] + [inst];
      if inst.decl.isMemoryMapped then rest + [inst.decl.memoryMapBits as nat] else rest
  }

  /** Memory-map sizing: `isMemoryMapped` exactly when some instance is
      memory mapped, and then `memoryMappedBits` is the least width whose
      window holds all the units' windows, with that width the only level
      left set. `Σ 2^bits <= 2^30` is exactly what keeps the loop inside
      its 32-entry array. */
  method MemoryMapSizing(instances: seq<Instance>) returns (isMemoryMapped: bool, memoryMappedBits: nat, levels: seq<int>)
    requires forall inst :: inst in instances && inst.decl.isMemoryMapped ==> 0 <= inst.decl.memoryMapBits < LEVELS as int
    requires SumPow2(UnitBits(instances)) <= Pow2(30)
    ensures isMemoryMapped <==> exists inst :: inst in instances && inst.decl.isMemoryMapped
    ensures isMemoryMapped ==> memoryMappedBits == CeilLog2(SumPow2(UnitBits(instances)))
    ensures !isMemoryMapped ==> memoryMappedBits == 0
    ensures |levels| == LEVELS
    ensures forall j :: 0 <= j < LEVELS ==> levels[j] == (if isMemoryMapped && j == memoryMappedBits then 1 else 0)
  {
    var bits := UnitBits(instances);
    ghost var total := SumPow2(bits);
    ghost var k := CeilLog2(total);
    CeilLog2Below(total, 30);
    Pow2Monotonic(k, 30);
    forall j | 0 <= j < |bits|
      ensures bits[j] < LEVELS
    {
      assert bits[j] in bits;
    }
    var counts := Histogram(bits);
    HistogramWeight(bits);
    var last := -1;
    while true
      invariant |counts| == LEVELS && NonNegative(counts)
      invariant total <= Weight(counts) <= Pow2(k)
      invariant total == 0 ==> Weight(counts) == 0 && last == -1
      decreases Pow2(k) - Weight(counts)
    {
      var done;
      counts, last, done := SizingStep(counts, last, total, k);
      if done {
        break;
      }
    }
    levels := counts;
    if last != -1 {
      isMemoryMapped, memoryMappedBits := true, last;
      FinalLevel(counts, last, total, k);
    } else {
      isMemoryMapped, memoryMappedBits := false, 0;
      WeightZero(counts);
    }
  }

  /** The loop has stopped: one level set at `last`, or nothing at all. */
  predicate Settled(c: seq<int>, last: int, total: nat)
    requires |c| == LEVELS
  {
    && (total == 0 ==> last == -1)
    && (total > 0 ==> 0 <= last < LEVELS && forall j :: 0 <= j < LEVELS ==> c[j] == (if j == last then 1 else 0))
  }

  /** One iteration of the `while(1)`: a carry pass, then either the stop
      or the merge of the two lowest windows. */
  method SizingStep(c0: seq<int>, last0: int, ghost total: nat, ghost k: nat) returns (c: seq<int>, last: int, done: bool)
    requires |c0| == LEVELS && NonNegative(c0) && k <= 30
    requires total <= Weight(c0) <= Pow2(k)
    requires total == 0 ==> Weight(c0) == 0 && last0 == -1
    ensures |c| == LEVELS && NonNegative(c)
    ensures total <= Weight(c) <= Pow2(k)
    ensures total == 0 ==> Weight(c) == 0 && last == -1
    ensures done ==> Settled(c, last, total)
    ensures !done ==> Weight(c) > Weight(c0)
  {
    Pow2Monotonic(k, 30);
    c, last := CarryPass(c0, last0);
    if total == 0 {
      WeightZero(c);
    }
    var first, second := FindPair(c);
    if second == -1 {
      NoPairSettled(c0, c, last, total);
      return c, last, true;
    }
    MergeStep(c, first, second, total, k);
    MergeInSourceOrder(c, first, second);
    c := Merge(c, first, second);
    done := false;
  }

  /** After a carry pass with at most one level set, the loop has settled. */
  lemma NoPairSettled(c0: seq<int>, c: seq<int>, last: int, total: nat)
    requires |c| == LEVELS && |c0| == LEVELS && Weight(c) == Weight(c0) && total <= Weight(c0)
    requires total == 0 ==> last == -1
    requires forall j :: 0 <= j < LEVELS ==> 0 <= c[j] <= 1
    requires Weight(c0) > 0 ==> 0 <= last < LEVELS && c[last] == 1 && forall j :: last < j < LEVELS ==> c[j] == 0
    requires forall j :: 0 <= j < last ==> c[j] != 1
    ensures Settled(c, last, total)
  {
  }

  /** The source's three updates, with the wider level taken by `Maxi`,
      are the merge. */
  lemma MergeInSourceOrder(c: seq<int>, f: nat, s: nat)
    requires f < s && s + 1 < |c|
    ensures var c2 := c[f := 0][s := 0]; c2[Maxi(f, s) + 1 := c2[Maxi(f, s) + 1] + 1] == Merge(c, f, s)
  {
  }

  /** Merging the lowest pair strictly grows the weight and keeps it within
      the power of two bounding it. */
  lemma MergeStep(c: seq<int>, f: nat, s: nat, total: nat, k: nat)
    requires |c| == LEVELS && NonNegative(c) && LowestPair(c, f, s) && k <= 30
    requires total <= Weight(c) <= Pow2(k)
    ensures s + 1 < LEVELS && NonNegative(Merge(c, f, s)) && Weight(c) > 0
    ensures total <= Weight(c) < Weight(Merge(c, f, s)) <= Pow2(k)
  {
    Pow2Monotonic(k, 30);
    PairBelow(c, f, s, k);
    MergeWeight(c, f, s);
    MergeBound(c, f, s, k);
    Pow2StrictlyMonotonic(f, s);
    WeightAtLeast(c, f);
  }

  /** With the only set level at `last` and the weight between the total
      and its least power of two above, `last` is that power's exponent. */
  lemma FinalLevel(c: seq<int>, last: nat, total: nat, k: nat)
    requires |c| == LEVELS && last < LEVELS && c[last] == 1
    requires forall j :: 0 <= j < LEVELS && j != last ==> c[j] == 0
    requires k == CeilLog2(total) && total <= Weight(c) <= Pow2(k)
    ensures last == k
  {
    SingleLevelWeight(c, last);
    LeastExponent(last, total, k);
  }

  /** One window of width `last` weighs `2^last`. */
  lemma SingleLevelWeight(c: seq<int>, last: nat)
    requires |c| == LEVELS && last < LEVELS && c[last] == 1
    requires forall j :: 0 <= j < LEVELS && j != last ==> c[j] == 0
    ensures Weight(c) == Pow2(last)
  {
    var zeros := seq(LEVELS, _ => 0);
    assert c == zeros[last := 1];
    WeightZeros(zeros, 0);
    WeightUpdate(zeros, last, 1);
  }

  /** A power of two between `total` and the least power above it is that
      least power. */
  lemma LeastExponent(e: nat, total: nat, k: nat)
    requires k == CeilLog2(total) && total <= Pow2(e) <= Pow2(k)
    ensures e == k
  {
    if e < k {
      Pow2Monotonic(e, k - 1);
    } else if e > k {
      Pow2StrictlyMonotonic(k, e);
    }
  }

  lemma {:induction false} CeilLog2Below(x: nat, e: nat)
    requires x <= Pow2(e)
    ensures CeilLog2(x) <= e
  {
    var r := CeilLog2(x);
    if r > e {
      Pow2Monotonic(e, r - 1);
    }
  }

  /** The least window of a power of two is its own exponent: a single
      unit of `b` bits gives an accelerator of `b` bits. */
  lemma {:induction false} CeilLog2OfPow2(b: nat)
    ensures CeilLog2(Pow2(b)) == b
    ensures CeilLog2(SumPow2([b])) == b
  {
    var r := CeilLog2(Pow2(b));
    if r < b {
      Pow2StrictlyMonotonic(r, b);
    } else if r > b {
      Pow2Monotonic(b, r - 1);
    }
    assert [b][..0] == [];
  }
}

=== FILE: merge_clique.dfy ===
/** The maximum-clique search over the consolidation graph (`merge.cpp`):
    the neighbour table, the `IsClique` check and the table-based
    branch-and-bound search of `Clique`/`MaxClique`.

    A `BitArray` of valid vertices is modelled as a `seq<bool>` with one entry
    per vertex (the bit-level layout is the subject of `BitArrays`), and a
    neighbour table as one such row per vertex.
 */
module Cliques {
  import opened Wrappers
  import opened ConsolidationGraphs

  // ---------------------------------------------------------------------
  // Counting valid vertices

  /** The vertices marked valid. */
  function ValidSet(valid: seq<bool>): set<nat> {
    set j: nat | j < |valid| && valid[j]
  }

  /** `NumberNodes` / `ValidNodes`: the number of valid vertices. */
  function Count(valid: seq<bool>): (c: nat)
    ensures c == |ValidSet(valid)|
    ensures c <= |valid|
  {
    if |valid| == 0 then 0
    else
      var last := |valid| - 1;
      var rest := valid[..last];
      assert ValidSet(valid) == ValidSet(rest) + (if valid[last] then {last} else {});
      Count(rest) + (if valid[last] then 1 else 0)
  }

  lemma SubsetCardinality<T>(a: set<T>, b: set<T>)
    requires a <= b
    ensures |a| <= |b|
    ensures |a| == |b| ==> a == b
  {
    assert b == a + (b - a);
    assert |b| == |a| + |b - a|;
    if |a| == |b| {
      assert |b - a| == 0;
    }
  }

  /** Clearing entries never raises the count, and clearing one that was set
      lowers it. */
  lemma CountSubset(a: seq<bool>, b: seq<bool>)
    requires |a| == |b|
    requires forall j :: 0 <= j < |a| && a[j] ==> b[j]
    ensures Count(a) <= Count(b)
    ensures (exists j :: 0 <= j < |a| && b[j] && !a[j]) ==> Count(a) < Count(b)
  {
    SubsetCardinality(ValidSet(a), ValidSet(b));
  }

  /** The first valid vertex, which the search expands next. */
  function FirstValid(valid: seq<bool>): (i: nat)
    requires Count(valid) > 0
    ensures i < |valid| && valid[i]
    ensures forall j :: 0 <= j < i ==> !valid[j]
  {
    var v :| v in ValidSet(valid);
    FirstValidFrom(valid, 0, v)
  }

  function FirstValidFrom(valid: seq<bool>, from: nat, v: nat): (i: nat)
    requires from <= v < |valid| && valid[v]
    requires forall j :: 0 <= j < from ==> !valid[j]
    ensures i < |valid| && valid[i]
    ensures forall j :: 0 <= j < i ==> !valid[j]
    decreases v - from
  {
    if valid[from] then from else FirstValidFrom(valid, from + 1, v)
  }

  // ---------------------------------------------------------------------
  // Adjacency and the neighbour table

  /** Some edge joins vertices `i` and `j`. */
  ghost predicate Adjacent(edges: seq<MappingEdge>, i: nat, j: nat) {
    exists k :: 0 <= k < |edges| && Joins(edges[k], i, j)
  }

  lemma AdjacentStep(edges: seq<MappingEdge>, i: nat, j: nat)
    requires |edges| > 0
    ensures Adjacent(edges, i, j) <==>
      Adjacent(edges[..|edges| - 1], i, j) || Joins(edges[|edges| - 1], i, j)
  {
    var rest := edges[..|edges| - 1];
    if Adjacent(edges, i, j) && !Joins(edges[|edges| - 1], i, j) {
      var k :| 0 <= k < |edges| && Joins(edges[k], i, j);
      assert rest[k] == edges[k];
    }
    if Adjacent(rest, i, j) {
      var k :| 0 <= k < |rest| && Joins(rest[k], i, j);
      assert edges[k] == rest[k];
    }
  }

  /** An `n` by `n` table of rows of valid bits. */
  predicate IsTable(nb: seq<seq<bool>>, n: nat) {
    |nb| == n && forall i :: 0 <= i < n ==> |nb[i]| == n
  }

  /** The neighbour relation is symmetric and no vertex neighbours itself. */
  predicate SymmetricIrreflexive(nb: seq<seq<bool>>, n: nat)
    requires IsTable(nb, n)
  {
    && (forall i, j :: 0 <= i < n && 0 <= j < n ==> nb[i][j] == nb[j][i])
    && (forall i :: 0 <= i < n ==> !nb[i][i])
  }

  /** `CalculateNeighborsTable`: a cleared row per vertex, then both bits of
      every edge set. */
  method CalculateNeighborsTable(n: nat, edges: seq<MappingEdge>) returns (nb: seq<seq<bool>>)
    requires EdgesInRange(n, edges)
    ensures IsTable(nb, n)
    ensures forall i, j :: 0 <= i < n && 0 <= j < n ==> (nb[i][j] <==> Adjacent(edges, i, j))
    ensures NoSelfLoops(edges) ==> SymmetricIrreflexive(nb, n)
  {
    nb := seq(n, _ => seq(n, _ => false));
    for k := 0 to |edges|
      invariant IsTable(nb, n)
      invariant forall i, j :: 0 <= i < n && 0 <= j < n ==> (nb[i][j] <==> Adjacent(edges[..k], i, j))
    {
      var e := edges[k];
      nb := nb[e.node0 := nb[e.node0][e.node1 := true]];
      nb := nb[e.node1 := nb[e.node1][e.node0 := true]];
      forall i, j | 0 <= i < n && 0 <= j < n
        ensures nb[i][j] <==> Adjacent(edges[..k + 1], i, j)
      {
        AdjacentStep(edges[..k + 1], i, j);
        assert edges[..k + 1][..k] == edges[..k];
      }
    }
    assert edges[..|edges|] == edges;
    if NoSelfLoops(edges) {
      forall i | 0 <= i < n
        ensures !nb[i][i]
      {
        NotAdjacentToSelf(edges, i);
      }
    }
  }

  // ---------------------------------------------------------------------
  // IsClique

  /** The count `IsClique` makes for vertex `i`: the edges at `i` whose other
      end is valid (an edge is tested against `node0` first). */
  function ValidDegree(edges: seq<MappingEdge>, valid: seq<bool>, i: nat): (d: nat)
    requires EdgesInRange(|valid|, edges)
    ensures d <= |edges|
  {
    if |edges| == 0 then 0
    else
      var e := edges[|edges| - 1];
      ValidDegree(edges[..|edges| - 1], valid, i) +
        (if e.node0 == i then (if valid[e.node1] then 1 else 0)
         else if e.node1 == i then (if valid[e.node0] then 1 else 0)
         else 0)
  }

  /** The valid vertices adjacent to `i`. */
  ghost function ValidNeighbours(edges: seq<MappingEdge>, valid: seq<bool>, i: nat): set<nat> {
    set j: nat | j < |valid| && valid[j] && Adjacent(edges, i, j)
  }

  /** Without self-loops and repeated pairs, the count is the number of valid
      neighbours. */
  lemma {:induction false} DegreeCounts(edges: seq<MappingEdge>, valid: seq<bool>, i: nat)
    requires EdgesInRange(|valid|, edges) && NoSelfLoops(edges) && NoRepeatedPairs(edges)
    ensures ValidDegree(edges, valid, i) == |ValidNeighbours(edges, valid, i)|
  {
    if |edges| == 0 {
      assert ValidNeighbours(edges, valid, i) == {};
    } else {
      var rest := edges[..|edges| - 1];
      DegreeCounts(rest, valid, i);
      NeighboursStep(edges, valid, i);
    }
  }

  /** The last edge adds its other end, when valid, to the neighbours found
      among the earlier edges, and that end is new. */
  lemma NeighboursStep(edges: seq<MappingEdge>, valid: seq<bool>, i: nat)
    requires |edges| > 0
    requires EdgesInRange(|valid|, edges) && NoSelfLoops(edges) && NoRepeatedPairs(edges)
    ensures var e := edges[|edges| - 1];
            var added := if e.node0 == i then (if valid[e.node1] then 1 else 0)
                         else if e.node1 == i then (if valid[e.node0] then 1 else 0) else 0;
            |ValidNeighbours(edges, valid, i)| == |ValidNeighbours(edges[..|edges| - 1], valid, i)| + added
  {
    var last := |edges| - 1;
    var rest := edges[..last];
    var e := edges[last];
    var added: set<nat> :=
      if e.node0 == i && valid[e.node1] then {e.node1}
      else if e.node0 != i && e.node1 == i && valid[e.node0] then {e.node0}
      else {};
    forall j: nat
      ensures j in ValidNeighbours(edges, valid, i) <==> j in ValidNeighbours(rest, valid, i) || j in added
    {
      AdjacentStep(edges, i, j);
    }
    assert ValidNeighbours(edges, valid, i) == ValidNeighbours(rest, valid, i) + added;
    forall j | j in added
      ensures j !in ValidNeighbours(rest, valid, i)
    {
      forall k | 0 <= k < |rest|
        ensures !Joins(rest[k], i, j)
      {
        assert !Joins(edges[k], e.node0, e.node1);
      }
    }
  }

  /** Every pair of distinct valid vertices is joined by an edge. */
  ghost predicate PairwiseAdjacent(edges: seq<MappingEdge>, valid: seq<bool>) {
    forall i, j :: 0 <= i < |valid| && 0 <= j < |valid| && valid[i] && valid[j] && i != j ==> Adjacent(edges, i, j)
  }

  /** What `IsClique` tests: zero or one valid vertices, or every valid
      vertex has one valid neighbour fewer than there are valid vertices. */
  predicate CliqueCounts(edges: seq<MappingEdge>, valid: seq<bool>)
    requires EdgesInRange(|valid|, edges)
  {
    Count(valid) <= 1 ||
    forall i :: 0 <= i < |valid| && valid[i] ==> ValidDegree(edges, valid, i) == Count(valid) - 1
  }

  datatype IsCliqueResult = IsCliqueResult(result: bool, failedIndex: int)

  /** `IsClique`: the count test, reporting the first vertex that fails it. */
  method IsClique(graph: Graph) returns (res: IsCliqueResult)
    requires |graph.validNodes| == |graph.nodes| && graph.numberEdges == |graph.edges|
    requires EdgesInRange(|graph.nodes|, graph.edges)
    ensures res.result <==> CliqueCounts(graph.edges, graph.validNodes)
    ensures !res.result ==>
      && 0 <= res.failedIndex < |graph.nodes| && graph.validNodes[res.failedIndex]
      && ValidDegree(graph.edges, graph.validNodes, res.failedIndex) != Count(graph.validNodes) - 1
  {
    var valid := graph.validNodes;
    var cliqueSize := Count(valid);
    if cliqueSize == 0 || cliqueSize == 1 {
      return IsCliqueResult(true, 0);
    }
    for i := 0 to |graph.nodes|
      invariant forall j :: 0 <= j < i && valid[j] ==> ValidDegree(graph.edges, valid, j) == cliqueSize - 1
    {
      if !valid[i] {
        continue;
      }
      var count := CountValidNeighbours(graph.edges, valid, i);
      if count != cliqueSize - 1 {
        return IsCliqueResult(false, i);
      }
    }
    return IsCliqueResult(true, 0);
  }

  /** The inner loop of `IsClique` over the stored edges. */
  method CountValidNeighbours(edges: seq<MappingEdge>, valid: seq<bool>, i: nat) returns (count: nat)
    requires EdgesInRange(|valid|, edges)
    ensures count == ValidDegree(edges, valid, i)
  {
    count := 0;
    for ii := 0 to |edges|
      invariant count == ValidDegree(edges[..ii], valid, i)
    {
      var edge := edges[ii];
      assert edges[..ii + 1][..ii] == edges[..ii];
      if edge.node0 == i {
        if valid[edge.node1] {
          count := count + 1;
        }
      } else if edge.node1 == i {
        if valid[edge.node0] {
          count := count + 1;
        }
      }
    }
    assert edges[..|edges|] == edges;
  }

  /** On a graph without self-loops or repeated pairs, `IsClique` passes
      exactly when the valid vertices are pairwise adjacent. */
  lemma IsCliqueExact(edges: seq<MappingEdge>, valid: seq<bool>)
    requires EdgesInRange(|valid|, edges) && NoSelfLoops(edges) && NoRepeatedPairs(edges)
    ensures CliqueCounts(edges, valid) <==> PairwiseAdjacent(edges, valid)
  {
    var all := ValidSet(valid);
    if PairwiseAdjacent(edges, valid) && Count(valid) > 1 {
      forall i | 0 <= i < |valid| && valid[i]
        ensures ValidDegree(edges, valid, i) == Count(valid) - 1
      {
        DegreeCounts(edges, valid, i);
        NeighboursExcludeSelf(edges, valid, i);
        assert ValidNeighbours(edges, valid, i) == all - {i};
      }
    }
    if CliqueCounts(edges, valid) {
      forall i, j | 0 <= i < |valid| && 0 <= j < |valid| && valid[i] && valid[j] && i != j
        ensures Adjacent(edges, i, j)
      {
        SubsetCardinality({i, j}, all);
        DegreeCounts(edges, valid, i);
        NeighboursExcludeSelf(edges, valid, i);
        SubsetCardinality(ValidNeighbours(edges, valid, i), all - {i});
        assert j in all - {i};
      }
    }
  }

  lemma NeighboursExcludeSelf(edges: seq<MappingEdge>, valid: seq<bool>, i: nat)
    requires NoSelfLoops(edges)
    ensures ValidNeighbours(edges, valid, i) <= ValidSet(valid) - {i}
  {
    NotAdjacentToSelf(edges, i);
  }

  lemma NotAdjacentToSelf(edges: seq<MappingEdge>, i: nat)
    requires NoSelfLoops(edges)
    ensures !Adjacent(edges, i, i)
  {
    forall k | 0 <= k < |edges|
      ensures !Joins(edges[k], i, i)
    {
    }
  }

  // ---------------------------------------------------------------------
  // The search

  /** `CliqueState`: the size of the best clique so far, the bound table, the
      best clique's vertices, the early-exit flag, and a clock. The clock
      stands for the wall-clock time the source reads: it advances one tick at
      each reading, and the search stops once it passes `limit`. */
  datatype CliqueState = CliqueState(max: int, table: seq<int>, clique: seq<bool>, found: bool, ticks: nat)

  /** The record (the `IndexRecord` list) holds distinct vertices that are
      pairwise neighbours. */
  predicate IsRecord(nb: seq<seq<bool>>, n: nat, record: seq<nat>)
    requires IsTable(nb, n)
  {
    && (forall a :: 0 <= a < |record| ==> record[a] < n)
    && (forall a, b :: 0 <= a < |record| && 0 <= b < |record| && a != b ==>
          record[a] != record[b] && nb[record[a]][record[b]])
  }

  /** Every valid vertex can extend the record: it is not in it, and it
      neighbours each vertex of it. */
  predicate Extends(nb: seq<seq<bool>>, n: nat, valid: seq<bool>, record: seq<nat>)
    requires IsTable(nb, n) && |valid| == n && IsRecord(nb, n, record)
  {
    forall j, a :: 0 <= j < n && valid[j] && 0 <= a < |record| ==> record[a] != j && nb[j][record[a]]
  }

  /** Every two distinct valid vertices are neighbours. */
  predicate PairwiseNeighbours(nb: seq<seq<bool>>, n: nat, valid: seq<bool>)
    requires IsTable(nb, n) && |valid| == n
  {
    forall i, j :: 0 <= i < n && 0 <= j < n && valid[i] && valid[j] && i != j ==> nb[i][j]
  }

  /** Once a clique has been recorded (`max > 0`), `clique` holds it and
      `max` is its size. */
  predicate StateOk(nb: seq<seq<bool>>, n: nat, st: CliqueState)
    requires IsTable(nb, n)
  {
    && |st.table| == n && |st.clique| == n && st.max >= 0
    && (st.max > 0 ==> st.max == Count(st.clique) && PairwiseNeighbours(nb, n, st.clique))
  }

  /** The vertices of a record. */
  function Elements(record: seq<nat>): set<nat> {
    set x | x in record
  }

  lemma {:induction false} DistinctElements(record: seq<nat>)
    requires forall a, b :: 0 <= a < |record| && 0 <= b < |record| && a != b ==> record[a] != record[b]
    ensures |Elements(record)| == |record|
  {
    if |record| == 0 {
      assert Elements(record) == {};
    } else {
      DistinctElements(record[1..]);
      ElementsFirst(record);
    }
  }

  /** A record's vertices are its first one and those of the rest, which do
      not include the first. */
  lemma ElementsFirst(record: seq<nat>)
    requires |record| > 0
    requires forall a, b :: 0 <= a < |record| && 0 <= b < |record| && a != b ==> record[a] != record[b]
    ensures Elements(record) == {record[0]} + Elements(record[1..])
    ensures record[0] !in Elements(record[1..])
  {
    var rest := record[1..];
    assert record == [record[0]] + rest;
    forall k | 0 <= k < |rest|
      ensures rest[k] != record[0]
    {
      assert rest[k] == record[k + 1];
    }
  }

  /** Marking the record's vertices gives a clique of `|record|` vertices. */
  lemma RecordIsClique(nb: seq<seq<bool>>, n: nat, record: seq<nat>)
    requires IsTable(nb, n) && IsRecord(nb, n, record)
    ensures var marked := seq(n, j => j in record);
            Count(marked) == |record| && PairwiseNeighbours(nb, n, marked)
  {
    var marked := seq(n, j => j in record);
    DistinctElements(record);
    assert ValidSet(marked) == Elements(record);
    forall i, j | 0 <= i < n && 0 <= j < n && marked[i] && marked[j] && i != j
      ensures nb[i][j]
    {
      var a :| 0 <= a < |record| && record[a] == i;
      var b :| 0 <= b < |record| && record[b] == j;
    }
  }

  /** Expanding valid vertex `i` adds it to the record, and the vertices left
      for the recursive call (valid, other than `i`, neighbours of `i`) can
      extend the longer record. */
  lemma ExtendRecord(nb: seq<seq<bool>>, n: nat, valid: seq<bool>, temp: seq<bool>, i: nat, record: seq<nat>)
    requires IsTable(nb, n) && SymmetricIrreflexive(nb, n) && |valid| == n && |temp| == n
    requires IsRecord(nb, n, record) && Extends(nb, n, valid, record)
    requires i < n && valid[i]
    requires forall j :: 0 <= j < n && temp[j] ==> valid[j] && j != i && nb[i][j]
    ensures IsRecord(nb, n, [i] + record)
    ensures Extends(nb, n, temp, [i] + record)
  {
    var r := [i] + record;
    forall a, b | 0 <= a < |r| && 0 <= b < |r| && a != b
      ensures r[a] != r[b] && nb[r[a]][r[b]]
    {
      if a == 0 {
        assert r[b] == record[b - 1];
      } else if b == 0 {
        assert r[a] == record[a - 1];
        assert nb[i][r[a]];
      } else {
        assert r[a] == record[a - 1] && r[b] == record[b - 1];
      }
    }
    forall j, a | 0 <= j < n && temp[j] && 0 <= a < |r|
      ensures r[a] != j && nb[j][r[a]]
    {
      if a > 0 {
        assert r[a] == record[a - 1];
      }
    }
  }

  /** `Clique`: branch and bound below `record`. With no valid vertex left
      the record is kept when it beats the best so far; otherwise, until the
      clock runs out, vertices are expanded in index order, pruning when even
      all remaining vertices, or the bound table, cannot beat the best. */
  method Clique(nb: seq<seq<bool>>, state: CliqueState, validArg: seq<bool>, record: seq<nat>, size: int, limit: nat)
    returns (s: CliqueState)
    requires IsTable(nb, |validArg|) && SymmetricIrreflexive(nb, |validArg|)
    requires StateOk(nb, |validArg|, state)
    requires size == |record| && IsRecord(nb, |validArg|, record)
    requires Extends(nb, |validArg|, validArg, record)
    ensures StateOk(nb, |validArg|, s)
    ensures s.table == state.table && s.max >= state.max
    ensures Count(validArg) == 0 ==> s.max >= size
    decreases Count(validArg)
  {
    var n := |validArg|;
    var valid := validArg;
    s := state;
    if Count(valid) == 0 {
      if size > s.max {
        RecordIsClique(nb, n, record);
        s := s.(max := size, clique := seq(n, j => j in record), found := true);
      }
      return;
    }
    s := s.(ticks := s.ticks + 1);
    if s.ticks > limit {
      s := s.(found := true);
      return;
    }
    var num := Count(valid);
    while num != 0
      invariant |valid| == n && num == Count(valid)
      invariant forall j :: 0 <= j < n && valid[j] ==> validArg[j]
      invariant Extends(nb, n, valid, record)
      invariant StateOk(nb, n, s) && s.table == state.table && s.max >= state.max
      decreases num
    {
      if size + num <= s.max {
        return;
      }
      var i := FirstValid(valid);
      if size + s.table[i] <= s.max {
        return;
      }
      ghost var before := valid;
      valid := valid[i := false];
      var temp := seq(n, j requires 0 <= j < n => valid[j] && nb[i][j]);
      ExtendRecord(nb, n, before, temp, i, record);
      assert validArg[i] && !temp[i];
      CountSubset(temp, validArg);
      s := Clique(nb, s, temp, [i] + record, size + 1, limit);
      if s.found {
        return;
      }
      assert before[i] && !valid[i];
      CountSubset(valid, before);
      num := Count(valid);
    }
  }

  /** The bound table after seeding every vertex above `i`: those entries are
      the best sizes recorded after each seed, so they are positive, at most
      the best size, and do not increase with the index; the rest are still 0. */
  predicate TableOk(st: CliqueState, n: nat, i: int)
    requires |st.table| == n
  {
    && (forall j :: 0 <= j < n && j <= i ==> st.table[j] == 0)
    && (forall j :: 0 <= j < n && j > i ==> 1 <= st.table[j] <= st.max)
    && (forall j, j' :: 0 <= j && i < j < j' < n ==> st.table[j] >= st.table[j'])
  }

  /** `MaxClique`: seeds the search with each vertex from the last down,
      offering only the higher-numbered neighbours, records the best size in
      the bound table after each seed, stops when the clock runs out, and
      asserts that the result passes `IsClique`. */
  method MaxClique(graph: Graph, limit: nat) returns (r: Result<Graph>, state: CliqueState)
    requires |graph.validNodes| == |graph.nodes| && graph.numberEdges == |graph.edges|
    requires EdgesInRange(|graph.nodes|, graph.edges) && NoSelfLoops(graph.edges)
    ensures NoRepeatedPairs(graph.edges) ==> r.Success?
    ensures r.Success? ==> r.value == graph.(validNodes := state.clique)
    ensures |state.clique| == |graph.nodes| && PairwiseAdjacent(graph.edges, state.clique)
    ensures |graph.nodes| > 0 ==> state.max >= 1 && Count(state.clique) == state.max
    ensures |state.table| == |graph.nodes|
    ensures exists i :: -1 <= i < |graph.nodes| && (|graph.nodes| > 0 ==> i < |graph.nodes| - 1) &&
                        TableOk(state, |graph.nodes|, i) && (i < |graph.nodes| - 1 ==> state.table[i + 1] == state.max)
  {
    var n := |graph.nodes|;
    var nb := CalculateNeighborsTable(n, graph.edges);
    state := CliqueState(0, seq(n, _ => 0), graph.validNodes, false, 0);
    var valid := seq(n, _ => false);
    var i := n - 1;
    while i >= 0
      invariant -1 <= i < n && |valid| == n
      invariant forall j :: 0 <= j < n && valid[j] ==> j > i
      invariant StateOk(nb, n, state) && TableOk(state, n, i)
      invariant i < n - 1 ==> state.max >= 1 && state.table[i + 1] == state.max
      decreases i
    {
      state, valid := SeedVertex(nb, state, valid, i, limit);
      i := i - 1;
      state := state.(ticks := state.ticks + 1);
      if state.ticks > limit {
        break;
      }
    }
    assert -1 <= i < n && (n > 0 ==> i < n - 1) && TableOk(state, n, i) && (i < n - 1 ==> state.table[i + 1] == state.max);
    NeighboursArePairs(graph.edges, nb, state.clique);
    var res := IsClique(graph.(validNodes := state.clique));
    if NoRepeatedPairs(graph.edges) {
      IsCliqueExact(graph.edges, state.clique);
    }
    if !res.result {
      return Failure("the clique found is not a clique"), state;
    }
    r := Success(graph.(validNodes := state.clique));
  }

  /** One round of `MaxClique`'s loop: the vertices from `i` up are made
      valid, cut down to the neighbours of `i`, and searched with `i` as the
      record; the best size is then entered in the table for `i`. */
  method SeedVertex(nb: seq<seq<bool>>, state: CliqueState, valid: seq<bool>, i: nat, limit: nat)
    returns (s: CliqueState, next: seq<bool>)
    requires IsTable(nb, |valid|) && SymmetricIrreflexive(nb, |valid|) && i < |valid|
    requires forall j :: 0 <= j < |valid| && valid[j] ==> j > i
    requires StateOk(nb, |valid|, state) && TableOk(state, |valid|, i)
    requires i < |valid| - 1 ==> state.max >= 1
    ensures |next| == |valid| && forall j :: 0 <= j < |valid| && next[j] ==> j >= i
    ensures StateOk(nb, |valid|, s) && TableOk(s, |valid|, i - 1) && s.max >= 1
    ensures s.max >= state.max && s.table[i] == s.max
    ensures forall j :: 0 <= j < |valid| && j != i ==> s.table[j] == state.table[j]
  {
    var n := |valid|;
    s := state.(found := false);
    next := seq(n, j requires 0 <= j < n => valid[j] || j >= i);
    next := seq(n, j requires 0 <= j < n => next[j] && nb[i][j]);
    assert IsRecord(nb, n, [i]);
    s := Clique(nb, s, next, [i], 1, limit);
    s := s.(table := s.table[i := s.max]);
  }

  lemma NeighboursArePairs(edges: seq<MappingEdge>, nb: seq<seq<bool>>, valid: seq<bool>)
    requires IsTable(nb, |valid|)
    requires forall i, j :: 0 <= i < |valid| && 0 <= j < |valid| ==> (nb[i][j] <==> Adjacent(edges, i, j))
    requires PairwiseNeighbours(nb, |valid|, valid)
    ensures PairwiseAdjacent(edges, valid)
  {
  }
}

=== FILE: merge_conflict.dfy ===
/** Candidate correspondences between two accelerators and the conflict test
    between them (`merge.cpp`).

    A candidate either maps an instance of the first accelerator onto one of
    the second (`NodeMap`) or maps an edge of the first onto an edge of the
    second (`EdgeMap`), which maps both endpoints. Two candidates conflict
    when taking both would map one instance to two, or two instances to one.
 */
module MergeConflicts {
  import opened Wrappers
  import opened Accelerators

  /** Two port instances: an edge's endpoints without its delay, or the
      `PortEdge` the conflict test builds from two mapped endpoints. */
  datatype PortPair = PortPair(first: PortInstance, second: PortInstance)

  /** `MappingNode`: `edge0` is an edge of the first accelerator and `edge1`
      one of the second; `inst0` is mapped onto `inst1`. */
  datatype MappingNode =
    | NodeMap(inst0: Instance, inst1: Instance)
    | EdgeMap(edge0: PortPair, edge1: PortPair)

  /** `NodeMappingConflict`: `edge1` and `edge2` each map `first` onto
      `second`. Port instances are compared by instance only (the non-const
      `operator==` of merge.cpp), and the test gives up when the two first
      endpoints have different declarations. */
  predicate NodeMappingConflict(edge1: PortPair, edge2: PortPair) {
    var p00 := edge1.first.inst;
    var p01 := edge1.second.inst;
    var p10 := edge2.first.inst;
    var p11 := edge2.second.inst;
    if p00.decl != p10.decl then false
    else
      || (p00 == p10 && p01 != p11)
      || (p00 == p11 && p01 != p10)
      || (p00 != p10 && p01 == p11)
      || (p00 != p11 && p01 == p10)
  }

  /** The source's `XOR(A,B,C,D)` macro: exactly one of the two equalities. */
  predicate OneEqual(a: Instance, b: Instance, c: Instance, d: Instance) {
    (a == b && c != d) || (a != b && c == d)
  }

  /** A node candidate `p0 -> p1` against an edge candidate. */
  predicate NodeEdgeConflict(p0: Instance, p1: Instance, e0: PortPair, e1: PortPair) {
    OneEqual(p0, e0.first.inst, p1, e1.first.inst) || OneEqual(p0, e0.second.inst, p1, e1.second.inst)
  }

  /** `MappingConflict` */
  predicate MappingConflict(map1: MappingNode, map2: MappingNode) {
    match (map1, map2)
    case (NodeMap(p00, p01), NodeMap(p10, p11)) =>
      (p00 == p10 && p01 != p11) || (p00 != p10 && p01 == p11)
    case (EdgeMap(a0, a1), EdgeMap(b0, b1)) =>
      var nodeMapping00 := PortPair(a0.first, a1.first);
      var nodeMapping01 := PortPair(a0.second, a1.second);
      var nodeMapping10 := PortPair(b0.first, b1.first);
      var nodeMapping11 := PortPair(b0.second, b1.second);
      || NodeMappingConflict(nodeMapping00, nodeMapping10)
      || NodeMappingConflict(nodeMapping01, nodeMapping10)
      || NodeMappingConflict(nodeMapping00, nodeMapping11)
      || NodeMappingConflict(nodeMapping01, nodeMapping11)
    case (NodeMap(p0, p1), EdgeMap(e0, e1)) => NodeEdgeConflict(p0, p1, e0, e1)
    case (EdgeMap(e0, e1), NodeMap(p0, p1)) => NodeEdgeConflict(p0, p1, e0, e1)
  }

  /** The instance correspondences a candidate commits to. */
  function InstancePairs(m: MappingNode): (r: set<(Instance, Instance)>)
    ensures m.NodeMap? ==> |r| == 1
    ensures m.EdgeMap? ==> 1 <= |r| <= 2
  {
    match m
    case NodeMap(a, b) => {(a, b)}
    case EdgeMap(e0, e1) =>
      var r := {(e0.first.inst, e1.first.inst), (e0.second.inst, e1.second.inst)};
      assert (e0.first.inst, e1.first.inst) in r;
      r
  }

  /** Two correspondences can be taken together: they agree on the first
      instance exactly when they agree on the second. */
  predicate Compatible(p: (Instance, Instance), q: (Instance, Instance)) {
    (p.0 == q.0) <==> (p.1 == q.1)
  }

  /** Every correspondence of `m` maps an instance of `side0` onto an
      instance of `side1` with the same declaration. */
  ghost predicate Sided(m: MappingNode, side0: set<Instance>, side1: set<Instance>) {
    forall p :: p in InstancePairs(m) ==> p.0 in side0 && p.1 in side1 && p.0.decl == p.1.decl
  }

  /** Two node candidates conflict exactly when one of `a0 == a1`, `b0 == b1`
      holds without the other: an injectivity violation. */
  lemma NodeConflictExactlyOne(a0: Instance, b0: Instance, a1: Instance, b1: Instance)
    ensures MappingConflict(NodeMap(a0, b0), NodeMap(a1, b1)) <==> ((a0 == a1) != (b0 == b1))
  {
  }

  lemma NodeMappingConflictSymmetric(e1: PortPair, e2: PortPair)
    ensures NodeMappingConflict(e1, e2) == NodeMappingConflict(e2, e1)
  {
  }

  /** `MappingConflict` does not depend on the order of its arguments, for
      every kind of candidate. */
  lemma MappingConflictSymmetric(m1: MappingNode, m2: MappingNode)
    ensures MappingConflict(m1, m2) == MappingConflict(m2, m1)
  {
    match (m1, m2)
    case (EdgeMap(a0, a1), EdgeMap(b0, b1)) =>
      NodeMappingConflictSymmetric(PortPair(a0.first, a1.first), PortPair(b0.first, b1.first));
      NodeMappingConflictSymmetric(PortPair(a0.second, a1.second), PortPair(b0.first, b1.first));
      NodeMappingConflictSymmetric(PortPair(a0.first, a1.first), PortPair(b0.second, b1.second));
      NodeMappingConflictSymmetric(PortPair(a0.second, a1.second), PortPair(b0.second, b1.second));
    case _ =>
  }

  /** Ports play no part in `NodeMappingConflict`. */
  lemma NodeMappingConflictIgnoresPorts(e1: PortPair, e2: PortPair, ports: seq<int>)
    requires |ports| == 4
    ensures NodeMappingConflict(e1, e2) == NodeMappingConflict(
      PortPair(e1.first.(port := ports[0]), e1.second.(port := ports[1])),
      PortPair(e2.first.(port := ports[2]), e2.second.(port := ports[3])))
  {
  }

  /** One correspondence of each candidate, tested as `NodeMappingConflict`
      tests them, when the two sides share no instance. */
  lemma NodeMappingConflictIsIncompatibility(x: PortPair, y: PortPair, side0: set<Instance>, side1: set<Instance>)
    requires side0 !! side1
    requires x.first.inst in side0 && y.first.inst in side0
    requires x.second.inst in side1 && y.second.inst in side1
    requires x.first.inst.decl == x.second.inst.decl && y.first.inst.decl == y.second.inst.decl
    ensures NodeMappingConflict(x, y) <==> !Compatible((x.first.inst, x.second.inst), (y.first.inst, y.second.inst))
  {
    assert x.first.inst != y.second.inst && x.second.inst != y.first.inst;
  }

  /** Between candidates that map instances of one accelerator onto
      instances of another, disjoint one, with equal declarations, a conflict
      is exactly a pair of incompatible correspondences: taking both
      candidates would make the instance mapping non-injective or not a
      function. */
  lemma ConflictIsIncompatibility(m1: MappingNode, m2: MappingNode, side0: set<Instance>, side1: set<Instance>)
    requires side0 !! side1
    requires Sided(m1, side0, side1) && Sided(m2, side0, side1)
    ensures MappingConflict(m1, m2) <==>
      exists p, q :: p in InstancePairs(m1) && q in InstancePairs(m2) && !Compatible(p, q)
  {
    match (m1, m2)
    case (NodeMap(p00, p01), NodeMap(p10, p11)) =>
      assert (p00, p01) in InstancePairs(m1) && (p10, p11) in InstancePairs(m2);
    case (EdgeMap(a0, a1), EdgeMap(b0, b1)) =>
      var x0, x1 := PortPair(a0.first, a1.first), PortPair(a0.second, a1.second);
      var y0, y1 := PortPair(b0.first, b1.first), PortPair(b0.second, b1.second);
      assert (a0.first.inst, a1.first.inst) in InstancePairs(m1);
      assert (a0.second.inst, a1.second.inst) in InstancePairs(m1);
      assert (b0.first.inst, b1.first.inst) in InstancePairs(m2);
      assert (b0.second.inst, b1.second.inst) in InstancePairs(m2);
      NodeMappingConflictIsIncompatibility(x0, y0, side0, side1);
      NodeMappingConflictIsIncompatibility(x1, y0, side0, side1);
      NodeMappingConflictIsIncompatibility(x0, y1, side0, side1);
      NodeMappingConflictIsIncompatibility(x1, y1, side0, side1);
    case (NodeMap(p0, p1), EdgeMap(e0, e1)) =>
      assert (p0, p1) in InstancePairs(m1);
      assert (e0.first.inst, e1.first.inst) in InstancePairs(m2);
      assert (e0.second.inst, e1.second.inst) in InstancePairs(m2);
    case (EdgeMap(e0, e1), NodeMap(p0, p1)) =>
      assert (p0, p1) in InstancePairs(m2);
      assert (e0.first.inst, e1.first.inst) in InstancePairs(m1);
      assert (e0.second.inst, e1.second.inst) in InstancePairs(m1);
  }

  /** `EqualPortMapping`: two circuit inputs match when their input port
      numbers (instance ids) agree; any other two port instances match when
      declaration and port agree. */
  predicate EqualPortMapping(versat: Versat, p1: PortInstance, p2: PortInstance) {
    if p1.inst.decl == versat.input && p2.inst.decl == versat.input then p1.inst.id == p2.inst.id
    else p1.inst.decl == p2.inst.decl && p1.port == p2.port
  }

  /** `EqualPortMapping` is an equivalence that only relates port instances
      of the same declaration. */
  lemma EqualPortMappingEquivalence(versat: Versat, p1: PortInstance, p2: PortInstance, p3: PortInstance)
    ensures EqualPortMapping(versat, p1, p1)
    ensures EqualPortMapping(versat, p1, p2) ==> EqualPortMapping(versat, p2, p1)
    ensures EqualPortMapping(versat, p1, p2) && EqualPortMapping(versat, p2, p3) ==> EqualPortMapping(versat, p1, p3)
    ensures EqualPortMapping(versat, p1, p2) ==> p1.inst.decl == p2.inst.decl
  {
  }

  /** `ConsolidationGraphOptions::type`; `AnyOrder` is the zero-initialised
      value, which neither order test checks for. */
  datatype OrderMode = AnyOrder | SameOrder | ExactOrder

  datatype Options = Options(mode: OrderMode, order: int, difference: int, mapNodes: bool)

  /** The order lies in `[options.order, options.order + options.difference]`. */
  predicate InWindow(order: int, options: Options) {
    0 <= order - options.order <= options.difference
  }

  /** `EdgeOrder`: only `ExactOrder` filters edges, keeping those whose two
      endpoints both lie in the window. */
  predicate EdgeOrder(edge: Edge, options: Options) {
    if options.mode == ExactOrder then
      var delta0 := edge.outPort.inst.order - options.order;
      var delta1 := edge.inPort.inst.order - options.order;
      if delta0 < 0 || delta1 < 0 then false
      else delta0 <= options.difference && delta1 <= options.difference
    else true
  }

  /** The nested loop over `xs` then `ys`, keeping what `f` produces. */
  function Product<A, B, C>(xs: seq<A>, ys: seq<B>, f: (A, B) -> Option<C>): (r: seq<C>)
    ensures |r| <= |xs| * |ys|
  {
    if |xs| == 0 then [] else Product(xs[..|xs| - 1], ys, f) + Row(xs[|xs| - 1], ys, f)
  }

  /** The inner loop of `Product`, for one `x`. */
  function Row<A, B, C>(x: A, ys: seq<B>, f: (A, B) -> Option<C>): (r: seq<C>)
    ensures |r| <= |ys|
  {
    if |ys| == 0 then [] else Row(x, ys[..|ys| - 1], f) + Keep(f(x, ys[|ys| - 1]))
  }

  function Keep<C>(o: Option<C>): seq<C> {
    match o
    case Some(c) => [c]
    case None => []
  }

  lemma {:induction false} RowMembership<A, B, C>(x: A, ys: seq<B>, f: (A, B) -> Option<C>, c: C)
    ensures c in Row(x, ys, f) <==> exists j :: 0 <= j < |ys| && f(x, ys[j]) == Some(c)
  {
    if |ys| > 0 {
      var front := ys[..|ys| - 1];
      RowMembership(x, front, f, c);
      var r, k := Row(x, front, f), Keep(f(x, ys[|ys| - 1]));
      assert Row(x, ys, f) == r + k;
      assert c in r + k <==> c in r || c in k;
      if exists j :: 0 <= j < |front| && f(x, front[j]) == Some(c) {
        var j :| 0 <= j < |front| && f(x, front[j]) == Some(c);
        assert f(x, ys[j]) == Some(c);
      }
      if exists j :: 0 <= j < |ys| && f(x, ys[j]) == Some(c) {
        var j :| 0 <= j < |ys| && f(x, ys[j]) == Some(c);
        if j < |front| {
          assert f(x, front[j]) == Some(c);
        }
      }
    }
  }

  /** A property every value `f` produces holds of every product value. */
  lemma ProductAll<A, B, C>(xs: seq<A>, ys: seq<B>, f: (A, B) -> Option<C>, P: C -> bool)
    requires forall i, j :: 0 <= i < |xs| && 0 <= j < |ys| && f(xs[i], ys[j]).Some? ==> P(f(xs[i], ys[j]).value)
    ensures forall c :: c in Product(xs, ys, f) ==> P(c)
  {
    forall c | c in Product(xs, ys, f)
      ensures P(c)
    {
      ProductMembership(xs, ys, f, c);
      var i, j :| 0 <= i < |xs| && 0 <= j < |ys| && f(xs[i], ys[j]) == Some(c);
    }
  }

  /** `Product` keeps exactly the values `f` produces for some pair. */
  lemma {:induction false} ProductMembership<A, B, C>(xs: seq<A>, ys: seq<B>, f: (A, B) -> Option<C>, c: C)
    ensures c in Product(xs, ys, f) <==> PairProduces(xs, ys, f, c)
  {
    if |xs| > 0 {
      var front := xs[..|xs| - 1];
      ProductMembership(front, ys, f, c);
      RowMembership(xs[|xs| - 1], ys, f, c);
      var p, r := Product(front, ys, f), Row(xs[|xs| - 1], ys, f);
      assert Product(xs, ys, f) == p + r;
      assert c in p + r <==> c in p || c in r;
      PairProducesSplit(xs, ys, f, c);
    }
  }

  /** Some pair of `xs` and `ys` makes `f` produce `c`. */
  ghost predicate PairProduces<A, B, C>(xs: seq<A>, ys: seq<B>, f: (A, B) -> Option<C>, c: C) {
    exists i, j :: 0 <= i < |xs| && 0 <= j < |ys| && f(xs[i], ys[j]) == Some(c)
  }

  /** A pair producing `c` uses the last `x` or one before it. */
  lemma PairProducesSplit<A, B, C>(xs: seq<A>, ys: seq<B>, f: (A, B) -> Option<C>, c: C)
    requires |xs| > 0
    ensures PairProduces(xs, ys, f, c) <==>
      PairProduces(xs[..|xs| - 1], ys, f, c) || exists j :: 0 <= j < |ys| && f(xs[|xs| - 1], ys[j]) == Some(c)
  {
    var front := xs[..|xs| - 1];
    if PairProduces(front, ys, f, c) {
      var i, j :| 0 <= i < |front| && 0 <= j < |ys| && f(front[i], ys[j]) == Some(c);
      assert f(xs[i], ys[j]) == Some(c);
    }
    if PairProduces(xs, ys, f, c) {
      var i, j :| 0 <= i < |xs| && 0 <= j < |ys| && f(xs[i], ys[j]) == Some(c);
      if i < |front| {
        assert f(front[i], ys[j]) == Some(c);
      }
    }
  }

  function EdgePairing(versat: Versat, options: Options, edge1: Edge, edge2: Edge): Option<MappingNode> {
    if EdgeOrder(edge1, options) && EdgeOrder(edge2, options)
       && EqualPortMapping(versat, edge1.outPort, edge2.outPort)
       && EqualPortMapping(versat, edge1.inPort, edge2.inPort)
    then Some(EdgeMap(PortPair(edge1.outPort, edge1.inPort), PortPair(edge2.outPort, edge2.inPort)))
    else None
  }

  /** An instance the node loop skips on its side: inside the window in
      `ExactOrder` mode, the accelerator's output, or a circuit input. */
  predicate NodeSkipped(versat: Versat, accel: Accelerator, inst: Instance, options: Options) {
    || (options.mode == ExactOrder && InWindow(inst.order, options))
    || accel.output == Some(inst)
    || inst.decl == versat.input
  }

  function NodePairing(versat: Versat, options: Options, accel1: Accelerator, accel2: Accelerator,
                       instA: Instance, instB: Instance): Option<MappingNode>
  {
    if NodeSkipped(versat, accel1, instA, options) || NodeSkipped(versat, accel2, instB, options) then None
    else if options.mode == SameOrder && instA.order != instB.order then None
    else if EqualPortMapping(versat, PortInstance(instA, 0), PortInstance(instB, 0)) then Some(NodeMap(instA, instB))
    else None
  }

  function InputPairing(versat: Versat, instA: Instance, instB: Instance): Option<MappingNode> {
    if instA.decl == versat.input && instB.decl == versat.input && instA.id == instB.id then Some(NodeMap(instA, instB))
    else None
  }

  /** At most one candidate per pair of edges, each an edge correspondence. */
  function EdgeCandidates(versat: Versat, accel1: Accelerator, accel2: Accelerator, options: Options): (r: seq<MappingNode>)
    ensures |r| <= |accel1.edges| * |accel2.edges|
    ensures forall m :: m in r ==> m.EdgeMap?
  {
    var f := (e1, e2) => EdgePairing(versat, options, e1, e2);
    ProductAll(accel1.edges, accel2.edges, f, (m: MappingNode) => m.EdgeMap?);
    Product(accel1.edges, accel2.edges, f)
  }

  /** At most one candidate per pair of instances, each pairing an instance
      of the first accelerator with one of the second. */
  function NodeCandidates(versat: Versat, accel1: Accelerator, accel2: Accelerator, options: Options): (r: seq<MappingNode>)
    ensures |r| <= |accel1.instances| * |accel2.instances|
    ensures forall m :: m in r ==> m.NodeMap? && m.inst0 in accel1.instances && m.inst1 in accel2.instances
  {
    var f := (a, b) => NodePairing(versat, options, accel1, accel2, a, b);
    ProductAll(accel1.instances, accel2.instances, f,
               (m: MappingNode) => m.NodeMap? && m.inst0 in accel1.instances && m.inst1 in accel2.instances);
    Product(accel1.instances, accel2.instances, f)
  }

  /** Each input candidate pairs two circuit inputs of the same port number. */
  function InputCandidates(versat: Versat, accel1: Accelerator, accel2: Accelerator): (r: seq<MappingNode>)
    ensures |r| <= |accel1.instances| * |accel2.instances|
    ensures forall m :: m in r ==>
      m.NodeMap? && m.inst0.decl == versat.input && m.inst1.decl == versat.input && m.inst0.id == m.inst1.id
  {
    var f := (a, b) => InputPairing(versat, a, b);
    ProductAll(accel1.instances, accel2.instances, f,
               (m: MappingNode) => m.NodeMap? && m.inst0.decl == versat.input && m.inst1.decl == versat.input && m.inst0.id == m.inst1.id);
    Product(accel1.instances, accel2.instances, f)
  }

  /** The output pair, present exactly when both accelerators have an output. */
  function OutputCandidate(accel1: Accelerator, accel2: Accelerator): (r: seq<MappingNode>)
    ensures |r| <= 1
    ensures r != [] <==> accel1.output.Some? && accel2.output.Some?
    ensures forall m :: m in r ==> m.NodeMap? && accel1.output == Some(m.inst0) && accel2.output == Some(m.inst1)
  {
    if accel1.output.Some? && accel2.output.Some? then [NodeMap(accel1.output.value, accel2.output.value)] else []
  }

  /** The candidate list of `GenerateConsolidationGraph`, in the order it is
      built: edge pairs, node pairs (when `mapNodes`), the output pair, and
      the input pairs. */
  function Candidates(versat: Versat, accel1: Accelerator, accel2: Accelerator, options: Options): (r: seq<MappingNode>)
    ensures forall k :: 0 <= k < |r| ==> (r[k].EdgeMap? <==> k < |EdgeCandidates(versat, accel1, accel2, options)|)
  {
    var edges := EdgeCandidates(versat, accel1, accel2, options);
    var nodes := (if options.mapNodes then NodeCandidates(versat, accel1, accel2, options) else [])
      + OutputCandidate(accel1, accel2)
      + InputCandidates(versat, accel1, accel2);
    EdgesFirst(edges, nodes);
    edges + nodes
  }

  lemma EdgesFirst(edges: seq<MappingNode>, nodes: seq<MappingNode>)
    requires forall m :: m in edges ==> m.EdgeMap?
    requires forall m :: m in nodes ==> m.NodeMap?
    ensures forall k :: 0 <= k < |edges + nodes| ==> ((edges + nodes)[k].EdgeMap? <==> k < |edges|)
  {
    forall k | 0 <= k < |edges + nodes|
      ensures (edges + nodes)[k].EdgeMap? <==> k < |edges|
    {
      if k < |edges| {
        assert edges[k] in edges;
      } else {
        assert nodes[k - |edges|] in nodes;
      }
    }
  }

  /** Edge candidates: pairs of edges that pass `EdgeOrder` and whose
      endpoints match under `EqualPortMapping`. */
  lemma EdgeCandidatesMembership(versat: Versat, accel1: Accelerator, accel2: Accelerator, options: Options, m: MappingNode)
    ensures m in EdgeCandidates(versat, accel1, accel2, options) <==>
      exists i, j :: 0 <= i < |accel1.edges| && 0 <= j < |accel2.edges| &&
        var e1, e2 := accel1.edges[i], accel2.edges[j];
        && EdgeOrder(e1, options) && EdgeOrder(e2, options)
        && EqualPortMapping(versat, e1.outPort, e2.outPort) && EqualPortMapping(versat, e1.inPort, e2.inPort)
        && m == EdgeMap(PortPair(e1.outPort, e1.inPort), PortPair(e2.outPort, e2.inPort))
  {
    ProductMembership(accel1.edges, accel2.edges, (e1, e2) => EdgePairing(versat, options, e1, e2), m);
  }

  /** Node candidates: pairs of instances neither of which is skipped, of
      equal order in `SameOrder` mode, with the same declaration. */
  lemma NodeCandidatesMembership(versat: Versat, accel1: Accelerator, accel2: Accelerator, options: Options, m: MappingNode)
    ensures m in NodeCandidates(versat, accel1, accel2, options) <==>
      exists i, j :: 0 <= i < |accel1.instances| && 0 <= j < |accel2.instances| &&
        var a, b := accel1.instances[i], accel2.instances[j];
        && !NodeSkipped(versat, accel1, a, options) && !NodeSkipped(versat, accel2, b, options)
        && (options.mode == SameOrder ==> a.order == b.order)
        && a.decl == b.decl
        && m == NodeMap(a, b)
  {
    ProductMembership(accel1.instances, accel2.instances, (a, b) => NodePairing(versat, options, accel1, accel2, a, b), m);
  }

  /** Input candidates: pairs of circuit inputs of equal port number. */
  lemma InputCandidatesMembership(versat: Versat, accel1: Accelerator, accel2: Accelerator, m: MappingNode)
    ensures m in InputCandidates(versat, accel1, accel2) <==>
      exists i, j :: 0 <= i < |accel1.instances| && 0 <= j < |accel2.instances| &&
        var a, b := accel1.instances[i], accel2.instances[j];
        a.decl == versat.input && b.decl == versat.input && a.id == b.id && m == NodeMap(a, b)
  {
    ProductMembership(accel1.instances, accel2.instances, (a, b) => InputPairing(versat, a, b), m);
  }

  /** Accelerator outputs are instances of Versat's output declaration. */
  predicate OutputsDeclared(versat: Versat, accel: Accelerator) {
    accel.output.Some? ==> accel.output.value.decl == versat.output
  }

  /** Every candidate maps instances of the first accelerator onto instances
      of the second with the same declaration. */
  lemma CandidatesSided(versat: Versat, accel1: Accelerator, accel2: Accelerator, options: Options, m: MappingNode)
    requires accel1.Valid() && accel2.Valid()
    requires OutputsDeclared(versat, accel1) && OutputsDeclared(versat, accel2)
    requires m in Candidates(versat, accel1, accel2, options)
    ensures Sided(m, set i | i in accel1.instances, set i | i in accel2.instances)
  {
    if m in EdgeCandidates(versat, accel1, accel2, options) {
      EdgeCandidateSided(versat, accel1, accel2, options, m);
    } else if options.mapNodes && m in NodeCandidates(versat, accel1, accel2, options) {
      NodeCandidatesMembership(versat, accel1, accel2, options, m);
    } else if m in InputCandidates(versat, accel1, accel2) {
      InputCandidatesMembership(versat, accel1, accel2, m);
    }
  }

  lemma EdgeCandidateSided(versat: Versat, accel1: Accelerator, accel2: Accelerator, options: Options, m: MappingNode)
    requires accel1.Valid() && accel2.Valid()
    requires m in EdgeCandidates(versat, accel1, accel2, options)
    ensures Sided(m, set i | i in accel1.instances, set i | i in accel2.instances)
  {
    ProductMembership(accel1.edges, accel2.edges, (e1, e2) => EdgePairing(versat, options, e1, e2), m);
    var i, j :| 0 <= i < |accel1.edges| && 0 <= j < |accel2.edges| && EdgePairing(versat, options, accel1.edges[i], accel2.edges[j]) == Some(m);
    var e1, e2 := accel1.edges[i], accel2.edges[j];
    assert e1 in accel1.edges && e2 in accel2.edges;
    EqualPortMappingEquivalence(versat, e1.outPort, e2.outPort, e2.outPort);
    EqualPortMappingEquivalence(versat, e1.inPort, e2.inPort, e2.inPort);
  }

  /** Node candidates never involve an output or a circuit input, except the
      output pair and input pairs of equal port number; in `SameOrder` mode
      the other node candidates pair equal orders; in `ExactOrder` mode every
      edge candidate lies in the window and no other node candidate does. */
  lemma CandidatesFiltered(versat: Versat, accel1: Accelerator, accel2: Accelerator, options: Options, m: MappingNode)
    requires m in Candidates(versat, accel1, accel2, options)
    ensures m.EdgeMap? && options.mode == ExactOrder ==>
      && InWindow(m.edge0.first.inst.order, options) && InWindow(m.edge0.second.inst.order, options)
      && InWindow(m.edge1.first.inst.order, options) && InWindow(m.edge1.second.inst.order, options)
    ensures m.NodeMap? ==>
      || (accel1.output == Some(m.inst0) && accel2.output == Some(m.inst1))
      || (m.inst0.decl == versat.input && m.inst1.decl == versat.input && m.inst0.id == m.inst1.id)
      || (&& !NodeSkipped(versat, accel1, m.inst0, options) && !NodeSkipped(versat, accel2, m.inst1, options)
          && (options.mode == SameOrder ==> m.inst0.order == m.inst1.order))
  {
    if m in EdgeCandidates(versat, accel1, accel2, options) {
      EdgeCandidatesMembership(versat, accel1, accel2, options, m);
    } else if options.mapNodes && m in NodeCandidates(versat, accel1, accel2, options) {
      NodeCandidatesMembership(versat, accel1, accel2, options, m);
    } else if m in InputCandidates(versat, accel1, accel2) {
      InputCandidatesMembership(versat, accel1, accel2, m);
    }
  }

  /** The output pair and every input pair of equal port number are always
      candidates. */
  lemma CandidatesIncludeFixedPairs(versat: Versat, accel1: Accelerator, accel2: Accelerator, options: Options, a: Instance, b: Instance)
    ensures accel1.output.Some? && accel2.output.Some? ==>
      NodeMap(accel1.output.value, accel2.output.value) in Candidates(versat, accel1, accel2, options)
    ensures a in accel1.instances && b in accel2.instances && a.decl == versat.input && b.decl == versat.input && a.id == b.id ==>
      NodeMap(a, b) in Candidates(versat, accel1, accel2, options)
  {
    if a in accel1.instances && b in accel2.instances && a.decl == versat.input && b.decl == versat.input && a.id == b.id {
      var i :| 0 <= i < |accel1.instances| && accel1.instances[i] == a;
      var j :| 0 <= j < |accel2.instances| && accel2.instances[j] == b;
      InputCandidatesMembership(versat, accel1, accel2, NodeMap(a, b));
    }
  }

  /** For candidates of two accelerators without common instances, whose
      outputs are Versat output instances, a conflict is exactly an
      incompatible pair of correspondences. */
  lemma CandidateConflicts(versat: Versat, accel1: Accelerator, accel2: Accelerator, options: Options, m1: MappingNode, m2: MappingNode)
    requires accel1.Valid() && accel2.Valid()
    requires OutputsDeclared(versat, accel1) && OutputsDeclared(versat, accel2)
    requires forall a, b :: a in accel1.instances && b in accel2.instances ==> a != b
    requires m1 in Candidates(versat, accel1, accel2, options) && m2 in Candidates(versat, accel1, accel2, options)
    ensures MappingConflict(m1, m2) <==>
      exists p, q :: p in InstancePairs(m1) && q in InstancePairs(m2) && !Compatible(p, q)
  {
    var side0 := set i | i in accel1.instances;
    var side1 := set i | i in accel2.instances;
    CandidatesSided(versat, accel1, accel2, options, m1);
    CandidatesSided(versat, accel1, accel2, options, m2);
    ConflictIsIncompatibility(m1, m2, side0, side1);
  }
}

=== FILE: merge_graph.dfy ===
/** The consolidation graph (`GenerateConsolidationGraph` in `merge.cpp`): one
    vertex per candidate, one edge per pair of candidates that do not
    conflict, and the vertex relabelling by repeated minimum-degree removal
    that orders the vertices for the clique search.

    Vertices are referred to by index; the source's `MappingEdge` holds
    pointers into the vertex array, which `NodeIndex` turns into the same
    indices.
 */
module ConsolidationGraphs {
  import opened Wrappers
  import opened Accelerators
  import opened MergeConflicts

  /** An edge between vertices `node0` and `node1`. */
  datatype MappingEdge = MappingEdge(node0: nat, node1: nat)

  /** `x` comes strictly before `y`, comparing `node0` then `node1`. */
  predicate Before(x: MappingEdge, y: MappingEdge) {
    x.node0 < y.node0 || (x.node0 == y.node0 && x.node1 < y.node1)
  }

  /** The edges that vertex `i` gets from the inner loop, `ii` running below
      `k`: one for each `ii` whose candidate does not conflict with `i`'s. */
  function RowEdges(nodes: seq<MappingNode>, i: nat, k: nat): (r: seq<MappingEdge>)
    requires k <= i < |nodes|
    ensures forall a :: 0 <= a < |r| ==> r[a].node0 == i && r[a].node1 < k
  {
    if k == 0 then []
    else
      var front := RowEdges(nodes, i, k - 1);
      front + (if MappingConflict(nodes[i], nodes[k - 1]) then [] else [MappingEdge(i, k - 1)])
  }

  /** Row `i` holds exactly the edges to the earlier vertices below `k` that
      do not conflict with it. */
  lemma {:induction false} RowEdgesMembership(nodes: seq<MappingNode>, i: nat, k: nat, e: MappingEdge)
    requires k <= i < |nodes|
    ensures e in RowEdges(nodes, i, k) <==> e.node0 == i && e.node1 < k && !MappingConflict(nodes[i], nodes[e.node1])
  {
    if k > 0 {
      RowEdgesMembership(nodes, i, k - 1, e);
      var front := RowEdges(nodes, i, k - 1);
      var tail := if MappingConflict(nodes[i], nodes[k - 1]) then [] else [MappingEdge(i, k - 1)];
      assert RowEdges(nodes, i, k) == front + tail;
      assert e in front + tail <==> e in front || e in tail;
    }
  }

  /** The compatibility edges of the first `i` vertices, in the order the
      nested loop produces them. */
  function CompatibilityEdges(nodes: seq<MappingNode>, i: nat): (r: seq<MappingEdge>)
    requires i <= |nodes|
    ensures forall a :: 0 <= a < |r| ==> r[a].node1 < r[a].node0 < i
  {
    if i == 0 then []
    else
      var front := CompatibilityEdges(nodes, i - 1);
      var row := RowEdges(nodes, i - 1, i - 1);
      assert forall a :: 0 <= a < |row| ==> row[a] == (front + row)[|front| + a];
      front + row
  }

  /** Edges listed by strictly increasing lower vertex. */
  predicate IncreasingLower(r: seq<MappingEdge>) {
    forall a, b :: 0 <= a < b < |r| ==> r[a].node1 < r[b].node1
  }

  /** Edges listed in strictly increasing `Before` order. */
  predicate Ordered(r: seq<MappingEdge>) {
    forall a, b :: 0 <= a < b < |r| ==> Before(r[a], r[b])
  }

  /** A row lists its edges by increasing lower vertex. */
  lemma {:induction false} RowEdgesSorted(nodes: seq<MappingNode>, i: nat, k: nat)
    requires k <= i < |nodes|
    ensures IncreasingLower(RowEdges(nodes, i, k))
  {
    if k > 0 {
      RowEdgesSorted(nodes, i, k - 1);
      var front := RowEdges(nodes, i, k - 1);
      var tail := if MappingConflict(nodes[i], nodes[k - 1]) then [] else [MappingEdge(i, k - 1)];
      var r := RowEdges(nodes, i, k);
      assert r == front + tail;
      forall a, b | 0 <= a < b < |r|
        ensures r[a].node1 < r[b].node1
      {
        assert r[a] == front[a];
        if b < |front| {
          assert r[b] == front[b];
          assert front[a].node1 < front[b].node1;
        } else {
          assert r[b] == tail[b - |front|];
          assert front[a].node1 < k - 1;
        }
      }
    }
  }

  /** The edges come out strictly ordered: by higher vertex, then lower. */
  lemma {:induction false} CompatibilityEdgesSorted(nodes: seq<MappingNode>, i: nat)
    requires i <= |nodes|
    ensures Ordered(CompatibilityEdges(nodes, i))
  {
    if i > 0 {
      CompatibilityEdgesSorted(nodes, i - 1);
      RowEdgesSorted(nodes, i - 1, i - 1);
      var front := CompatibilityEdges(nodes, i - 1);
      var row := RowEdges(nodes, i - 1, i - 1);
      var r := CompatibilityEdges(nodes, i);
      assert r == front + row;
      forall a, b | 0 <= a < b < |r|
        ensures Before(r[a], r[b])
      {
        if b < |front| {
          assert r[a] == front[a] && r[b] == front[b];
        } else if a < |front| {
          assert r[a] == front[a] && r[b] == row[b - |front|];
        } else {
          assert r[a] == row[a - |front|] && r[b] == row[b - |front|];
        }
      }
    }
  }

  /** Exactly one edge per unordered pair of distinct, non-conflicting
      vertices, oriented from the higher index to the lower: no self-loops
      and no edge twice. */
  lemma {:induction false} CompatibilityEdgesMembership(nodes: seq<MappingNode>, i: nat, e: MappingEdge)
    requires i <= |nodes|
    ensures e in CompatibilityEdges(nodes, i) <==>
      e.node1 < e.node0 < i && !MappingConflict(nodes[e.node0], nodes[e.node1])
  {
    if i > 0 {
      CompatibilityEdgesMembership(nodes, i - 1, e);
      var front := CompatibilityEdges(nodes, i - 1);
      var row := RowEdges(nodes, i - 1, i - 1);
      assert CompatibilityEdges(nodes, i) == front + row;
      ConcatSplit(front, row, e, i - 1);
      RowEdgesMembership(nodes, i - 1, i - 1, e);
    }
  }

  /** Membership in a block of lower rows followed by row `m`. */
  lemma ConcatSplit(front: seq<MappingEdge>, row: seq<MappingEdge>, e: MappingEdge, m: nat)
    requires forall a :: 0 <= a < |front| ==> front[a].node0 < m
    requires forall a :: 0 <= a < |row| ==> row[a].node0 == m
    ensures e in front + row <==> (e.node0 < m && e in front) || (e.node0 == m && e in row)
  {
    assert e in front + row <==> e in front || e in row;
  }

  lemma CompatibilityEdgesDistinct(nodes: seq<MappingNode>, i: nat)
    requires i <= |nodes|
    ensures var r := CompatibilityEdges(nodes, i);
      forall a, b :: 0 <= a < |r| && 0 <= b < |r| && a != b ==>
        r[a] != r[b] && r[a] != MappingEdge(r[b].node1, r[b].node0)
  {
    var r := CompatibilityEdges(nodes, i);
    CompatibilityEdgesSorted(nodes, i);
    forall a, b | 0 <= a < |r| && 0 <= b < |r| && a != b
      ensures r[a] != r[b] && r[a] != MappingEdge(r[b].node1, r[b].node0)
    {
      if a < b {
        assert Before(r[a], r[b]);
      } else {
        assert Before(r[b], r[a]);
      }
    }
  }

  /** Vertices, stored edges, the number of compatible pairs, and the
      vertices taking part (`validNodes`). */
  datatype Graph = Graph(nodes: seq<MappingNode>, edges: seq<MappingEdge>, numberEdges: nat, validNodes: seq<bool>)

  /** The edges fit: every edge joins two vertices of the graph. */
  predicate EdgesInRange(n: nat, edges: seq<MappingEdge>) {
    forall k :: 0 <= k < |edges| ==> edges[k].node0 < n && edges[k].node1 < n
  }

  /** `p` is a permutation of `0..n-1`. */
  ghost predicate IsPermutation(p: seq<nat>, n: nat) {
    && |p| == n
    && (forall j :: 0 <= j < n ==> p[j] < n)
    && (forall j, j' :: 0 <= j < j' < n ==> p[j] != p[j'])
    && (forall v :: 0 <= v < n ==> v in p)
  }

  /** Edge `e` touches vertex `j`. */
  predicate Incident(e: MappingEdge, j: nat) {
    e.node0 == j || e.node1 == j
  }

  /** The vertex whose removal lowers `j`'s degree through `e`: the other end,
      or `j` itself for a self-loop. */
  function Trigger(e: MappingEdge, j: nat): nat {
    if e.node1 == j then e.node0 else e.node1
  }

  /** How many times removing the vertices of `removed` lowered `j`'s degree:
      the edges at `j` whose other end is in `removed`. */
  ghost function Hits(edges: seq<MappingEdge>, removed: set<nat>, j: nat): (h: nat)
    ensures h <= |edges|
  {
    if |edges| == 0 then 0
    else
      var e := edges[|edges| - 1];
      Hits(edges[..|edges| - 1], removed, j) + (if Incident(e, j) && Trigger(e, j) in removed then 1 else 0)
  }

  lemma {:induction false} HitsAdd(edges: seq<MappingEdge>, removed: set<nat>, m: nat, j: nat)
    requires m !in removed
    ensures Hits(edges, removed + {m}, j) == Hits(edges, removed, j) + Hits(edges, {m}, j)
  {
    if |edges| > 0 {
      HitsAdd(edges[..|edges| - 1], removed, m, j);
    }
  }

  /** The minimum search of the reordering loop: the first index of least
      value, among values below the 999999 sentinel, or -1. */
  method FindMinimum(degree: seq<int>) returns (minimumIndex: int)
    ensures -1 <= minimumIndex < |degree|
    ensures minimumIndex == -1 <==> forall j :: 0 <= j < |degree| ==> degree[j] >= 999999
    ensures minimumIndex >= 0 ==>
      && degree[minimumIndex] < 999999
      && (forall j :: 0 <= j < |degree| ==> degree[minimumIndex] <= degree[j])
      && (forall j :: 0 <= j < minimumIndex ==> degree[minimumIndex] < degree[j])
  {
    var minimum := 999999;
    minimumIndex := -1;
    for ii := 0 to |degree|
      invariant -1 <= minimumIndex < ii
      invariant minimumIndex == -1 ==> minimum == 999999
      invariant minimumIndex >= 0 ==> minimum == degree[minimumIndex] < 999999
      invariant forall j :: 0 <= j < ii ==> minimum <= degree[j]
      invariant forall j :: 0 <= j < minimumIndex ==> minimum < degree[j]
      invariant minimumIndex == -1 ==> forall j :: 0 <= j < ii ==> degree[j] >= 999999
    {
      if degree[ii] < minimum {
        minimumIndex := ii;
        minimum := degree[ii];
      }
    }
  }

  /** The loop that removes vertex `m`: every edge at `m` lowers the degree of
      its other end. */
  method RemoveVertex(edges: seq<MappingEdge>, degree: seq<int>, m: nat) returns (r: seq<int>)
    requires EdgesInRange(|degree|, edges)
    ensures |r| == |degree|
    ensures forall j :: 0 <= j < |degree| ==> r[j] == degree[j] - Hits(edges, {m}, j)
  {
    r := degree;
    for k := 0 to |edges|
      invariant |r| == |degree|
      invariant forall j :: 0 <= j < |degree| ==> r[j] == degree[j] - Hits(edges[..k], {m}, j)
    {
      assert edges[..k + 1][..k] == edges[..k];
      var e := edges[k];
      if e.node0 == m {
        r := r[e.node1 := r[e.node1] - 1];
      } else if e.node1 == m {
        r := r[e.node0 := r[e.node0] - 1];
      }
    }
    assert edges[..|edges|] == edges;
  }

  /** A set of indices below `n` has at most `n` elements, and exactly `n`
      only when it holds them all. */
  lemma {:induction false} IndexSetSize(s: set<nat>, n: nat)
    requires forall x :: x in s ==> x < n
    ensures |s| <= n
    ensures |s| == n ==> forall j :: 0 <= j < n ==> j in s
  {
    if n > 0 {
      var rest := s - {n - 1};
      IndexSetSize(rest, n - 1);
      if n - 1 !in s {
        assert rest == s;
      }
    } else {
      assert s == {};
    }
  }

  /** Fewer than `n` indices below `n` leave one out. */
  lemma {:induction false} IndexOutside(s: set<nat>, n: nat)
    requires forall x :: x in s ==> x < n
    requires |s| < n
    ensures exists u :: 0 <= u < n && u !in s
  {
    if n - 1 in s {
      IndexOutside(s - {n - 1}, n - 1);
    }
  }

  /** The number of edge ends at `j`: a self-loop counts twice. */
  ghost function Ends(edges: seq<MappingEdge>, j: nat): nat {
    if |edges| == 0 then 0
    else
      var e := edges[|edges| - 1];
      Ends(edges[..|edges| - 1], j) + (if e.node0 == j then 1 else 0) + (if e.node1 == j then 1 else 0)
  }

  /** The degree of `j` once the vertices of `removed` are gone: the edges
      at `j` whose other end is still present. */
  ghost function LiveDegree(edges: seq<MappingEdge>, removed: set<nat>, j: nat): nat {
    if |edges| == 0 then 0
    else
      var e := edges[|edges| - 1];
      LiveDegree(edges[..|edges| - 1], removed, j) + (if Incident(e, j) && Trigger(e, j) !in removed then 1 else 0)
  }

  /** The other ends of the edges at `j`. */
  ghost function Neighbours(edges: seq<MappingEdge>, j: nat): set<nat> {
    if |edges| == 0 then {}
    else
      var e := edges[|edges| - 1];
      Neighbours(edges[..|edges| - 1], j) + (if Incident(e, j) then {Trigger(e, j)} else {})
  }

  /** Every edge at `j` either still counts or has been hit by a removal. */
  lemma {:induction false} LiveSplit(edges: seq<MappingEdge>, removed: set<nat>, j: nat)
    ensures LiveDegree(edges, removed, j) + Hits(edges, removed, j) == LiveDegree(edges, {}, j)
  {
    if |edges| > 0 {
      LiveSplit(edges[..|edges| - 1], removed, j);
    }
  }

  /** Without self-loops, the edge ends at `j` are its edges. */
  lemma {:induction false} EndsWithoutLoops(edges: seq<MappingEdge>, j: nat)
    requires NoSelfLoops(edges)
    ensures Ends(edges, j) == LiveDegree(edges, {}, j)
  {
    if |edges| > 0 {
      EndsWithoutLoops(edges[..|edges| - 1], j);
    }
  }

  /** A vertex that no edge at `j` leads to is not a neighbour of `j`. */
  lemma {:induction false} NotNeighbour(edges: seq<MappingEdge>, j: nat, x: nat)
    requires forall k :: 0 <= k < |edges| && Incident(edges[k], j) ==> Trigger(edges[k], j) != x
    ensures x !in Neighbours(edges, j)
  {
    if |edges| > 0 {
      var p := edges[..|edges| - 1];
      assert forall k :: 0 <= k < |p| ==> p[k] == edges[k];
      NotNeighbour(p, j, x);
    }
  }

  /** With no self-loops and no repeated pairs, the edges at `j` lead to
      distinct other vertices. */
  lemma {:induction false} NeighboursCount(n: nat, edges: seq<MappingEdge>, j: nat)
    requires EdgesInRange(n, edges) && NoSelfLoops(edges) && NoRepeatedPairs(edges)
    ensures |Neighbours(edges, j)| == LiveDegree(edges, {}, j)
    ensures forall x :: x in Neighbours(edges, j) ==> x < n && x != j
  {
    if |edges| > 0 {
      var p := edges[..|edges| - 1];
      var e := edges[|edges| - 1];
      assert NoRepeatedPairs(p) by {
        forall k, k' | 0 <= k < k' < |p|
          ensures !Joins(p[k], p[k'].node0, p[k'].node1)
        {
          assert p[k] == edges[k] && p[k'] == edges[k'];
        }
      }
      NeighboursCount(n, p, j);
      if Incident(e, j) {
        var t := Trigger(e, j);
        forall k | 0 <= k < |p| && Incident(p[k], j)
          ensures Trigger(p[k], j) != t
        {
          assert p[k] == edges[k];
          assert !Joins(edges[k], e.node0, e.node1);
        }
        NotNeighbour(p, j, t);
      }
    }
  }

  /** A vertex of a graph with no self-loops and no repeated pairs has at
      most `n - 1` edges. */
  lemma DegreeBelow(n: nat, edges: seq<MappingEdge>, j: nat)
    requires EdgesInRange(n, edges) && NoSelfLoops(edges) && NoRepeatedPairs(edges) && j < n
    ensures LiveDegree(edges, {}, j) <= n - 1
  {
    NeighboursCount(n, edges, j);
    var s := Neighbours(edges, j) + {j};
    assert |s| == |Neighbours(edges, j)| + 1;
    IndexSetSize(s, n);
  }

  /** The degree count: each edge adds one at each end. */
  method CountDegrees(n: nat, edges: seq<MappingEdge>) returns (degree: seq<int>)
    requires EdgesInRange(n, edges)
    ensures |degree| == n
    ensures forall j :: 0 <= j < n ==> degree[j] == Ends(edges, j)
  {
    degree := seq(n, _ => 0);
    for k := 0 to |edges|
      invariant |degree| == n
      invariant forall j :: 0 <= j < n ==> degree[j] == Ends(edges[..k], j)
    {
      assert edges[..k + 1][..k] == edges[..k];
      var e := edges[k];
      degree := degree[e.node0 := degree[e.node0] + 1];
      degree := degree[e.node1 := degree[e.node1] + 1];
    }
    assert edges[..|edges|] == edges;
  }

  /** What the removal loop keeps of the degrees: a vertex still present
      has its initial degree less one per removed neighbour; a removed one
      was set to the 99999 sentinel and has since been lowered once per hit. */
  ghost predicate DegreeBounds(degree: seq<int>, removed: set<nat>, edges: seq<MappingEdge>) {
    forall j :: 0 <= j < |degree| ==>
      if j in removed then 99999 - Hits(edges, removed, j) <= degree[j] <= 99999
      else degree[j] == LiveDegree(edges, {}, j) - Hits(edges, removed, j)
  }

  /** The choice of one round: `m` is still present, no present vertex has a
      smaller live degree, and every present vertex below `m` a larger one. */
  ghost predicate MinimumChoice(edges: seq<MappingEdge>, removed: set<nat>, m: nat, n: nat) {
    && m < n && m !in removed
    && forall j :: 0 <= j < n && j !in removed ==>
         && LiveDegree(edges, removed, m) <= LiveDegree(edges, removed, j)
         && (j < m ==> LiveDegree(edges, removed, m) < LiveDegree(edges, removed, j))
  }

  /** The vertices of a sequence. */
  ghost function Elements(s: seq<nat>): set<nat> {
    set x | x in s
  }

  /** `order` removes every vertex once, each round taking the first vertex
      of least live degree among those still present. */
  ghost predicate EliminationOrder(edges: seq<MappingEdge>, order: seq<nat>, n: nat) {
    && |order| == n
    && forall r :: 0 <= r < n ==> MinimumChoice(edges, Elements(order[..r]), order[r], n)
  }

  /** While a vertex remains, the first vertex of least degree in the array
      is the first remaining vertex of least live degree: a removed vertex's
      sentinel stays above every live degree while 2(n - 1) < 99999. */
  lemma MinimumRemains(degree: seq<int>, removed: set<nat>, edges: seq<MappingEdge>, u: nat, m: int)
    requires EdgesInRange(|degree|, edges) && NoSelfLoops(edges) && NoRepeatedPairs(edges)
    requires |degree| <= 50000 && DegreeBounds(degree, removed, edges)
    requires u < |degree| && u !in removed
    requires -1 <= m < |degree|
    requires m == -1 <==> forall j :: 0 <= j < |degree| ==> degree[j] >= 999999
    requires m >= 0 ==> forall j :: 0 <= j < |degree| ==> degree[m] <= degree[j]
    requires m >= 0 ==> forall j :: 0 <= j < m ==> degree[m] < degree[j]
    ensures m >= 0 && MinimumChoice(edges, removed, m, |degree|)
  {
    var n := |degree|;
    forall j | 0 <= j < n
      ensures j !in removed ==> degree[j] == LiveDegree(edges, removed, j) <= n - 1
      ensures j in removed ==> degree[j] >= 99999 - (n - 1)
    {
      LiveSplit(edges, removed, j);
      DegreeBelow(n, edges, j);
    }
    assert degree[u] < 999999;
  }

  /** Removing the vertex `m` and setting it to the sentinel keeps the
      bounds. */
  lemma RemovalKeepsBounds(degree: seq<int>, lowered: seq<int>, removed: set<nat>, edges: seq<MappingEdge>, m: nat)
    requires DegreeBounds(degree, removed, edges)
    requires m < |degree| && m !in removed && |lowered| == |degree|
    requires forall j :: 0 <= j < |degree| ==> lowered[j] == degree[j] - Hits(edges, {m}, j)
    ensures DegreeBounds(lowered[m := 99999], removed + {m}, edges)
  {
    forall j | 0 <= j < |degree| && j != m
      ensures Hits(edges, removed + {m}, j) == Hits(edges, removed, j) + Hits(edges, {m}, j)
    {
      HitsAdd(edges, removed, m, j);
    }
  }

  /** Appending a round's choice extends the elimination order. */
  lemma ChoiceStep(edges: seq<MappingEdge>, order: seq<nat>, removed: set<nat>, m: nat, n: nat)
    requires forall r :: 0 <= r < |order| ==> MinimumChoice(edges, Elements(order[..r]), order[r], n)
    requires forall j :: j in removed <==> j in order
    requires MinimumChoice(edges, removed, m, n)
    ensures forall r :: 0 <= r < |order| + 1 ==>
      MinimumChoice(edges, Elements((order + [m])[..r]), (order + [m])[r], n)
  {
    var order' := order + [m];
    forall r | 0 <= r < |order| + 1
      ensures MinimumChoice(edges, Elements(order'[..r]), order'[r], n)
    {
      if r < |order| {
        assert order'[..r] == order[..r];
      } else {
        assert order'[..r] == order;
        assert Elements(order) == removed;
      }
    }
  }

  /** A map of `0..n-1` into itself with an inverse that reaches every
      index is a permutation. */
  lemma InverseIsPermutation(p: seq<nat>, order: seq<nat>, n: nat)
    requires |p| == n && |order| == n
    requires forall j :: 0 <= j < n ==> p[j] < n && j in order
    requires forall r :: 0 <= r < n ==> order[r] < n && p[order[r]] == r
    ensures IsPermutation(p, n)
  {
    forall j, j' | 0 <= j < j' < n
      ensures p[j] != p[j']
    {
      assert j in order && j' in order;
    }
    forall v | 0 <= v < n
      ensures v in p
    {
      assert p[order[v]] == v;
    }
  }

  /** The positions handed out after `i` rounds: `order[r]` is the vertex
      removed in round `r`, which got position `r`; `removed` holds exactly
      those vertices. */
  ghost predicate OrderState(p: seq<nat>, order: seq<nat>, removed: set<nat>, i: nat, n: nat) {
    && |p| == n && |order| == i && |removed| == i
    && (forall j :: j in removed <==> j in order)
    && (forall r :: 0 <= r < i ==> order[r] < n && p[order[r]] == r)
    && (forall j :: 0 <= j < n ==> p[j] < n)
  }

  lemma OrderStep(p: seq<nat>, order: seq<nat>, removed: set<nat>, i: nat, n: nat, m: nat)
    requires OrderState(p, order, removed, i, n) && i < n
    requires m < n && m !in removed
    ensures OrderState(p[m := i], order + [m], removed + {m}, i + 1, n)
  {
    var p', order' := p[m := i], order + [m];
    forall r | 0 <= r < i + 1
      ensures order'[r] < n && p'[order'[r]] == r
    {
      if r < i {
        assert order[r] in removed;
      }
    }
  }

  /** `indexToMinimumNode`: round `i` removes the first vertex of least
      current degree and gives it position `i`; `order` lists the vertices
      in the order they are removed. */
  method MinimumDegreeOrder(n: nat, edges: seq<MappingEdge>) returns (indexToMinimumNode: seq<nat>, ghost order: seq<nat>)
    requires EdgesInRange(n, edges) && NoSelfLoops(edges) && NoRepeatedPairs(edges)
    requires n <= 50000
    ensures IsPermutation(indexToMinimumNode, n)
    ensures EliminationOrder(edges, order, n)
    ensures forall r :: 0 <= r < n ==> indexToMinimumNode[order[r]] == r
  {
    var degree := CountDegrees(n, edges);
    forall j | 0 <= j < n
      ensures degree[j] == LiveDegree(edges, {}, j) - Hits(edges, {}, j)
    {
      EndsWithoutLoops(edges, j);
      LiveSplit(edges, {}, j);
    }
    indexToMinimumNode := seq(n, _ => 0);
    ghost var removed: set<nat> := {};
    order := [];
    for i := 0 to n
      invariant |degree| == n
      invariant OrderState(indexToMinimumNode, order, removed, i, n)
      invariant DegreeBounds(degree, removed, edges)
      invariant forall r :: 0 <= r < i ==> MinimumChoice(edges, Elements(order[..r]), order[r], n)
    {
      var minimumIndex := FindMinimum(degree);
      IndexOutside(removed, n);
      ghost var u :| 0 <= u < n && u !in removed;
      MinimumRemains(degree, removed, edges, u, minimumIndex);
      var m: nat := minimumIndex;
      OrderStep(indexToMinimumNode, order, removed, i, n, m);
      ChoiceStep(edges, order, removed, m, n);
      indexToMinimumNode := indexToMinimumNode[m := i];
      var lowered := RemoveVertex(edges, degree, m);
      RemovalKeepsBounds(degree, lowered, removed, edges, m);
      degree := lowered[m := 99999];
      removed := removed + {m};
      order := order + [m];
    }
    IndexSetSize(removed, n);
    InverseIsPermutation(indexToMinimumNode, order, n);
  }

  /** Moves candidate `i` to position `indexToMinimumNode[i]` and rewrites
      every edge to the new positions of its ends. */
  method Relabel<T>(nodes: seq<T>, edges: seq<MappingEdge>, indexToMinimumNode: seq<nat>)
    returns (newNodes: seq<T>, newEdges: seq<MappingEdge>)
    requires EdgesInRange(|nodes|, edges)
    requires IsPermutation(indexToMinimumNode, |nodes|)
    ensures |newNodes| == |nodes|
    ensures forall i :: 0 <= i < |nodes| ==> newNodes[indexToMinimumNode[i]] == nodes[i]
    ensures |newEdges| == |edges| && EdgesInRange(|nodes|, newEdges)
    ensures forall k :: 0 <= k < |edges| ==>
      && newEdges[k].node0 == indexToMinimumNode[edges[k].node0]
      && newEdges[k].node1 == indexToMinimumNode[edges[k].node1]
      && newNodes[newEdges[k].node0] == nodes[edges[k].node0]
      && newNodes[newEdges[k].node1] == nodes[edges[k].node1]
  {
    var n := |nodes|;
    newNodes := nodes;
    for i := 0 to n
      invariant |newNodes| == n
      invariant forall i' :: 0 <= i' < i ==> newNodes[indexToMinimumNode[i']] == nodes[i']
    {
      newNodes := newNodes[indexToMinimumNode[i] := nodes[i]];
    }
    newEdges := seq(|edges|, k requires 0 <= k < |edges| =>
      MappingEdge(indexToMinimumNode[edges[k].node0], indexToMinimumNode[edges[k].node1]));
  }

  /** The reordering of `GenerateConsolidationGraph`: vertices in the order
      of repeated minimum-degree removal, every candidate kept, every edge
      still joining the same two candidates. The removed vertices' 99999
      sentinel stays above every live degree for up to 50000 vertices. */
  method Reorder<T>(nodes: seq<T>, edges: seq<MappingEdge>)
    returns (indexToMinimumNode: seq<nat>, ghost order: seq<nat>, newNodes: seq<T>, newEdges: seq<MappingEdge>)
    requires EdgesInRange(|nodes|, edges) && NoSelfLoops(edges) && NoRepeatedPairs(edges)
    requires |nodes| <= 50000
    ensures IsPermutation(indexToMinimumNode, |nodes|)
    ensures EliminationOrder(edges, order, |nodes|)
    ensures |newNodes| == |nodes|
    ensures forall r :: 0 <= r < |nodes| ==> newNodes[r] == nodes[order[r]]
    ensures forall i :: 0 <= i < |nodes| ==> newNodes[indexToMinimumNode[i]] == nodes[i]
    ensures |newEdges| == |edges| && EdgesInRange(|nodes|, newEdges)
    ensures forall k :: 0 <= k < |edges| ==>
      && newEdges[k].node0 == indexToMinimumNode[edges[k].node0]
      && newEdges[k].node1 == indexToMinimumNode[edges[k].node1]
      && newNodes[newEdges[k].node0] == nodes[edges[k].node0]
      && newNodes[newEdges[k].node1] == nodes[edges[k].node1]
  {
    indexToMinimumNode, order := MinimumDegreeOrder(|nodes|, edges);
    newNodes, newEdges := Relabel(nodes, edges, indexToMinimumNode);
    forall r | 0 <= r < |nodes|
      ensures newNodes[r] == nodes[order[r]]
    {
      assert newNodes[indexToMinimumNode[order[r]]] == nodes[order[r]];
    }
  }

  /** Edge `e` joins vertices `a` and `b`, in either orientation. */
  predicate Joins(e: MappingEdge, a: nat, b: nat) {
    (e.node0 == a && e.node1 == b) || (e.node0 == b && e.node1 == a)
  }

  /** `edges` is the compatibility graph of `nodes`: every edge joins two
      distinct candidates that do not conflict, no two edges join the same
      pair, and every such pair is joined. */
  ghost predicate IsCompatibilityGraph(nodes: seq<MappingNode>, edges: seq<MappingEdge>) {
    && EdgesInRange(|nodes|, edges)
    && NoSelfLoops(edges)
    && (forall k :: 0 <= k < |edges| ==> !MappingConflict(nodes[edges[k].node0], nodes[edges[k].node1]))
    && NoRepeatedPairs(edges)
    && JoinsAllCompatible(nodes, edges)
  }

  /** No edge joins a vertex to itself. */
  predicate NoSelfLoops(edges: seq<MappingEdge>) {
    forall k :: 0 <= k < |edges| ==> edges[k].node0 != edges[k].node1
  }

  /** No two edges join the same pair of vertices, in either direction. */
  predicate NoRepeatedPairs(edges: seq<MappingEdge>) {
    forall k, k' :: 0 <= k < k' < |edges| ==> !Joins(edges[k], edges[k'].node0, edges[k'].node1)
  }

  /** Every two distinct candidates that do not conflict are joined. */
  ghost predicate JoinsAllCompatible(nodes: seq<MappingNode>, edges: seq<MappingEdge>) {
    forall a, b :: 0 <= a < |nodes| && 0 <= b < |nodes| && a != b && !MappingConflict(nodes[a], nodes[b]) ==>
      exists k :: 0 <= k < |edges| && Joins(edges[k], a, b)
  }


  /** The nested loop builds the compatibility graph. */
  lemma CompatibilityEdgesGraph(nodes: seq<MappingNode>)
    ensures IsCompatibilityGraph(nodes, CompatibilityEdges(nodes, |nodes|))
  {
    CompatibilityEdgesCompatible(nodes);
    CompatibilityEdgesNoRepeats(nodes);
    CompatibilityEdgesComplete(nodes);
  }

  lemma CompatibilityEdgesCompatible(nodes: seq<MappingNode>)
    ensures var r := CompatibilityEdges(nodes, |nodes|);
      forall k :: 0 <= k < |r| ==> !MappingConflict(nodes[r[k].node0], nodes[r[k].node1])
  {
    var r := CompatibilityEdges(nodes, |nodes|);
    forall k | 0 <= k < |r|
      ensures !MappingConflict(nodes[r[k].node0], nodes[r[k].node1])
    {
      CompatibilityEdgesMembership(nodes, |nodes|, r[k]);
    }
  }

  lemma CompatibilityEdgesNoRepeats(nodes: seq<MappingNode>)
    ensures NoRepeatedPairs(CompatibilityEdges(nodes, |nodes|))
  {
    var r := CompatibilityEdges(nodes, |nodes|);
    CompatibilityEdgesSorted(nodes, |nodes|);
    forall k, k' | 0 <= k < k' < |r|
      ensures !Joins(r[k], r[k'].node0, r[k'].node1)
    {
      assert Before(r[k], r[k']);
    }
  }

  lemma CompatibilityEdgesComplete(nodes: seq<MappingNode>)
    ensures JoinsAllCompatible(nodes, CompatibilityEdges(nodes, |nodes|))
  {
    var r := CompatibilityEdges(nodes, |nodes|);
    forall a, b | 0 <= a < |nodes| && 0 <= b < |nodes| && a != b && !MappingConflict(nodes[a], nodes[b])
      ensures exists k :: 0 <= k < |r| && Joins(r[k], a, b)
    {
      var e := if a > b then MappingEdge(a, b) else MappingEdge(b, a);
      MappingConflictSymmetric(nodes[a], nodes[b]);
      CompatibilityEdgesMembership(nodes, |nodes|, e);
      var k :| 0 <= k < |r| && r[k] == e;
    }
  }

  /** Relabelling by a permutation keeps the compatibility graph. */
  lemma RelabelKeepsGraph(nodes: seq<MappingNode>, edges: seq<MappingEdge>, p: seq<nat>,
                          newNodes: seq<MappingNode>, newEdges: seq<MappingEdge>)
    requires IsCompatibilityGraph(nodes, edges)
    requires IsPermutation(p, |nodes|)
    requires |newNodes| == |nodes| && |newEdges| == |edges|
    requires forall i :: 0 <= i < |nodes| ==> newNodes[p[i]] == nodes[i]
    requires forall k :: 0 <= k < |edges| ==>
      newEdges[k].node0 == p[edges[k].node0] && newEdges[k].node1 == p[edges[k].node1]
    ensures IsCompatibilityGraph(newNodes, newEdges)
  {
    RelabelKeepsEdges(nodes, edges, p, newNodes, newEdges);
    RelabelKeepsJoins(nodes, edges, p, newNodes, newEdges);
  }

  lemma RelabelKeepsJoins(nodes: seq<MappingNode>, edges: seq<MappingEdge>, p: seq<nat>,
                          newNodes: seq<MappingNode>, newEdges: seq<MappingEdge>)
    requires JoinsAllCompatible(nodes, edges) && EdgesInRange(|nodes|, edges)
    requires IsPermutation(p, |nodes|)
    requires |newNodes| == |nodes| && |newEdges| == |edges|
    requires forall i :: 0 <= i < |nodes| ==> newNodes[p[i]] == nodes[i]
    requires forall k :: 0 <= k < |edges| ==>
      newEdges[k].node0 == p[edges[k].node0] && newEdges[k].node1 == p[edges[k].node1]
    ensures JoinsAllCompatible(newNodes, newEdges)
  {
    forall a, b | 0 <= a < |newNodes| && 0 <= b < |newNodes| && a != b && !MappingConflict(newNodes[a], newNodes[b])
      ensures exists k :: 0 <= k < |newEdges| && Joins(newEdges[k], a, b)
    {
      assert a in p && b in p;
      var i :| 0 <= i < |p| && p[i] == a;
      var j :| 0 <= j < |p| && p[j] == b;
      var k :| 0 <= k < |edges| && Joins(edges[k], i, j);
      assert Joins(newEdges[k], a, b);
    }
  }


  lemma RelabelKeepsEdges(nodes: seq<MappingNode>, edges: seq<MappingEdge>, p: seq<nat>,
                          newNodes: seq<MappingNode>, newEdges: seq<MappingEdge>)
    requires IsCompatibilityGraph(nodes, edges)
    requires IsPermutation(p, |nodes|)
    requires |newNodes| == |nodes| && |newEdges| == |edges|
    requires forall i :: 0 <= i < |nodes| ==> newNodes[p[i]] == nodes[i]
    requires forall k :: 0 <= k < |edges| ==>
      newEdges[k].node0 == p[edges[k].node0] && newEdges[k].node1 == p[edges[k].node1]
    ensures EdgesInRange(|newNodes|, newEdges) && NoSelfLoops(newEdges)
    ensures forall k :: 0 <= k < |newEdges| ==> !MappingConflict(newNodes[newEdges[k].node0], newNodes[newEdges[k].node1])
    ensures NoRepeatedPairs(newEdges)
  {
    forall k, k' | 0 <= k < k' < |newEdges|
      ensures !Joins(newEdges[k], newEdges[k'].node0, newEdges[k'].node1)
    {
      assert !Joins(edges[k], edges[k'].node0, edges[k'].node1);
    }
  }

  /** The candidates kept by a relabelling are the candidates. */
  lemma RelabelKeepsCandidates(nodes: seq<MappingNode>, p: seq<nat>, newNodes: seq<MappingNode>)
    requires IsPermutation(p, |nodes|)
    requires |newNodes| == |nodes|
    requires forall i :: 0 <= i < |nodes| ==> newNodes[p[i]] == nodes[i]
    ensures forall m :: m in newNodes <==> m in nodes
  {
    forall m | m in newNodes
      ensures m in nodes
    {
      var v :| 0 <= v < |newNodes| && newNodes[v] == m;
      assert v in p;
      var i :| 0 <= i < |p| && p[i] == v;
    }
    forall m | m in nodes
      ensures m in newNodes
    {
      var i :| 0 <= i < |nodes| && nodes[i] == m;
      assert newNodes[p[i]] == m;
    }
  }

  /** `GenerateConsolidationGraph` over the candidate list. `room` is the
      number of edges the arena still holds: past it edges are counted but
      not stored, and the graph is returned unordered with no valid-node set
      (`bitSize` 0), which tells the caller to give up. */
  method GenerateConsolidationGraph(versat: Versat, accel1: Accelerator, accel2: Accelerator, options: Options, room: nat)
    returns (graph: Graph)
    requires var c := Candidates(versat, accel1, accel2, options); |CompatibilityEdges(c, |c|)| <= room ==> |c| <= 50000
    ensures var c := Candidates(versat, accel1, accel2, options); graph.numberEdges == |CompatibilityEdges(c, |c|)|
    ensures var c := Candidates(versat, accel1, accel2, options);
      |graph.nodes| == |c| && forall m :: m in graph.nodes <==> m in c
    ensures graph.numberEdges > room ==>
      && graph.validNodes == []
      && graph.nodes == Candidates(versat, accel1, accel2, options)
      && graph.edges == CompatibilityEdges(graph.nodes, |graph.nodes|)[..room]
    ensures graph.numberEdges <= room ==>
      && graph.numberEdges == |graph.edges|
      && IsCompatibilityGraph(graph.nodes, graph.edges)
      && graph.validNodes == seq(|graph.nodes|, _ => true)
  {
    var candidates := Candidates(versat, accel1, accel2, options);
    var edges := CompatibilityEdges(candidates, |candidates|);
    if |edges| > room {
      return Graph(candidates, edges[..room], |edges|, []);
    }
    CompatibilityEdgesGraph(candidates);
    var indexToMinimumNode, order, newNodes, newEdges := Reorder(candidates, edges);
    RelabelKeepsGraph(candidates, edges, indexToMinimumNode, newNodes, newEdges);
    RelabelKeepsCandidates(candidates, indexToMinimumNode, newNodes);
    graph := Graph(newNodes, newEdges, |edges|, seq(|candidates|, _ => true));
  }
}

=== FILE: merge_mapping.dfy ===
/** The instance maps built from a clique (`merge.cpp`): `DoInsertMapping`,
    `InsertMapping`, and `ConsolidationGraphMapping`, which folds every
    candidate of the clique into a forward map (second accelerator to first),
    its reverse, and an edge map.

    `std::unordered_map` is a Dafny `map`; its `insert` leaves an existing
    key alone.
 */
module GraphMappings {
  import opened Wrappers
  import opened Accelerators
  import opened MergeConflicts
  import opened ConsolidationGraphs
  import opened Cliques

  type InstanceMap = map<Instance, Instance>

  /** `GraphMapping`: `instanceMap` sends instances of the second
      accelerator to those of the first, `reverseInstanceMap` the other way,
      and `edgeMap` sends edges of the second to edges of the first. */
  datatype GraphMapping = GraphMapping(instanceMap: InstanceMap, reverseInstanceMap: InstanceMap, edgeMap: map<PortPair, PortPair>)

  const EmptyMapping := GraphMapping(map[], map[], map[])

  /** `DoInsertMapping`: maps `inst1` to `inst0`; a key already present must
      already map to `inst0` (the source asserts), and is left as it is. */
  function DoInsertMapping(m: InstanceMap, inst1: Instance, inst0: Instance): (r: Result<InstanceMap>)
    ensures r.Success? <==> (inst1 in m ==> m[inst1] == inst0)
    ensures r.Success? ==>
      && r.value.Keys == m.Keys + {inst1} && r.value[inst1] == inst0
      && forall k :: k in m ==> r.value[k] == m[k]
  {
    if inst1 in m then
      if m[inst1] == inst0 then Success(m) else Failure("an instance is mapped twice")
    else
      Success(m[inst1 := inst0])
  }

  /** Inserting a pair again changes nothing. */
  lemma DoInsertMappingIdempotent(m: InstanceMap, inst1: Instance, inst0: Instance)
    requires DoInsertMapping(m, inst1, inst0).Success?
    ensures DoInsertMapping(DoInsertMapping(m, inst1, inst0).value, inst1, inst0) == DoInsertMapping(m, inst1, inst0)
  {
  }

  /** `InsertMapping`: `inst1` to `inst0` forward, `inst0` to `inst1` in
      reverse. */
  function InsertMapping(m: GraphMapping, inst1: Instance, inst0: Instance): (r: Result<GraphMapping>)
    ensures r.Success? <==>
      && (inst1 in m.instanceMap ==> m.instanceMap[inst1] == inst0)
      && (inst0 in m.reverseInstanceMap ==> m.reverseInstanceMap[inst0] == inst1)
    ensures r.Success? ==> r.value.edgeMap == m.edgeMap
  {
    var forward :- DoInsertMapping(m.instanceMap, inst1, inst0);
    var reverse :- DoInsertMapping(m.reverseInstanceMap, inst0, inst1);
    Success(m.(instanceMap := forward, reverseInstanceMap := reverse))
  }

  /** The correspondences a forward map holds, as (first, second) pairs. */
  function Pairs(forward: InstanceMap): set<(Instance, Instance)> {
    set b | b in forward :: (forward[b], b)
  }

  /** Any two correspondences of the set can be taken together. */
  ghost predicate Consistent(s: set<(Instance, Instance)>) {
    forall p, q :: p in s && q in s ==> Compatible(p, q)
  }

  /** Each map undoes the other. */
  ghost predicate MutuallyInverse(forward: InstanceMap, reverse: InstanceMap) {
    && (forall b :: b in forward ==> forward[b] in reverse && reverse[forward[b]] == b)
    && (forall a :: a in reverse ==> reverse[a] in forward && forward[reverse[a]] == a)
  }

  lemma InverseIsConsistent(forward: InstanceMap, reverse: InstanceMap)
    requires MutuallyInverse(forward, reverse)
    ensures Consistent(Pairs(forward))
  {
  }

  /** On mutually inverse maps, `InsertMapping` succeeds exactly when the new
      correspondence is compatible with all those held, adds it, and keeps
      the maps mutually inverse. */
  lemma InsertMappingKeepsInverse(m: GraphMapping, inst1: Instance, inst0: Instance)
    requires MutuallyInverse(m.instanceMap, m.reverseInstanceMap)
    ensures InsertMapping(m, inst1, inst0).Success? <==> Consistent(Pairs(m.instanceMap) + {(inst0, inst1)})
    ensures InsertMapping(m, inst1, inst0).Success? ==>
      var r := InsertMapping(m, inst1, inst0).value;
      && MutuallyInverse(r.instanceMap, r.reverseInstanceMap)
      && Pairs(r.instanceMap) == Pairs(m.instanceMap) + {(inst0, inst1)}
  {
    var fwd, rev := m.instanceMap, m.reverseInstanceMap;
    var s := Pairs(fwd) + {(inst0, inst1)};
    if InsertMapping(m, inst1, inst0).Success? {
      forall p, q | p in s && q in s
        ensures Compatible(p, q)
      {
      }
      var r := InsertMapping(m, inst1, inst0).value;
      assert r.instanceMap == fwd[inst1 := inst0];
      assert Pairs(r.instanceMap) == s;
    }
    if Consistent(s) {
      if inst1 in fwd {
        assert (fwd[inst1], inst1) in s;
      }
      if inst0 in rev {
        assert (inst0, rev[inst0]) in s;
      }
    }
  }

  /** The fold step for one clique member: a node candidate maps its second
      instance to its first; an edge candidate maps both endpoints the same
      way and records the edge, keeping an edge already recorded. Entries
      of the edge map are never overwritten. */
  function InsertNode(m: GraphMapping, node: MappingNode): (r: Result<GraphMapping>)
    ensures r.Success? ==> forall e :: e in m.edgeMap ==> e in r.value.edgeMap && r.value.edgeMap[e] == m.edgeMap[e]
    ensures r.Success? && node.EdgeMap? ==> node.edge1 in r.value.edgeMap
    ensures r.Success? && node.NodeMap? ==> r.value.edgeMap == m.edgeMap
  {
    match node
    case NodeMap(inst0, inst1) => InsertMapping(m, inst1, inst0)
    case EdgeMap(edge0, edge1) =>
      var m1 :- InsertMapping(m, edge1.first.inst, edge0.first.inst);
      var m2 :- InsertMapping(m1, edge1.second.inst, edge0.second.inst);
      Success(m2.(edgeMap := if edge1 in m2.edgeMap then m2.edgeMap else m2.edgeMap[edge1 := edge0]))
  }

  /** `InsertNode` adds exactly the candidate's correspondences, succeeding
      when they agree with each other and with those already held. */
  lemma InsertNodeExact(m: GraphMapping, node: MappingNode)
    requires MutuallyInverse(m.instanceMap, m.reverseInstanceMap)
    ensures InsertNode(m, node).Success? <==> Consistent(Pairs(m.instanceMap) + InstancePairs(node))
    ensures InsertNode(m, node).Success? ==>
      var r := InsertNode(m, node).value;
      && MutuallyInverse(r.instanceMap, r.reverseInstanceMap)
      && Pairs(r.instanceMap) == Pairs(m.instanceMap) + InstancePairs(node)
  {
    match node
    case NodeMap(inst0, inst1) =>
      InsertMappingKeepsInverse(m, inst1, inst0);
    case EdgeMap(edge0, edge1) =>
      InsertEdgeExact(m, edge0, edge1);
  }

  lemma InsertEdgeExact(m: GraphMapping, edge0: PortPair, edge1: PortPair)
    requires MutuallyInverse(m.instanceMap, m.reverseInstanceMap)
    ensures var node := EdgeMap(edge0, edge1);
      InsertNode(m, node).Success? <==> Consistent(Pairs(m.instanceMap) + InstancePairs(node))
    ensures var node := EdgeMap(edge0, edge1);
      InsertNode(m, node).Success? ==>
      var r := InsertNode(m, node).value;
      && MutuallyInverse(r.instanceMap, r.reverseInstanceMap)
      && Pairs(r.instanceMap) == Pairs(m.instanceMap) + InstancePairs(node)
  {
    var node := EdgeMap(edge0, edge1);
    var p1 := (edge0.first.inst, edge1.first.inst);
    var p2 := (edge0.second.inst, edge1.second.inst);
    var held := Pairs(m.instanceMap);
    assert InstancePairs(node) == {p1, p2};
    assert held + {p1} + {p2} == held + InstancePairs(node);
    if Consistent(held + InstancePairs(node)) {
      ConsistentSubset(held + {p1}, held + InstancePairs(node));
    }
    InsertMappingKeepsInverse(m, edge1.first.inst, edge0.first.inst);
    var first := InsertMapping(m, edge1.first.inst, edge0.first.inst);
    if first.Success? {
      InsertMappingKeepsInverse(first.value, edge1.second.inst, edge0.second.inst);
    }
  }

  lemma ConsistentSubset(a: set<(Instance, Instance)>, b: set<(Instance, Instance)>)
    requires a <= b && Consistent(b)
    ensures Consistent(a)
  {
  }

  /** The fold of `ConsolidationGraphMapping` over the valid vertices, in
      index order; a successful fold records the edge of every valid edge
      candidate. */
  function FoldClique(nodes: seq<MappingNode>, valid: seq<bool>): (r: Result<GraphMapping>)
    requires |valid| == |nodes|
    ensures r.Success? ==>
      forall i :: 0 <= i < |nodes| && valid[i] && nodes[i].EdgeMap? ==> nodes[i].edge1 in r.value.edgeMap
  {
    if |nodes| == 0 then Success(EmptyMapping)
    else
      var last := |nodes| - 1;
      var m :- FoldClique(nodes[..last], valid[..last]);
      assert forall i :: 0 <= i < last ==> nodes[..last][i] == nodes[i] && valid[..last][i] == valid[i];
      if valid[last] then InsertNode(m, nodes[last]) else Success(m)
  }

  /** The correspondences of the valid vertices' candidates. */
  ghost function ChosenPairs(nodes: seq<MappingNode>, valid: seq<bool>): set<(Instance, Instance)>
    requires |valid| == |nodes|
  {
    if |nodes| == 0 then {}
    else
      var last := |nodes| - 1;
      ChosenPairs(nodes[..last], valid[..last]) + (if valid[last] then InstancePairs(nodes[last]) else {})
  }

  /** The fold succeeds exactly when all the chosen correspondences agree;
      then the forward map holds exactly them and the two maps are mutually
      inverse. */
  lemma {:induction false} FoldCliqueExact(nodes: seq<MappingNode>, valid: seq<bool>)
    requires |valid| == |nodes|
    ensures FoldClique(nodes, valid).Success? <==> Consistent(ChosenPairs(nodes, valid))
    ensures FoldClique(nodes, valid).Success? ==>
      var r := FoldClique(nodes, valid).value;
      MutuallyInverse(r.instanceMap, r.reverseInstanceMap) && Pairs(r.instanceMap) == ChosenPairs(nodes, valid)
  {
    if |nodes| > 0 {
      var last := |nodes| - 1;
      FoldCliqueExact(nodes[..last], valid[..last]);
      FoldStep(nodes, valid);
    }
  }

  lemma FoldStep(nodes: seq<MappingNode>, valid: seq<bool>)
    requires |valid| == |nodes| > 0
    requires var prefix, prefixValid := nodes[..|nodes| - 1], valid[..|nodes| - 1];
      && (FoldClique(prefix, prefixValid).Success? <==> Consistent(ChosenPairs(prefix, prefixValid)))
      && (FoldClique(prefix, prefixValid).Success? ==>
            var m := FoldClique(prefix, prefixValid).value;
            MutuallyInverse(m.instanceMap, m.reverseInstanceMap) && Pairs(m.instanceMap) == ChosenPairs(prefix, prefixValid))
    ensures FoldClique(nodes, valid).Success? <==> Consistent(ChosenPairs(nodes, valid))
    ensures FoldClique(nodes, valid).Success? ==>
      var r := FoldClique(nodes, valid).value;
      MutuallyInverse(r.instanceMap, r.reverseInstanceMap) && Pairs(r.instanceMap) == ChosenPairs(nodes, valid)
  {
    var last := |nodes| - 1;
    var prefix, prefixValid := nodes[..last], valid[..last];
    var before := ChosenPairs(prefix, prefixValid);
    var added := if valid[last] then InstancePairs(nodes[last]) else {};
    assert ChosenPairs(nodes, valid) == before + added;
    if FoldClique(prefix, prefixValid).Success? {
      if valid[last] {
        InsertNodeExact(FoldClique(prefix, prefixValid).value, nodes[last]);
      }
    } else if Consistent(before + added) {
      ConsistentSubset(before, before + added);
    }
  }

  /** A correspondence is chosen when some valid vertex's candidate makes
      it. */
  lemma {:induction false} ChosenPairsMembership(nodes: seq<MappingNode>, valid: seq<bool>, p: (Instance, Instance))
    requires |valid| == |nodes|
    ensures p in ChosenPairs(nodes, valid) <==>
      exists i :: 0 <= i < |nodes| && valid[i] && p in InstancePairs(nodes[i])
  {
    if |nodes| > 0 {
      var last := |nodes| - 1;
      var prefix, prefixValid := nodes[..last], valid[..last];
      ChosenPairsMembership(prefix, prefixValid, p);
      if exists i :: 0 <= i < |nodes| && valid[i] && p in InstancePairs(nodes[i]) {
        var i :| 0 <= i < |nodes| && valid[i] && p in InstancePairs(nodes[i]);
        if i < last {
          assert prefix[i] == nodes[i] && prefixValid[i];
        }
      }
      if exists i :: 0 <= i < |prefix| && prefixValid[i] && p in InstancePairs(prefix[i]) {
        var i :| 0 <= i < |prefix| && prefixValid[i] && p in InstancePairs(prefix[i]);
        assert nodes[i] == prefix[i] && valid[i];
      }
    }
  }

  /** The correspondences of a candidate agree with each other. */
  ghost predicate SelfConsistent(m: MappingNode) {
    Consistent(InstancePairs(m))
  }

  /** Two accelerators the merge may be applied to: well formed, with outputs
      of Versat's output declaration, and sharing no instance. */
  ghost predicate MergeInputs(versat: Versat, accel1: Accelerator, accel2: Accelerator) {
    && accel1.Valid() && accel2.Valid()
    && OutputsDeclared(versat, accel1) && OutputsDeclared(versat, accel2)
    && forall a, b :: a in accel1.instances && b in accel2.instances ==> a != b
  }

  /** A clique of the compatibility graph of candidates folds without
      tripping the assert of `DoInsertMapping`, as long as each chosen
      candidate is consistent on its own. */
  lemma CliqueFoldSucceeds(versat: Versat, accel1: Accelerator, accel2: Accelerator, options: Options,
                           nodes: seq<MappingNode>, edges: seq<MappingEdge>, valid: seq<bool>)
    requires MergeInputs(versat, accel1, accel2)
    requires forall m :: m in nodes ==> m in Candidates(versat, accel1, accel2, options)
    requires IsCompatibilityGraph(nodes, edges) && |valid| == |nodes|
    requires PairwiseAdjacent(edges, valid)
    requires forall i :: 0 <= i < |nodes| && valid[i] ==> SelfConsistent(nodes[i])
    ensures FoldClique(nodes, valid).Success?
  {
    var chosen := ChosenPairs(nodes, valid);
    forall p, q | p in chosen && q in chosen
      ensures Compatible(p, q)
    {
      ChosenPairsMembership(nodes, valid, p);
      ChosenPairsMembership(nodes, valid, q);
      var i :| 0 <= i < |nodes| && valid[i] && p in InstancePairs(nodes[i]);
      var j :| 0 <= j < |nodes| && valid[j] && q in InstancePairs(nodes[j]);
      if i != j {
        AdjacentCompatible(nodes, edges, i, j);
        CandidateConflicts(versat, accel1, accel2, options, nodes[i], nodes[j]);
      }
    }
    FoldCliqueExact(nodes, valid);
  }

  /** Adjacent vertices of the compatibility graph do not conflict. */
  lemma AdjacentCompatible(nodes: seq<MappingNode>, edges: seq<MappingEdge>, i: nat, j: nat)
    requires IsCompatibilityGraph(nodes, edges) && i < |nodes| && j < |nodes|
    requires Adjacent(edges, i, j)
    ensures !MappingConflict(nodes[i], nodes[j])
  {
    var k :| 0 <= k < |edges| && Joins(edges[k], i, j);
    MappingConflictSymmetric(nodes[i], nodes[j]);
  }

  /** `ConsolidationGraphMapping`: builds the consolidation graph with node
      candidates, gives up with empty maps when the arena overran, finds a
      maximum clique and folds it. `room` is the edge capacity left in the
      arena and `limit` the clique search's time budget. */
  method ConsolidationGraphMapping(versat: Versat, accel1: Accelerator, accel2: Accelerator, room: nat, limit: nat)
    returns (r: Result<GraphMapping>)
    requires var c := Candidates(versat, accel1, accel2, Options(AnyOrder, 0, 0, true));
             |CompatibilityEdges(c, |c|)| <= room ==> |c| <= 50000
    ensures r.Success? ==> MutuallyInverse(r.value.instanceMap, r.value.reverseInstanceMap)
    ensures MergeInputs(versat, accel1, accel2) &&
            (forall m :: m in Candidates(versat, accel1, accel2, Options(AnyOrder, 0, 0, true)) ==> SelfConsistent(m))
            ==> r.Success?
  {
    var options := Options(AnyOrder, 0, 0, true);
    var graph := GenerateConsolidationGraph(versat, accel1, accel2, options, room);
    if |graph.validNodes| == 0 {
      return Success(EmptyMapping);
    }
    var clique, state := MaxClique(graph, limit);
    if clique.Failure? {
      return Failure("the clique found is not a clique");
    }
    r := FoldClique(graph.nodes, clique.value.validNodes);
    FoldCliqueExact(graph.nodes, clique.value.validNodes);
    if MergeInputs(versat, accel1, accel2) &&
       (forall m :: m in Candidates(versat, accel1, accel2, options) ==> SelfConsistent(m)) {
      CliqueFoldSucceeds(versat, accel1, accel2, options, graph.nodes, graph.edges, clique.value.validNodes);
    }
  }
}

=== FILE: pool.dfy ===
/** Pool page layout and the occupancy-driven `GenericPoolIterator`
    (`memory.cpp`).

    A pool page holds `unitsPerPage` slots of `elemSize` bytes from its start,
    then an occupancy bitmap, then a `PoolHeader` at the very end. Addresses
    are naturals and 0 is the null pointer. The page size is a parameter (the
    source asks the operating system for it).
 */
module Pools {
  import opened Wrappers
  import opened UtilsCommon
  import opened Arenas
  import BitArrays

  /** `sizeof(PoolHeader)`: a pointer and an `int`, padded to 16 bytes on a
      64-bit target. */
  const POOL_HEADER_SIZE: nat := 16

  datatype PoolInfo = PoolInfo(unitsPerFullPage: int, bitmapSize: int, unitsPerPage: int, pageGranuality: int)
  datatype PageInfo = PageInfo(header: int, bitmap: int)

  /** Floor division by a positive divisor, in multiplicative form. */
  lemma DivFloor(x: int, e: int)
    requires x >= 0 && e > 0
    ensures x / e >= 0
    ensures (x / e) * e <= x < (x / e + 1) * e
  {
    MulAtLeast(x / e, e);
  }

  /** `CalculatePoolInfo`: as many slots as fit beside the header, a bitmap
      with a bit for each of them, then as many slots as still fit beside
      header and bitmap. */
  function CalculatePoolInfo(pageSize: nat, elemSize: int): (info: PoolInfo)
    requires pageSize >= POOL_HEADER_SIZE && elemSize > 0
    ensures info.pageGranuality == 1
    ensures 0 <= info.unitsPerPage <= info.unitsPerFullPage <= 8 * info.bitmapSize
    ensures info.unitsPerFullPage * elemSize <= pageSize - POOL_HEADER_SIZE < (info.unitsPerFullPage + 1) * elemSize
    ensures info.unitsPerPage * elemSize + info.bitmapSize + POOL_HEADER_SIZE <= pageSize
    ensures pageSize < (info.unitsPerPage + 1) * elemSize + info.bitmapSize + POOL_HEADER_SIZE
  {
    var space := pageSize - POOL_HEADER_SIZE;
    var unitsPerFullPage := space / elemSize;
    DivFloor(space, elemSize);
    var bitmapSize := RoundUpDiv(unitsPerFullPage, 8);
    assert bitmapSize <= space by {
      MulAtLeast(unitsPerFullPage - 1, elemSize);
    }
    var unitsPerPage := (space - bitmapSize) / elemSize;
    DivFloor(space - bitmapSize, elemSize);
    assert unitsPerPage <= unitsPerFullPage by {
      DivMonotonic(space - bitmapSize, space, elemSize);
    }
    PoolInfo(unitsPerFullPage, bitmapSize, unitsPerPage, 1)
  }

  lemma DivMonotonic(x: int, y: int, e: int)
    requires 0 <= x <= y && e > 0
    ensures x / e <= y / e
  {
    DivFloor(x, e);
    DivFloor(y, e);
    if x / e > y / e {
      MulAtLeast(y / e, e);
      MulBelow(y / e + 1, x / e, e);
    }
  }

  /** `GetPageInfo`: the header occupies the last `sizeof(PoolHeader)` bytes
      of the page (of `pageGranuality` system pages) and the bitmap ends
      where the header begins. */
  function GetPageInfo(pageSize: nat, info: PoolInfo, page: nat): (r: PageInfo)
    ensures r.header + POOL_HEADER_SIZE == page + info.pageGranuality * pageSize
    ensures r.bitmap + info.bitmapSize == r.header
  {
    var header := page + info.pageGranuality * pageSize - POOL_HEADER_SIZE;
    PageInfo(header, header - info.bitmapSize)
  }

  /** On a page laid out by `CalculatePoolInfo`, slots, bitmap and header are
      consecutive and disjoint, and all lie inside the page. */
  lemma PageLayout(pageSize: nat, elemSize: int, page: nat)
    requires pageSize >= POOL_HEADER_SIZE && elemSize > 0
    ensures var info := CalculatePoolInfo(pageSize, elemSize);
            var p := GetPageInfo(pageSize, info, page);
            && page + info.unitsPerPage * elemSize <= p.bitmap
            && p.bitmap + info.bitmapSize == p.header
            && p.header + POOL_HEADER_SIZE == page + pageSize
  {
  }

  /** What the iterator reads of a page: its bitmap bytes and the header's
      `nextPage` link (0 when it is the last page). */
  datatype Page = Page(bitmap: seq<Byte>, nextPage: nat)

  /** The pool's pages by address: each page has a bitmap of `bitmapSize`
      bytes and links to a page of the pool or to null; a page holds at least
      one slot, so the bitmap is never empty. */
  predicate PagesValid(pages: map<nat, Page>, info: PoolInfo) {
    && 0 !in pages
    && 1 <= info.unitsPerPage <= 8 * info.bitmapSize
    && forall p :: p in pages ==> |pages[p].bitmap| == info.bitmapSize && (pages[p].nextPage == 0 || pages[p].nextPage in pages)
  }

  /** Slot `slot` (counting from 0) is occupied: bit `7 - slot % 8`, in the
      source's numbering, of bitmap byte `slot / 8`. */
  predicate Occupied(page: Page, slot: nat)
    requires slot / 8 < |page.bitmap|
  {
    BitArrays.BitOf(page.bitmap[slot / 8], slot % 8)
  }

  /** `GenericPoolIterator`'s fields; `bit` counts down from 7, so the slot
      is `index * 8 + (7 - bit)`. */
  datatype PoolIterator = PoolIterator(
    info: PoolInfo, fullIndex: int, bit: int, index: int,
    numberElements: int, elemSize: int, page: nat)
  {
    function Slot(): int {
      index * 8 + (7 - bit)
    }
  }

  /** The iterator stands on a slot of a page of the pool, or on null. */
  predicate InBounds(pages: map<nat, Page>, it: PoolIterator) {
    && 0 <= it.bit <= 7 && it.index >= 0
    && (it.page != 0 ==> it.page in pages && it.Slot() < it.info.unitsPerPage)
  }

  /** `HasNext` */
  predicate HasNext(it: PoolIterator) {
    it.page != 0 && it.fullIndex < it.numberElements
  }

  lemma SlotByte(pages: map<nat, Page>, it: PoolIterator)
    requires PagesValid(pages, it.info) && InBounds(pages, it) && it.page != 0
    ensures it.Slot() >= 0 && it.Slot() / 8 == it.index < |pages[it.page].bitmap|
    ensures it.Slot() % 8 == 7 - it.bit
  {
  }

  /** Whenever `HasNext` holds, `operator*` is safe: the page is not null and
      the slot's bit is set. */
  predicate Safe(pages: map<nat, Page>, it: PoolIterator)
    requires PagesValid(pages, it.info)
  {
    && InBounds(pages, it)
    && (HasNext(it) ==>
          it.Slot() >= 0 && it.Slot() / 8 < |pages[it.page].bitmap| && Occupied(pages[it.page], it.Slot()))
  }

  /** One slot forward: the next slot of the page, or slot 0 of the next
      page (null after the last) once `unitsPerPage` slots are passed. Each
      step counts one in `fullIndex`. */
  function Next(pages: map<nat, Page>, it: PoolIterator): (r: PoolIterator)
    requires PagesValid(pages, it.info) && InBounds(pages, it) && it.page != 0
    ensures InBounds(pages, r) && r.fullIndex == it.fullIndex + 1
    ensures r.numberElements == it.numberElements && r.elemSize == it.elemSize && r.info == it.info
    ensures it.Slot() + 1 < it.info.unitsPerPage ==> r.page == it.page && r.Slot() == it.Slot() + 1
    ensures it.Slot() + 1 >= it.info.unitsPerPage ==> r.page == pages[it.page].nextPage && r.Slot() == 0
  {
    var slot := it.Slot() + 1;
    if slot < it.info.unitsPerPage then it.(fullIndex := it.fullIndex + 1, index := slot / 8, bit := 7 - slot % 8)
    else it.(fullIndex := it.fullIndex + 1, index := 0, bit := 7, page := pages[it.page].nextPage)
  }

  /** `k` steps forward, or fewer if the walk runs off the last page. */
  function Walk(pages: map<nat, Page>, it: PoolIterator, k: nat): (r: PoolIterator)
    requires PagesValid(pages, it.info) && InBounds(pages, it)
    ensures InBounds(pages, r) && r.info == it.info
    ensures r.numberElements == it.numberElements && r.elemSize == it.elemSize
    decreases k
  {
    if k == 0 || it.page == 0 then it else Walk(pages, Next(pages, it), k - 1)
  }

  /** Where `operator++` may stop: the end of the pages, the element count
      reached, or an occupied slot. */
  predicate Stops(pages: map<nat, Page>, it: PoolIterator)
    requires PagesValid(pages, it.info) && InBounds(pages, it)
  {
    it.page == 0 || it.fullIndex >= it.numberElements || (SlotByte(pages, it); Occupied(pages[it.page], it.Slot()))
  }

  /** `r` is the first stop after `from`: `k` steps along the walk, with
      `k` at least one unless the count was already reached, and no stop in
      between. */
  ghost predicate FirstStop(pages: map<nat, Page>, from: PoolIterator, r: PoolIterator)
    requires PagesValid(pages, from.info) && InBounds(pages, from)
  {
    var k := r.fullIndex - from.fullIndex;
    && k >= 0 && r == Walk(pages, from, k)
    && (from.fullIndex < from.numberElements ==> k >= 1 && Stops(pages, r))
    && (from.fullIndex >= from.numberElements ==> k == 0)
    && forall j :: 0 < j < k ==> !Stops(pages, Walk(pages, from, j))
  }

  lemma {:induction false} WalkStep(pages: map<nat, Page>, it: PoolIterator, k: nat)
    requires PagesValid(pages, it.info) && InBounds(pages, it)
    requires Walk(pages, it, k).page != 0
    ensures Walk(pages, it, k + 1) == Next(pages, Walk(pages, it, k))
    ensures Walk(pages, it, k).fullIndex == it.fullIndex + k
    decreases k
  {
    if k > 0 {
      WalkStep(pages, Next(pages, it), k - 1);
    }
  }

  /** The first stop is determined by the starting position. */
  lemma FirstStopUnique(pages: map<nat, Page>, from: PoolIterator, r1: PoolIterator, r2: PoolIterator)
    requires PagesValid(pages, from.info) && InBounds(pages, from) && from.page != 0
    requires FirstStop(pages, from, r1) && FirstStop(pages, from, r2)
    ensures r1 == r2
  {
  }

  /** The starting position `Init` sets up: slot 0 of `page`, nothing
      counted yet. */
  function Start(pageSize: nat, page: nat, numberElements: int, elemSize: int): (it: PoolIterator)
    requires pageSize >= POOL_HEADER_SIZE && elemSize > 0
    ensures it.Slot() == 0 && it.fullIndex == 0 && it.page == page
  {
    PoolIterator(CalculatePoolInfo(pageSize, elemSize), 0, 7, 0, numberElements, elemSize, page)
  }

  /** `Init`: the iterator starts on slot 0 of `page`, and moves on with
      `operator++` when that slot is free. */
  method Init(pageSize: nat, pages: map<nat, Page>, page: nat, numberElements: int, elemSize: int)
    returns (it: PoolIterator)
    requires pageSize >= POOL_HEADER_SIZE && elemSize > 0
    requires PagesValid(pages, CalculatePoolInfo(pageSize, elemSize))
    requires page == 0 || page in pages
    ensures it.info == CalculatePoolInfo(pageSize, elemSize) && it.fullIndex >= 0
    ensures it.numberElements == numberElements && it.elemSize == elemSize
    ensures Safe(pages, it)
    ensures page == 0 ==> it == Start(pageSize, page, numberElements, elemSize)
    ensures page != 0 && Occupied(pages[page], 0) ==> it == Start(pageSize, page, numberElements, elemSize)
    ensures page != 0 && !Occupied(pages[page], 0) ==> FirstStop(pages, Start(pageSize, page, numberElements, elemSize), it)
  {
    it := Start(pageSize, page, numberElements, elemSize);
    if page != 0 {
      SlotByte(pages, it);
      if !Occupied(pages[page], it.Slot()) {
        it := Advance(pages, it);
      }
    }
  }

  /** The loop body of `operator++` up to its occupancy test: count the
      step, move the bit cursor, and cross to the next page past
      `unitsPerPage`. */
  method Increment(pages: map<nat, Page>, it: PoolIterator) returns (step: PoolIterator)
    requires PagesValid(pages, it.info) && InBounds(pages, it) && it.page != 0
    ensures step == Next(pages, it)
  {
    step := it.(fullIndex := it.fullIndex + 1, bit := it.bit - 1);
    if step.bit < 0 {
      step := step.(index := step.index + 1, bit := 7);
    }
    if step.Slot() >= step.info.unitsPerPage {
      step := step.(index := 0, bit := 7, page := pages[step.page].nextPage);
    }
  }

  /** `operator++`: steps slot by slot, moving to the next page past
      `unitsPerPage`, until an occupied slot, the end of the pages, or
      `numberElements` steps in all. */
  method Advance(pages: map<nat, Page>, it: PoolIterator) returns (r: PoolIterator)
    requires PagesValid(pages, it.info) && InBounds(pages, it) && it.page != 0
    ensures r.numberElements == it.numberElements && r.elemSize == it.elemSize && r.info == it.info
    ensures Safe(pages, r)
    ensures FirstStop(pages, it, r)
  {
    r := it;
    while r.fullIndex < r.numberElements
      invariant InBounds(pages, r) && r.page != 0
      invariant r.fullIndex >= it.fullIndex && r == Walk(pages, it, r.fullIndex - it.fullIndex)
      invariant forall j :: 0 < j < r.fullIndex - it.fullIndex ==> !Stops(pages, Walk(pages, it, j))
      invariant r.fullIndex > it.fullIndex && r.fullIndex < r.numberElements ==> !Stops(pages, r)
      invariant it.fullIndex >= it.numberElements ==> r == it
      decreases r.numberElements - r.fullIndex
    {
      WalkStep(pages, it, r.fullIndex - it.fullIndex);
      var step := Increment(pages, r);
      if step.page == 0 {
        return step;
      }
      r := step;
      SlotByte(pages, r);
      if Occupied(pages[r.page], r.Slot()) {
        return r;
      }
    }
  }

  /** `operator*`: asserts a non-null page and an occupied slot, and returns
      the slot's address. */
  function Deref(pages: map<nat, Page>, it: PoolIterator): (r: Result<int>)
    requires PagesValid(pages, it.info) && InBounds(pages, it)
    ensures r.Success? <==>
      it.page != 0 && it.Slot() >= 0 && it.Slot() / 8 < |pages[it.page].bitmap| && Occupied(pages[it.page], it.Slot())
    ensures r.Success? ==> r.value == it.page + it.Slot() * it.elemSize
  {
    if it.page == 0 then Failure("dereferencing the null page")
    else
      SlotByte(pages, it);
      if Occupied(pages[it.page], it.Slot()) then Success(it.page + it.Slot() * it.elemSize)
      else Failure("dereferencing a free slot")
  }

  /** Every element the iterator offers can be dereferenced, and its slot
      lies in the page's slot area, before the bitmap. */
  lemma DerefSafe(pageSize: nat, pages: map<nat, Page>, it: PoolIterator)
    requires pageSize >= POOL_HEADER_SIZE && it.elemSize > 0
    requires it.info == CalculatePoolInfo(pageSize, it.elemSize)
    requires PagesValid(pages, it.info) && Safe(pages, it) && HasNext(it)
    ensures Deref(pages, it).Success?
    ensures it.page <= Deref(pages, it).value
    ensures Deref(pages, it).value + it.elemSize <= GetPageInfo(pageSize, it.info, it.page).bitmap
  {
    PageLayout(pageSize, it.elemSize, it.page);
    MulBelow(it.Slot() + 1, it.info.unitsPerPage, it.elemSize);
    MulAtLeast(it.Slot(), it.elemSize);
  }
}

=== FILE: spec_parser.dfy ===
/** The range language of `versatSpecificationParser.cpp`: identifier
    lookup, the `name[d0..d1]:p0..p1` variables, the expansion of a `->`
    statement into edges, the sizing of the module's outputs and the
    operator of a binary expression.

    The tokenizer is not part of this model: a token stream is a
    `seq<string>`, reading past its end is an error, peeking past its end
    yields the empty token, and `ParseInt` is a parameter.
 */
module SpecParser {
  import opened Wrappers
  import opened Tokens
  import opened UtilsCommon
  import opened Accelerators
  import VersatCore

  // ---------------------------------------------------------------------
  // GetIndex

  /** `GetIndex`: the first slot of the identifier table holding `name`. */
  function GetIndex(identifiers: seq<string>, name: string): (r: Result<nat>)
    ensures r.Success? <==> name in identifiers
    ensures r.Success? ==> r.value < |identifiers| && identifiers[r.value] == name
    ensures r.Success? ==> forall j :: 0 <= j < r.value ==> identifiers[j] != name
  {
    if |identifiers| == 0 then Failure("unknown identifier")
    else if identifiers[0] == name then Success(0)
    else
      match GetIndex(identifiers[1..], name)
      case Failure(why) => Failure(why)
      case Success(i) => Success(i + 1)
  }

  // ---------------------------------------------------------------------
  // ParseVar

  /** `Var`: a name with a delay range and a port range. */
  datatype Var = Var(name: string, delayStart: int, delayEnd: int, portStart: int, portEnd: int)

  /** What `ParseVar` guarantees of the ranges it returns. */
  predicate WellFormedVar(v: Var) {
    v.delayStart <= v.delayEnd && v.portStart <= v.portEnd
  }

  /** An optional `start..end` or `start` after the opening token; the end
      defaults to the start. */
  function ParseBounds(ts: seq<string>, parseInt: string -> int): (r: Result<(int, int, seq<string>)>)
    ensures r.Success? ==> |r.value.2| < |ts|
    ensures r.Success? && |ts| > 1 && ts[1] != ".." ==> r.value == (parseInt(ts[0]), parseInt(ts[0]), ts[1..])
  {
    if |ts| == 0 then Failure("unexpected end of tokens")
    else
      var start := parseInt(ts[0]);
      if Peek(ts[1..]) == ".." then
        if |ts| < 3 then Failure("unexpected end of tokens")
        else Success((start, parseInt(ts[2]), ts[3..]))
      else Success((start, start, ts[1..]))
  }

  /** The `[delay]` part, 0 when absent. */
  function ParseDelay(ts: seq<string>, parseInt: string -> int): (r: Result<(int, int, seq<string>)>)
    ensures r.Success? ==> |r.value.2| <= |ts|
    ensures Peek(ts) != "[" ==> r == Success((0, 0, ts))
  {
    if Peek(ts) != "[" then Success((0, 0, ts))
    else
      match ParseBounds(ts[1..], parseInt)
      case Failure(why) => Failure(why)
      case Success((start, end, rest)) =>
        if Peek(rest) != "]" then Failure("expected ]")
        else Success((start, end, rest[1..]))
  }

  /** The `:port` part, 0 when absent. */
  function ParsePort(ts: seq<string>, parseInt: string -> int): (r: Result<(int, int, seq<string>)>)
    ensures r.Success? ==> |r.value.2| <= |ts|
    ensures Peek(ts) != ":" ==> r == Success((0, 0, ts))
  {
    if Peek(ts) != ":" then Success((0, 0, ts))
    else ParseBounds(ts[1..], parseInt)
  }

  /** `ParseVar`: a name, an optional delay range, an optional port range;
      an empty range asserts. */
  function ParseVar(ts: seq<string>, parseInt: string -> int): (r: Result<(Var, seq<string>)>)
    ensures r.Success? ==> WellFormedVar(r.value.0) && |r.value.1| < |ts| && r.value.0.name == ts[0]
  {
    if |ts| == 0 then Failure("unexpected end of tokens")
    else
      match ParseDelay(ts[1..], parseInt)
      case Failure(why) => Failure(why)
      case Success((delayStart, delayEnd, afterDelay)) =>
        match ParsePort(afterDelay, parseInt)
        case Failure(why) => Failure(why)
        case Success((portStart, portEnd, rest)) =>
          if delayEnd < delayStart then Failure("delay range ends before it starts")
          else if portEnd < portStart then Failure("port range ends before it starts")
          else Success((Var(ts[0], delayStart, delayEnd, portStart, portEnd), rest))
  }

  /** The full written form `name [ d0 .. d1 ] : p0 .. p1`. */
  function VarTokens(v: Var, show: int -> string): seq<string> {
    [v.name, "[", show(v.delayStart), "..", show(v.delayEnd), "]", ":", show(v.portStart), "..", show(v.portEnd)]
  }

  /** Reading the full written form of a variable gives it back, and leaves
      the following tokens untouched; an empty range asserts. */
  lemma ParseVarRoundTrip(v: Var, rest: seq<string>, parseInt: string -> int, show: int -> string)
    requires forall n :: parseInt(show(n)) == n
    ensures WellFormedVar(v) ==> ParseVar(VarTokens(v, show) + rest, parseInt) == Success((v, rest))
    ensures !WellFormedVar(v) ==> ParseVar(VarTokens(v, show) + rest, parseInt).Failure?
  {
    var ts := VarTokens(v, show) + rest;
    var u := ts[1..][1..];
    assert u == [show(v.delayStart), "..", show(v.delayEnd), "]", ":", show(v.portStart), "..", show(v.portEnd)] + rest;
    assert Peek(u[1..]) == ".." && u[3..] == ["]", ":", show(v.portStart), "..", show(v.portEnd)] + rest;
    assert ParseBounds(u, parseInt) == Success((v.delayStart, v.delayEnd, u[3..]));
    var w := [":", show(v.portStart), "..", show(v.portEnd)] + rest;
    assert Peek(ts[1..]) == "[" && Peek(u[3..]) == "]" && u[3..][1..] == w;
    assert w[1..] == [show(v.portStart), "..", show(v.portEnd)] + rest;
    assert w[1..][1..][0] == ".." && w[1..][3..] == rest;
    assert ParseDelay(ts[1..], parseInt) == Success((v.delayStart, v.delayEnd, [":", show(v.portStart), "..", show(v.portEnd)] + rest));
    assert ParsePort([":", show(v.portStart), "..", show(v.portEnd)] + rest, parseInt) == Success((v.portStart, v.portEnd, rest));
  }

  /** A bare name has delay 0 and port 0. */
  lemma ParseVarDefaults(name: string, rest: seq<string>, parseInt: string -> int)
    requires Peek(rest) != "[" && Peek(rest) != ":"
    ensures ParseVar([name] + rest, parseInt) == Success((Var(name, 0, 0, 0, 0), rest))
  {
    assert ([name] + rest)[1..] == rest;
  }

  /** A range written without `..` ends where it starts. */
  lemma ParseVarSingleRanges(name: string, d: string, p: string, rest: seq<string>, parseInt: string -> int)
    requires Peek(rest) != ".."
    ensures ParseVar([name, "[", d, "]", ":", p] + rest, parseInt) ==
      Success((Var(name, parseInt(d), parseInt(d), parseInt(p), parseInt(p)), rest))
  {
    var ts := [name, "[", d, "]", ":", p] + rest;
    var u := ts[1..][1..];
    assert u == [d, "]", ":", p] + rest;
    assert Peek(u[1..]) == "]";
    assert ParseBounds(u, parseInt) == Success((parseInt(d), parseInt(d), u[1..]));
    assert u[1..][1..] == [":", p] + rest;
    assert ParseDelay(ts[1..], parseInt) == Success((parseInt(d), parseInt(d), [":", p] + rest));
    assert ([":", p] + rest)[1..] == [p] + rest;
    assert ([p] + rest)[1..] == rest;
  }

  // ---------------------------------------------------------------------
  // The `->` statement

  function OutRange(outVar: Var): int { outVar.portEnd - outVar.portStart + 1 }
  function DelayRange(outVar: Var): int { outVar.delayEnd - outVar.delayStart + 1 }
  function InRange(inVar: Var): int { inVar.portEnd - inVar.portStart + 1 }

  /** The two asserts of a `->` statement: the delay range is one delay or
      one per input port, and the output range is one port or one per input
      port. */
  predicate RangesAgree(outVar: Var, inVar: Var) {
    && (DelayRange(outVar) == 1 || InRange(inVar) == DelayRange(outVar))
    && (OutRange(outVar) == InRange(inVar) || OutRange(outVar) == 1)
  }

  /** One edge of a `->` statement: ports at both ends and its delay. */
  datatype EdgeSpec = EdgeSpec(outPort: int, inPort: int, delay: int)

  /** Some edge ends at input port `p`. */
  predicate HasEdgeInto(edges: seq<EdgeSpec>, p: int) {
    exists k :: 0 <= k < |edges| && edges[k].inPort == p
  }

  /** The edges of `outVar -> inVar`: every input port of the range gets
      exactly one edge; a single output port fans out, otherwise ports pair
      up in order; a single delay is shared, otherwise delays step by one. */
  method ExpandConnection(outVar: Var, inVar: Var) returns (r: Result<seq<EdgeSpec>>)
    requires WellFormedVar(outVar) && WellFormedVar(inVar)
    ensures r.Success? <==> RangesAgree(outVar, inVar)
    ensures r.Success? ==> |r.value| == InRange(inVar)
    ensures r.Success? ==> forall p :: inVar.portStart <= p <= inVar.portEnd ==> HasEdgeInto(r.value, p)
    ensures r.Success? ==> forall k, k' :: 0 <= k < k' < |r.value| ==> r.value[k].inPort != r.value[k'].inPort
    ensures r.Success? ==> forall e :: e in r.value ==>
      && inVar.portStart <= e.inPort <= inVar.portEnd
      && outVar.portStart <= e.outPort <= outVar.portEnd
      && outVar.delayStart <= -e.delay <= outVar.delayEnd
      && (OutRange(outVar) == 1 ==> e.outPort == outVar.portStart)
      && (OutRange(outVar) != 1 ==> e.outPort - outVar.portStart == e.inPort - inVar.portStart)
      && (DelayRange(outVar) == 1 ==> e.delay == -outVar.delayStart)
      && (DelayRange(outVar) != 1 ==> -e.delay - outVar.delayStart == e.inPort - inVar.portStart)
  {
    var outRange := outVar.portEnd - outVar.portStart + 1;
    var delayRange := outVar.delayEnd - outVar.delayStart + 1;
    var inRange := inVar.portEnd - inVar.portStart + 1;
    if delayRange != 1 && inRange != delayRange {
      return Failure("delay range does not match the port range");
    }
    if !(outRange == inRange || outRange == 1) {
      return Failure("output range does not match the input range");
    }
    var delayDelta := if delayRange == 1 then 0 else 1;
    var edges: seq<EdgeSpec> := [];
    for i := 0 to inRange
      invariant |edges| == i
      invariant forall k :: 0 <= k < i ==>
        edges[k] == EdgeSpec(if outRange == 1 then outVar.portStart else outVar.portStart + k, inVar.portStart + k,
                             -(outVar.delayStart + delayDelta * k))
    {
      if outRange == 1 {
        edges := edges + [EdgeSpec(outVar.portStart, inVar.portStart + i, -(outVar.delayStart + delayDelta * i))];
      } else {
        edges := edges + [EdgeSpec(outVar.portStart + i, inVar.portStart + i, -(outVar.delayStart + delayDelta * i))];
      }
    }
    forall p | inVar.portStart <= p <= inVar.portEnd
      ensures HasEdgeInto(edges, p)
    {
      assert edges[p - inVar.portStart].inPort == p;
    }
    return Success(edges);
  }

  /** The edges of a `->` statement added to the circuit with
      `ConnectUnits` and their delay set, in order. */
  function AddEdges(accel: Accelerator, from: Instance, to: Instance, specs: seq<EdgeSpec>): (r: Result<Accelerator>)
    ensures r.Success? ==> r.value.instances == accel.instances && r.value.output == accel.output
    ensures r.Success? ==> |r.value.edges| == |accel.edges| + |specs| && r.value.edges[..|accel.edges|] == accel.edges
    ensures r.Success? ==> forall k :: 0 <= k < |specs| ==>
      r.value.edges[|accel.edges| + k] ==
        Edge(PortInstance(from, specs[k].outPort), PortInstance(to, specs[k].inPort), specs[k].delay)
    decreases |specs|
  {
    if |specs| == 0 then Success(accel)
    else
      var e := specs[0];
      match VersatCore.ConnectUnitsWithDelay(accel, from, e.outPort, to, e.inPort, e.delay)
      case Failure(why) => Failure(why)
      case Success(next) =>
        var r := AddEdges(next, from, to, specs[1..]);
        if r.Success? then
          assert r.value.edges[..|accel.edges|] == next.edges[..|next.edges|][..|accel.edges|];
          assert forall k :: 1 <= k < |specs| ==> specs[1..][k - 1] == specs[k];
          r
        else r
  }

  // ---------------------------------------------------------------------
  // Output sizing

  /** The module's output count, whether its output instance exists, and
      how many times that instance was created. */
  datatype OutputState = OutputState(nOutputs: int, hasOutput: bool, creations: nat)

  /** A `->` statement into `out`: the output count covers its port range,
      and the output instance is created if it does not exist yet. */
  function ConnectToOut(s: OutputState, inVar: Var): (r: OutputState)
    ensures r.hasOutput && r.nOutputs > inVar.portEnd && r.nOutputs >= s.nOutputs
    ensures r.nOutputs == s.nOutputs || r.nOutputs == inVar.portEnd + 1
    ensures r.creations == s.creations + (if s.hasOutput then 0 else 1)
  {
    OutputState(Maxi(s.nOutputs - 1, inVar.portEnd) + 1, true, if s.hasOutput then s.creations else s.creations + 1)
  }

  /** The output state after the `->` statements whose targets are
      `targets`, in order, starting from a module with no outputs. */
  function OutputsAfter(targets: seq<Var>): (s: OutputState)
    ensures s.creations == (if s.hasOutput then 1 else 0)
    ensures s.hasOutput <==> exists k :: 0 <= k < |targets| && targets[k].name == "out"
    ensures s.nOutputs >= 0
    ensures forall k :: 0 <= k < |targets| && targets[k].name == "out" ==> targets[k].portEnd < s.nOutputs
    ensures s.nOutputs > 0 ==> exists k :: 0 <= k < |targets| && targets[k].name == "out" && targets[k].portEnd == s.nOutputs - 1
  {
    if |targets| == 0 then OutputState(0, false, 0)
    else
      var before := OutputsAfter(targets[..|targets| - 1]);
      var inVar := targets[|targets| - 1];
      assert forall k :: 0 <= k < |targets| - 1 ==> targets[..|targets| - 1][k] == targets[k];
      if inVar.name == "out" then ConnectToOut(before, inVar) else before
  }

  // ---------------------------------------------------------------------
  // ParseExpression

  /** The unit type a binary operator instantiates. */
  function OperatorType(op: string): (r: Result<string>)
    ensures r.Failure? <==> op !in {"&", "|", "^", ">>>", ">>", "<<<", "<<", "+"}
  {
    if op == "&" then Success("AND")
    else if op == "|" then Success("OR")
    else if op == "^" then Success("XOR")
    else if op == ">>>" then Success("RHR")
    else if op == ">>" then Success("SHR")
    else if op == "<<<" then Success("RHL")
    else if op == "<<" then Success("SHL")
    else if op == "+" then Success("ADD")
    else Failure("unknown operator")
  }

  /** The operator written for each binary unit type. */
  function TypeOperator(typeName: string): Option<string> {
    match typeName
    case "AND" => Some("&")
    case "OR" => Some("|")
    case "XOR" => Some("^")
    case "RHR" => Some(">>>")
    case "SHR" => Some(">>")
    case "RHL" => Some("<<<")
    case "SHL" => Some("<<")
    case "ADD" => Some("+")
    case _ => None
  }

  /** Operators and unit types correspond one to one. */
  lemma OperatorTypeInverse(op: string, typeName: string)
    ensures OperatorType(op) == Success(typeName) <==> TypeOperator(typeName) == Some(op)
  {
  }

  /** What an expression statement yields. */
  datatype ExpressionUnit =
    | Existing(inst: Instance)
    | Binary(typeName: string, left: PortInstance, right: PortInstance)

  /** `ParseExpression` after its terms are read: a lone term followed by
      `;` is that term's instance; otherwise a new unit of the operator's
      type takes the first term on port 0 and the second on port 1. */
  function Expression(term1: PortInstance, op: string, term2: PortInstance): (r: Result<ExpressionUnit>)
    ensures op == ";" ==> r == Success(Existing(term1.inst))
    ensures op != ";" ==> (r.Success? <==> OperatorType(op).Success?)
    ensures r.Success? && r.value.Binary? ==>
      TypeOperator(r.value.typeName) == Some(op) && r.value.left == term1 && r.value.right == term2
  {
    if op == ";" then Success(Existing(term1.inst))
    else
      match OperatorType(op)
      case Failure(why) => Failure(why)
      case Success(typeName) =>
        OperatorTypeInverse(op, typeName);
        Success(Binary(typeName, term1, term2))
  }
}

=== FILE: tokens.dfy ===
/** Token streams shared by the two parsers.

    The tokenizer itself is not part of this model: a token stream is a
    `seq<string>` and peeking past its end yields the empty token.
 */
module Tokens {

  /** `PeekToken`: the next token, or the empty token at the end. */
  function Peek(ts: seq<string>): (t: string)
    ensures |ts| > 0 ==> t == ts[0]
    ensures |ts| == 0 ==> t == ""
  {
    if |ts| == 0 then "" else ts[0]
  }
}

=== FILE: utils_common.dfy ===
/** Integer and string helpers of `utilsCommon.cpp`.

    C `int` arithmetic is modelled on unbounded integers: an operation whose
    C result would overflow, which is undefined, fails instead, and C's
    truncating `/` and `%` are written out (Dafny's are Euclidean).
 */
module UtilsCommon {
  import opened Wrappers

  const INT_MIN: int := -0x8000_0000
  const INT_MAX: int := 0x7FFF_FFFF

  predicate IsInt32(x: int) {
    INT_MIN <= x <= INT_MAX
  }

  /** 2^n */
  function Pow2(n: nat): (r: nat)
    ensures r >= 1
  {
    if n == 0 then 1 else 2 * Pow2(n - 1)
  }

  /** 10^n */
  function Pow10(n: nat): (r: nat)
    ensures r >= 1
  {
    if n == 0 then 1 else 10 * Pow10(n - 1)
  }

  /** 2^(a+b) = 2^a * 2^b */
  lemma {:induction false} Pow2Add(a: nat, b: nat)
    ensures Pow2(a + b) == Pow2(a) * Pow2(b)
  {
    if b > 0 {
      Pow2Add(a, b - 1);
      assert Pow2(a + b) == 2 * Pow2(a + b - 1);
    }
  }

  lemma {:induction false} Pow2Monotonic(a: nat, b: nat)
    requires a <= b
    ensures Pow2(a) <= Pow2(b)
  {
    if a < b {
      Pow2Monotonic(a, b - 1);
    }
  }

  lemma Pow2Thirty()
    ensures Pow2(30) == 0x4000_0000
  {
    assert Pow2(10) == 1024;
    Pow2Add(10, 10);
    Pow2Add(20, 10);
  }

  lemma {:induction false} Pow2StrictlyMonotonic(a: nat, b: nat)
    requires a < b
    ensures Pow2(a) < Pow2(b)
  {
    if a < b - 1 {
      Pow2StrictlyMonotonic(a, b - 1);
    }
  }

  /** C's `/`: the quotient truncated toward zero. */
  function CDiv(a: int, b: int): (q: int)
    requires b != 0
  {
    if a >= 0 then
      if b > 0 then a / b else -(a / -b)
    else
      if b > 0 then -(-a / b) else -a / -b
  }

  /** C's `%`: the remainder takes the sign of the dividend. */
  function CRem(a: int, b: int): (r: int)
    requires b != 0
  {
    a - b * CDiv(a, b)
  }

  /** The truncated quotient leaves a remainder smaller than the divisor
      and of the dividend's sign. */
  lemma CDivTruncates(a: int, b: int)
    requires b != 0
    ensures a == b * CDiv(a, b) + CRem(a, b)
    ensures Abs(CRem(a, b)) < Abs(b)
    ensures a >= 0 ==> CRem(a, b) >= 0
    ensures a <= 0 ==> CRem(a, b) <= 0
  {
    var r := CRemMagnitude(a, b);
    if a >= 0 {
      assert CRem(a, b) == r;
    } else {
      assert CRem(a, b) == -r;
    }
  }

  /** The magnitude of `CRem(a, b)` is the Euclidean remainder of the
      magnitudes. */
  lemma CRemMagnitude(a: int, b: int) returns (r: int)
    requires b != 0
    ensures 0 <= r < Abs(b)
    ensures CRem(a, b) == if a >= 0 then r else -r
  {
    var d: int := Abs(b);
    var x: int := Abs(a);
    var q: int := x / d;
    r := x % d;
    assert x == d * q + r;
    NegatedProducts(d, q);
    if a >= 0 && b > 0 {
    } else if a >= 0 {
      assert CDiv(a, b) == -q;
    } else if b > 0 {
      assert CDiv(a, b) == -q;
    } else {
      assert CDiv(a, b) == q;
    }
  }

  lemma NegatedProducts(d: int, q: int)
    ensures (-d) * (-q) == d * q && (-d) * q == -(d * q) && d * (-q) == -(d * q)
  {
  }

  function Abs(x: int): (r: nat)
    ensures r == x || r == -x
  {
    if x < 0 then -x else x
  }

  /** `mini` */
  function Mini(a1: int, a2: int): (r: int)
    ensures r <= a1 && r <= a2
    ensures r == a1 || r == a2
  {
    if a1 < a2 then a1 else a2
  }

  /** `maxi` */
  function Maxi(a1: int, a2: int): (r: int)
    ensures r >= a1 && r >= a2
    ensures r == a1 || r == a2
  {
    if a1 > a2 then a1 else a2
  }

  /** `RoundUpDiv`: the quotient, plus one when the C remainder is not zero.
      For a non-negative dividend and a positive divisor this is the ceiling. */
  function RoundUpDiv(dividend: int, divisor: int): (r: int)
    requires divisor != 0
    ensures dividend >= 0 && divisor > 0 ==> (r - 1) * divisor < dividend <= r * divisor
  {
    var d := CDiv(dividend, divisor);
    if CRem(dividend, divisor) == 0 then d else d + 1
  }

  /** `log2i`: the number of bits needed to index `value` slots. */
  method Log2i(value: int) returns (r: int)
    ensures value <= 0 ==> r == 0
    ensures value == 1 ==> r == 1
    ensures value >= 2 ==> r >= 1 && Pow2(r - 1) < value <= Pow2(r)
  {
    var res := 0;
    if value <= 0 {
      return 0;
    }
    var v := value - 1;
    while v > 1
      invariant res >= 0
      invariant v >= 0
      invariant value >= 2 ==> v >= 1
      invariant v == (value - 1) / Pow2(res)
      invariant value <= 2 ==> res == 0
      decreases v
    {
      DivTwice(value - 1, Pow2(res));
      v := v / 2;
      res := res + 1;
    }
    if value >= 2 {
      // v == 1 now: Pow2(res) <= value - 1 < 2 * Pow2(res)
      DivBounds(value - 1, Pow2(res));
    }
    r := res + 1;
  }

  /** Division is determined by any quotient/remainder decomposition. */
  lemma DivUnique(x: int, d: int, q: int, r: int)
    requires d > 0 && 0 <= r < d && x == q * d + r
    ensures x / d == q
  {
    var q' := x / d;
    var r' := x % d;
    assert x == q' * d + r';
    MulAtLeast(q - q' - 1, d);
    MulAtLeast(q' - q - 1, d);
  }

  /** Distributes the product so that the uniqueness argument stays linear. */
  lemma MulAtLeast(a: int, d: int)
    requires d > 0
    ensures a >= 0 ==> (a + 1) * d >= d
    ensures a * d + d == (a + 1) * d
  {
  }

  lemma DivTwice(x: int, d: int)
    requires x >= 0 && d > 0
    ensures x / d / 2 == x / (2 * d)
  {
    var q := x / d;
    var r := x % d;
    var q2 := q / 2;
    var r2 := q % 2;
    assert q == 2 * q2 + r2 && x == q * d + r;
    MulSplit(2, q2, r2, d);
    MulBelow(r2, 1, d);
    DivUnique(x, 2 * d, q2, r2 * d + r);
  }

  lemma DivBounds(x: int, d: int)
    requires x >= 0 && d > 0 && x / d == 1
    ensures d <= x < 2 * d
  {
  }

  /** Powers of two. */
  ghost predicate IsPow2(x: int) {
    exists k: nat :: x == Pow2(k)
  }

  /** `AlignNextPower2`: 0 for non-positive values, otherwise the least power
      of two not below `val`. Above 2^30 the doubling overflows `int`, which
      is undefined (a failure here). */
  method AlignNextPower2(val: int) returns (r: Result<int>)
    requires IsInt32(val)
    ensures r.Success? <==> val <= 0x4000_0000
    ensures r.Success? && val <= 0 ==> r.value == 0
    ensures r.Success? && val > 0 ==> IsPow2(r.value) && r.value >= val && (r.value == 1 || r.value / 2 < val)
  {
    if val <= 0 {
      return Success(0);
    }
    Pow2Thirty();
    var res := 1;
    ghost var k: nat := 0;
    while res < val
      invariant res == Pow2(k) && k <= 30
      invariant res == 1 || res / 2 < val
      decreases val - res
    {
      if res == 0x4000_0000 {
        return Failure("int overflow in AlignNextPower2");
      }
      res := res * 2;
      k := k + 1;
    }
    Pow2Monotonic(k, 30);
    r := Success(res);
  }

  /** The number of decimal digits of `n`, with 0 having none. */
  ghost predicate HasDigits(n: nat, d: nat) {
    if n == 0 then d == 0 else d >= 1 && Pow10(d - 1) <= n < Pow10(d)
  }

  /** `NumberDigitsRepresentation`: one character for a minus sign plus the
      decimal digits of the magnitude. Negating `INT_MIN` overflows, which is
      undefined (a failure here). */
  method NumberDigitsRepresentation(number: int) returns (r: Result<int>)
    requires IsInt32(number)
    ensures r.Success? <==> number != INT_MIN
    ensures r.Success? ==>
            var sign := if number < 0 then 1 else 0;
            var magnitude := if number < 0 then -number else number;
            r.value - sign >= 0 && HasDigits(magnitude, r.value - sign)
  {
    var nDigits := 0;
    var num := number;
    if num < 0 {
      if num == INT_MIN {
        return Failure("int overflow negating INT_MIN");
      }
      nDigits := nDigits + 1;
      num := num * -1;
    }
    ghost var sign := nDigits;
    ghost var magnitude := num;
    ghost var k: nat := 0;
    while num > 0
      invariant num >= 0
      invariant num == magnitude / Pow10(k)
      invariant nDigits == sign + k
      invariant k > 0 ==> Pow10(k - 1) <= magnitude
      decreases num
    {
      DivTen(magnitude, Pow10(k));
      num := num / 10;
      nDigits := nDigits + 1;
      k := k + 1;
    }
    DivZero(magnitude, Pow10(k));
    r := Success(nDigits);
  }

  lemma DivTen(x: int, d: int)
    requires x >= 0 && d > 0 && x / d > 0
    ensures x / d / 10 == x / (10 * d) && d <= x
  {
    var q := x / d;
    var r := x % d;
    var q2 := q / 10;
    var r2 := q % 10;
    assert x == q * d + r;
    MulSplit(10, q2, r2, d);
    MulBelow(r2, 9, d);
    DivUnique(x, 10 * d, q2, r2 * d + r);
    MulAtLeast(q - 1, d);
  }

  lemma MulSplit(base: int, q2: int, r2: int, d: int)
    ensures (base * q2 + r2) * d == q2 * (base * d) + r2 * d
  {
  }

  lemma MulBelow(a: int, b: int, d: int)
    requires 0 <= a <= b && d > 0
    ensures 0 <= a * d <= b * d
  {
  }

  lemma DivZero(x: int, d: int)
    requires x >= 0 && d > 0 && x / d == 0
    ensures x < d
  {
  }

  /** `CompareString` on sized strings: equal sizes and equal characters. */
  method CompareString(str1: string, str2: string) returns (r: bool)
    ensures r <==> str1 == str2
  {
    if |str1| != |str2| {
      return false;
    }
    var i := 0;
    while i < |str1|
      invariant 0 <= i <= |str1|
      invariant str1[..i] == str2[..i]
    {
      if str1[i] != str2[i] {
        return false;
      }
      i := i + 1;
    }
    assert str1 == str1[..i];
    return true;
  }

  const LOWER_BUT_Z: string := "abcdefghijklmnopqrstuvwxy"
  const UPPER: string := "ABCDEFGHIJKLMNOPQRSTUVWXYZ"
  const DIGITS: string := "0123456789"

  /** `IsAlpha`: the lower-case test is `ch < 'z'`, so 'z' is rejected. */
  function IsAlpha(ch: char): (r: bool)
    ensures r <==> ch in LOWER_BUT_Z || ch in UPPER || ch in DIGITS
  {
    InRange(ch, 'a', LOWER_BUT_Z);
    InRange(ch, 'A', UPPER);
    InRange(ch, '0', DIGITS);
    ('a' <= ch < 'z') || ('A' <= ch <= 'Z') || ('0' <= ch <= '9')
  }

  /** A run of consecutive characters starting at `first`. */
  lemma InRange(ch: char, first: char, run: string)
    requires forall i :: 0 <= i < |run| ==> run[i] as int == first as int + i
    ensures ch in run <==> first as int <= ch as int < first as int + |run|
  {
    if first as int <= ch as int < first as int + |run| {
      assert run[ch as int - first as int] == ch;
    }
  }

  /** `SeedRandomNumber`: a zero seed would make xorshift stick at 0. */
  function SeedRandomNumber(val: bv32): (seed: bv32)
    ensures seed != 0
    ensures val != 0 ==> seed == val
  {
    if val == 0 then 1 else val
  }

  /** `GetRandomNumber`: one xorshift (13, 17, 5) step; the new seed is also
      the number returned. Each step is invertible, so distinct seeds give
      distinct numbers and a non-zero seed never reaches the stuck state 0. */
  function GetRandomNumber(seed: bv32): (next: bv32)
    ensures UndoRandomNumber(next) == seed
    ensures seed != 0 ==> next != 0
  {
    var s1 := seed ^ (seed << 13);
    var s2 := s1 ^ (s1 >> 17);
    XorshiftUndone(seed, s1, s2);
    UndoZero();
    s2 ^ (s2 << 5)
  }

  /** Undoes one `GetRandomNumber` step, stage by stage in reverse. */
  function UndoRandomNumber(next: bv32): (seed: bv32)
  {
    UndoLeft13(UndoRight17(UndoLeft5(next)))
  }

  function UndoLeft5(y: bv32): bv32 {
    y ^ (y << 5) ^ (y << 10) ^ (y << 15) ^ (y << 20) ^ (y << 25) ^ (y << 30)
  }

  function UndoRight17(y: bv32): bv32 {
    y ^ (y >> 17)
  }

  function UndoLeft13(y: bv32): bv32 {
    y ^ (y << 13) ^ (y << 26)
  }

  /** The three xorshift stages are undone in reverse order. */
  lemma XorshiftUndone(seed: bv32, s1: bv32, s2: bv32)
    requires s1 == seed ^ (seed << 13) && s2 == s1 ^ (s1 >> 17)
    ensures UndoRandomNumber(s2 ^ (s2 << 5)) == seed
  {
    UndoShiftLeft5(s2);
    UndoShiftRight17(s1);
    UndoShiftLeft13(seed);
  }

  lemma UndoZero()
    ensures UndoRandomNumber(0) == 0
  {
  }

  lemma UndoShiftLeft13(x: bv32)
    ensures UndoLeft13(x ^ (x << 13)) == x
  {
  }

  lemma UndoShiftRight17(x: bv32)
    ensures UndoRight17(x ^ (x >> 17)) == x
  {
  }

  lemma UndoShiftLeft5(x: bv32)
    ensures UndoLeft5(x ^ (x << 5)) == x
  {
  }
}

=== FILE: verilog.dfy ===
/** The constant-expression side of `verilogParser.cpp`: the evaluator of
    parameter expressions, the branch decision of the conditional-compile
    directives, module parameter lists and `[high:low]` ranges.

    Tokens are strings (see `Tokens`); `ParseInt` and the full expression
    parser are parameters. An `Assert` of the source, a division by zero
    and a signed 32-bit overflow (undefined behaviour in C++) become
    `Failure`.
 */
module VerilogParser {
  import opened Wrappers
  import opened UtilsCommon
  import opened Tokens

  // ---------------------------------------------------------------------
  // Values and expressions

  /** A `Value` read as a number (`MakeValue(int)`) or as a text
      (`MakeValue(SizedString)`). */
  datatype Value = Value(number: int, text: string)

  function NumberValue(n: int): Value {
    Value(n, "")
  }

  function TextValue(s: string): Value {
    Value(0, s)
  }

  /** What `ValueMap::operator[]` inserts for a missing name. */
  const DefaultValue: Value := Value(0, "")

  type ValueMap = map<string, Value>

  datatype Expression =
    | Literal(val: Value)
    | Identifier(id: string)
    | Operation(op: string, left: Expression, right: Expression)

  /** The value `operator[]` reads, whether or not the name was present. */
  function Lookup(values: ValueMap, id: string): Value {
    if id in values then values[id] else DefaultValue
  }

  /** The names an expression reads. */
  function Identifiers(e: Expression): set<string> {
    match e
    case Literal(_) => {}
    case Identifier(id) => {id}
    case Operation(_, left, right) => Identifiers(left) + Identifiers(right)
  }

  /** `after` is `before` with some missing names bound to the default
      value: what a sequence of `operator[]` reads leaves behind. */
  predicate ExtendsWithDefaults(before: ValueMap, after: ValueMap) {
    && (forall k :: k in before ==> k in after && after[k] == before[k])
    && (forall k :: k in after && k !in before ==> after[k] == DefaultValue)
  }

  lemma ExtendsTransitive(a: ValueMap, b: ValueMap, c: ValueMap)
    requires ExtendsWithDefaults(a, b) && ExtendsWithDefaults(b, c)
    ensures ExtendsWithDefaults(a, c)
  {
  }

  /** Binding missing names to the default changes no lookup. */
  lemma ExtendsKeepsLookups(before: ValueMap, after: ValueMap, id: string)
    requires ExtendsWithDefaults(before, after)
    ensures Lookup(after, id) == Lookup(before, id)
  {
  }

  // ---------------------------------------------------------------------
  // Eval

  /** The `switch(expr->op[0])` of an operation node, on 32-bit `int`s. */
  function Apply(op: string, a: int, b: int): (r: Result<int>)
    ensures r.Success? ==> |op| > 0 && op[0] in "+-*/" && IsInt32(r.value)
    ensures r.Success? && op[0] == '+' ==> r.value == a + b
    ensures r.Success? && op[0] == '-' ==> r.value == a - b
    ensures r.Success? && op[0] == '*' ==> r.value == a * b
    ensures |op| > 0 && op[0] == '/' && b == 0 ==> r.Failure?
    ensures |op| > 0 && op[0] == '/' && b != 0 && r.Success? ==>
      a == b * r.value + CRem(a, b) && Abs(CRem(a, b)) < Abs(b) && (a >= 0 ==> CRem(a, b) >= 0) && (a <= 0 ==> CRem(a, b) <= 0)
  {
    if |op| == 0 then Failure("empty operator")
    else
      var exact :- (
        match op[0]
        case '+' => Success(a + b)
        case '-' => Success(a - b)
        case '*' => Success(a * b)
        case '/' => if b == 0 then Failure("division by zero") else CDivTruncates(a, b); Success(CDiv(a, b))
        case _ => Failure("unknown operator"));
      if IsInt32(exact) then Success(exact) else Failure("integer overflow")
  }

  /** An operator succeeds exactly when its mathematical result exists and
      fits in an `int`. */
  lemma ApplySucceeds(op: string, a: int, b: int)
    requires |op| > 0
    ensures op[0] == '+' ==> (Apply(op, a, b).Success? <==> IsInt32(a + b))
    ensures op[0] == '-' ==> (Apply(op, a, b).Success? <==> IsInt32(a - b))
    ensures op[0] == '*' ==> (Apply(op, a, b).Success? <==> IsInt32(a * b))
    ensures op[0] == '/' ==> (Apply(op, a, b).Success? <==> b != 0 && IsInt32(CDiv(a, b)))
    ensures op[0] == '/' && Apply(op, a, b).Success? ==> Apply(op, a, b).value == CDiv(a, b)
    ensures op[0] !in "+-*/" ==> Apply(op, a, b).Failure?
  {
  }

  /** The result of an evaluation: the value and the map after it. */
  datatype Evaluated = Evaluated(value: Value, values: ValueMap)

  /** `Eval`: left operand, then right operand, then the operator; an
      identifier is read through `operator[]`, which binds a missing name to
      the default value in the map it threads on. */
  function Eval(e: Expression, values: ValueMap): (r: Result<Evaluated>)
    ensures r.Success? ==> ExtendsWithDefaults(values, r.value.values)
  {
    match e
    case Literal(v) => Success(Evaluated(v, values))
    case Identifier(id) =>
      var v := Lookup(values, id);
      Success(Evaluated(v, values[id := v]))
    case Operation(op, left, right) =>
      var l :- Eval(left, values);
      var r :- Eval(right, l.values);
      ExtendsTransitive(values, l.values, r.values);
      var n :- Apply(op, l.value.number, r.value.number);
      Success(Evaluated(NumberValue(n), r.values))
  }

  /** The value of an expression as a pure function of the map, with no
      map threaded through: the reference `Eval` is compared with. */
  function Meaning(e: Expression, values: ValueMap): (r: Result<Value>)
    ensures r.Success? && e.Operation? ==> r.value.text == ""
  {
    match e
    case Literal(v) => Success(v)
    case Identifier(id) => Success(Lookup(values, id))
    case Operation(op, left, right) =>
      var l :- Meaning(left, values);
      var r :- Meaning(right, values);
      var n :- Apply(op, l.number, r.number);
      Success(NumberValue(n))
  }

  lemma {:induction false} MeaningUnderDefaults(e: Expression, before: ValueMap, after: ValueMap)
    requires ExtendsWithDefaults(before, after)
    ensures Meaning(e, after) == Meaning(e, before)
  {
    match e
    case Literal(_) =>
    case Identifier(id) => ExtendsKeepsLookups(before, after, id);
    case Operation(_, left, right) =>
      MeaningUnderDefaults(left, before, after);
      MeaningUnderDefaults(right, before, after);
  }

  /** `Eval` computes `Meaning`, fails exactly when it does, and on success
      adds exactly the expression's unknown names to the map. */
  lemma {:induction false} EvalMeaning(e: Expression, values: ValueMap)
    ensures Eval(e, values).Success? <==> Meaning(e, values).Success?
    ensures Eval(e, values).Success? ==>
      && Eval(e, values).value.value == Meaning(e, values).value
      && Eval(e, values).value.values.Keys == values.Keys + Identifiers(e)
  {
    match e
    case Literal(_) =>
    case Identifier(_) =>
    case Operation(op, left, right) =>
      EvalMeaning(left, values);
      var l := Eval(left, values);
      if l.Success? {
        EvalMeaning(right, l.value.values);
        MeaningUnderDefaults(right, values, l.value.values);
      }
  }

  /** Evaluating again in the map an evaluation left behind changes
      nothing: every name it reads is now present. */
  lemma EvalStable(e: Expression, values: ValueMap)
    requires Eval(e, values).Success?
    ensures Eval(e, Eval(e, values).value.values) == Eval(e, values)
  {
    var first := Eval(e, values).value;
    EvalMeaning(e, values);
    EvalMeaning(e, first.values);
    MeaningUnderDefaults(e, values, first.values);
    var second := Eval(e, first.values).value;
    assert second.values.Keys == first.values.Keys;
    assert second.values == first.values;
  }

  // ---------------------------------------------------------------------
  // Conditional compilation

  /** The branch decision of `DoIfStatement`: `ifdef` and `elsif` take the
      first branch when the macro is defined, `ifndef` when it is not; any
      other directive asserts. */
  function IfTaken(directive: string, macroName: string, macros: map<string, string>): (r: Result<bool>)
    ensures r.Success? <==> directive in ["`ifdef", "`elsif", "`ifndef"]
  {
    var compareVal :-
      if directive == "`ifdef" || directive == "`elsif" then Success(true)
      else if directive == "`ifndef" then Success(false)
      else Failure("not a conditional directive");
    Success(compareVal == (macroName in macros))
  }

  /** Exactly one of `ifdef name` and `ifndef name` takes its first branch,
      and `elsif` decides as `ifdef` does. */
  lemma IfdefIfndefComplementary(macroName: string, macros: map<string, string>)
    ensures IfTaken("`ifdef", macroName, macros) == Success(macroName in macros)
    ensures IfTaken("`ifndef", macroName, macros) == Success(macroName !in macros)
    ensures IfTaken("`elsif", macroName, macros) == IfTaken("`ifdef", macroName, macros)
  {
  }

  // ---------------------------------------------------------------------
  // ParseAtom

  predicate IsNum(ch: char) {
    '0' <= ch <= '9'
  }

  /** `ParseAtom`: a number literal, a string literal between `"` tokens, or
      a name. The characters of a string literal are taken as one token. */
  function ParseAtom(ts: seq<string>, parseInt: string -> int): (r: Result<(Expression, seq<string>)>)
    ensures r.Success? ==> |ts| > 0 && |ts[0]| > 0 && |r.value.1| < |ts| && r.value.1 == ts[|ts| - |r.value.1|..]
    ensures r.Success? ==> !r.value.0.Operation?
    ensures r.Success? && IsNum(ts[0][0]) ==> r.value == (Literal(NumberValue(parseInt(ts[0]))), ts[1..])
    ensures r.Success? && r.value.0.Identifier? ==> r.value == (Identifier(ts[0]), ts[1..])
  {
    if |ts| == 0 || |ts[0]| == 0 then Failure("unexpected end of tokens")
    else if IsNum(ts[0][0]) then Success((Literal(NumberValue(parseInt(ts[0]))), ts[1..]))
    else if ts[0][0] == '"' then
      if Peek(ts[1..]) == "\"" then Success((Literal(TextValue("")), ts[2..]))
      else if |ts| < 3 || ts[2] != "\"" then Failure("expected \"")
      else Success((Literal(TextValue(ts[1])), ts[3..]))
    else Success((Identifier(ts[0]), ts[1..]))
  }

  /** The tokens an atom is written as. */
  function AtomTokens(e: Expression, show: int -> string): seq<string>
    requires !e.Operation?
  {
    match e
    case Identifier(id) => [id]
    case Literal(v) =>
      if v.text == "" then [show(v.number)]
      else ["\"", v.text, "\""]
  }

  /** Which atoms can be written at all: a name that does not look like a
      number or a string, a non-negative number, or a text that is not a
      lone quote. */
  predicate Writable(e: Expression, show: int -> string) {
    match e
    case Identifier(id) => |id| > 0 && !IsNum(id[0]) && id[0] != '"'
    case Literal(v) =>
      if v.text == "" then v.number >= 0 && |show(v.number)| > 0 && IsNum(show(v.number)[0])
      else v.number == 0 && v.text != "\""
    case Operation(_, _, _) => false
  }

  /** Reading a written atom gives it back and leaves the rest. */
  lemma ParseAtomRoundTrip(e: Expression, rest: seq<string>, parseInt: string -> int, show: int -> string)
    requires Writable(e, show)
    requires forall n :: n >= 0 ==> parseInt(show(n)) == n
    ensures ParseAtom(AtomTokens(e, show) + rest, parseInt) == Success((e, rest))
  {
    var ts := AtomTokens(e, show) + rest;
    if e.Literal? && e.val.text != "" {
      assert ts[1..] == [e.val.text, "\""] + rest && ts[3..] == rest;
    } else {
      assert ts[1..] == rest;
    }
  }

  // ---------------------------------------------------------------------
  // ParseRange

  datatype Range = Range(high: int, low: int)

  /** What `ParseRange` leaves: the range, the tokens after it and the map. */
  datatype Ranged = Ranged(range: Range, rest: seq<string>, values: ValueMap)

  /** `ParseRange`: `[ high : low ]`, both evaluated in the running map, high
      first; no `[` gives `{0, 0}` and consumes nothing. */
  function ParseRange(ts: seq<string>, values: ValueMap, parseExpr: seq<string> -> Result<(Expression, seq<string>)>): (r: Result<Ranged>)
    ensures Peek(ts) != "[" ==> r == Success(Ranged(Range(0, 0), ts, values))
    ensures r.Success? ==> ExtendsWithDefaults(values, r.value.values)
  {
    if Peek(ts) != "[" then Success(Ranged(Range(0, 0), ts, values))
    else
      var (highExpr, afterHigh) :- parseExpr(ts[1..]);
      var high :- Eval(highExpr, values);
      if Peek(afterHigh) != ":" then Failure("expected :")
      else
        var (lowExpr, afterLow) :- parseExpr(afterHigh[1..]);
        var low :- Eval(lowExpr, high.values);
        if Peek(afterLow) != "]" then Failure("expected ]")
        else
          ExtendsTransitive(values, high.values, low.values);
          Success(Ranged(Range(high.value.number, low.value.number), afterLow[1..], low.values))
  }

  /** A bracketed range holds the meanings of its two expressions in the
      map it started from, and fails exactly when one of them does. */
  lemma ParseRangeMeaning(ts: seq<string>, values: ValueMap, parseExpr: seq<string> -> Result<(Expression, seq<string>)>,
                          high: Expression, afterHigh: seq<string>, low: Expression, afterLow: seq<string>)
    requires Peek(ts) == "["
    requires parseExpr(ts[1..]) == Success((high, afterHigh)) && Peek(afterHigh) == ":"
    requires parseExpr(afterHigh[1..]) == Success((low, afterLow)) && Peek(afterLow) == "]"
    ensures ParseRange(ts, values, parseExpr).Success? <==> Meaning(high, values).Success? && Meaning(low, values).Success?
    ensures ParseRange(ts, values, parseExpr).Success? ==>
      && ParseRange(ts, values, parseExpr).value.range == Range(Meaning(high, values).value.number, Meaning(low, values).value.number)
      && ParseRange(ts, values, parseExpr).value.rest == afterLow[1..]
  {
    EvalMeaning(high, values);
    var h := Eval(high, values);
    if h.Success? {
      EvalMeaning(low, h.value.values);
      MeaningUnderDefaults(low, values, h.value.values);
    }
  }

  // ---------------------------------------------------------------------
  // ParseParameters

  /** `rest` is what remains of `ts` after reading some of it. */
  predicate IsSuffix(rest: seq<string>, ts: seq<string>) {
    |rest| <= |ts| && rest == ts[|ts| - |rest|..]
  }

  lemma SuffixTransitive(a: seq<string>, b: seq<string>, c: seq<string>)
    requires IsSuffix(a, b) && IsSuffix(b, c)
    ensures IsSuffix(a, c)
  {
    assert c[|c| - |a|..] == c[|c| - |b|..][|b| - |a|..];
  }

  /** One `name = atom` entry: the name, its value, the map after evaluating
      the atom and the tokens after it. */
  datatype Assignment = Assignment(name: string, value: Value, values: ValueMap, rest: seq<string>)

  function ParseAssignment(ts: seq<string>, values: ValueMap, parseInt: string -> int): (r: Result<Assignment>)
    ensures |ts| == 0 ==> r.Failure?
    ensures r.Success? ==> IsSuffix(r.value.rest, ts) && |r.value.rest| < |ts| && r.value.name == ts[0]
    ensures r.Success? ==> ExtendsWithDefaults(values, r.value.values)
  {
    if |ts| == 0 || Peek(ts[1..]) != "=" then Failure("expected =")
    else
      var (atom, rest) :- ParseAtom(ts[2..], parseInt);
      var v :- Eval(atom, values);
      assert rest == ts[|ts| - |rest|..] by {
        assert ts[2..][|ts[2..]| - |rest|..] == ts[|ts| - |rest|..];
      }
      Success(Assignment(ts[0], v.value, v.values, rest))
  }

  /** What `ParseParameters` leaves: the parameters it read, the running map
      and the tokens after the list. */
  datatype ParamsResult = ParamsResult(parameters: ValueMap, values: ValueMap, rest: seq<string>)

  /** How a list ends: before a `)`, which stays, or after a `;`. */
  predicate EndsList(rest: seq<string>, ts: seq<string>)
    requires IsSuffix(rest, ts)
  {
    Peek(rest) == ")" || (|rest| < |ts| && ts[|ts| - |rest| - 1] == ";")
  }

  /** The loop of `ParseParameters` from a state: `parameter` and `,` are
      skipped, `)` ends the list and stays, `;` ends it and is consumed, and
      anything else is `name = atom`, evaluated and stored in both maps. */
  function ParseParametersFrom(ts: seq<string>, parameters: ValueMap, values: ValueMap, parseInt: string -> int): (r: Result<ParamsResult>)
    ensures r.Success? ==> IsSuffix(r.value.rest, ts) && EndsList(r.value.rest, ts)
    decreases |ts|
  {
    if |ts| == 0 then Failure("unexpected end of tokens")
    else if ts[0] == "parameter" || ts[0] == "," then
      var r := ParseParametersFrom(ts[1..], parameters, values, parseInt);
      if r.Success? then SuffixTransitive(r.value.rest, ts[1..], ts); r else r
    else if ts[0] == ")" then Success(ParamsResult(parameters, values, ts))
    else if ts[0] == ";" then Success(ParamsResult(parameters, values, ts[1..]))
    else
      var a :- ParseAssignment(ts, values, parseInt);
      var r := ParseParametersFrom(a.rest, parameters[a.name := a.value], a.values[a.name := a.value], parseInt);
      if r.Success? then SuffixTransitive(r.value.rest, a.rest, ts); r else r
  }

  /** `ParseParameters`: the list starting with no parameters. */
  function ParseParameters(ts: seq<string>, values: ValueMap, parseInt: string -> int): (r: Result<ParamsResult>)
    ensures r.Success? ==> values.Keys <= r.value.values.Keys
  {
    ParseParametersKeys(ts, map[], values, parseInt);
    ParseParametersFrom(ts, map[], values, parseInt)
  }

  /** The loop only adds names: both maps keep every key they start with. */
  lemma {:induction false} ParseParametersKeys(ts: seq<string>, parameters: ValueMap, values: ValueMap, parseInt: string -> int)
    ensures var r := ParseParametersFrom(ts, parameters, values, parseInt);
      r.Success? ==> parameters.Keys <= r.value.parameters.Keys && values.Keys <= r.value.values.Keys
    decreases |ts|
  {
    if |ts| == 0 {
    } else if ts[0] == "parameter" || ts[0] == "," {
      ParseParametersKeys(ts[1..], parameters, values, parseInt);
    } else if ts[0] != ")" && ts[0] != ";" {
      var a := ParseAssignment(ts, values, parseInt);
      if a.Success? {
        var x := a.value;
        ParseParametersKeys(x.rest, parameters[x.name := x.value], x.values[x.name := x.value], parseInt);
      }
    }
  }

  /** Every parameter also sits, with the same value, in the running map. */
  predicate Agree(parameters: ValueMap, values: ValueMap) {
    forall k :: k in parameters ==> k in values && values[k] == parameters[k]
  }

  lemma {:induction false} ParametersInValuesFrom(ts: seq<string>, parameters: ValueMap, values: ValueMap, parseInt: string -> int)
    requires Agree(parameters, values)
    requires ParseParametersFrom(ts, parameters, values, parseInt).Success?
    ensures Agree(ParseParametersFrom(ts, parameters, values, parseInt).value.parameters,
                  ParseParametersFrom(ts, parameters, values, parseInt).value.values)
    decreases |ts|
  {
    if ts[0] == "parameter" || ts[0] == "," {
      ParametersInValuesFrom(ts[1..], parameters, values, parseInt);
    } else if ts[0] != ")" && ts[0] != ";" {
      var a := ParseAssignment(ts, values, parseInt).value;
      ParametersInValuesFrom(a.rest, parameters[a.name := a.value], a.values[a.name := a.value], parseInt);
    }
  }

  /** Every parameter `ParseParameters` returns was also stored, with the
      same value, in the map the module goes on with. */
  lemma ParametersInValues(ts: seq<string>, values: ValueMap, parseInt: string -> int)
    requires ParseParameters(ts, values, parseInt).Success?
    ensures Agree(ParseParameters(ts, values, parseInt).value.parameters, ParseParameters(ts, values, parseInt).value.values)
  {
    ParametersInValuesFrom(ts, map[], values, parseInt);
  }

  /** The loop steps over a `name = atom` entry. */
  lemma AssignmentStep(ts: seq<string>, parameters: ValueMap, values: ValueMap, parseInt: string -> int, a: Assignment)
    requires |ts| > 0 && !IsListToken(ts[0])
    requires ParseAssignment(ts, values, parseInt) == Success(a)
    ensures ParseParametersFrom(ts, parameters, values, parseInt)
         == ParseParametersFrom(a.rest, parameters[a.name := a.value], a.values[a.name := a.value], parseInt)
  {
  }

  lemma UpdateTwice(m: ValueMap, k: string, v1: Value, v2: Value)
    ensures m[k := v1][k := v2] == m[k := v2]
  {
  }

  /** The entry `name = digits` binds the number the digits spell. */
  lemma NumberAssignment(ts: seq<string>, values: ValueMap, parseInt: string -> int)
    requires |ts| >= 3 && ts[1] == "=" && |ts[2]| > 0 && IsNum(ts[2][0])
    ensures ParseAssignment(ts, values, parseInt) == Success(Assignment(ts[0], NumberValue(parseInt(ts[2])), values, ts[3..]))
  {
    assert ts[2..][1..] == ts[3..];
  }

  /** The tokens the loop treats as punctuation rather than as a name. */
  predicate IsListToken(t: string) {
    t in ["parameter", ",", ")", ";"]
  }

  /** A later assignment to the same name overwrites the earlier one, in
      both maps, and the closing `)` is left for the caller:
      `name = d1 , name = d2 )`. */
  lemma LaterAssignmentWins(ts: seq<string>, values: ValueMap, parseInt: string -> int)
    requires |ts| >= 8 && !IsListToken(ts[0]) && ts[4] == ts[0]
    requires ts[1] == "=" && ts[3] == "," && ts[5] == "=" && ts[7] == ")"
    requires |ts[2]| > 0 && IsNum(ts[2][0]) && |ts[6]| > 0 && IsNum(ts[6][0])
    ensures ParseParameters(ts, values, parseInt)
         == Success(ParamsResult(map[ts[0] := NumberValue(parseInt(ts[6]))], values[ts[0] := NumberValue(parseInt(ts[6]))], ts[7..]))
  {
    var name, first, second := ts[0], NumberValue(parseInt(ts[2])), NumberValue(parseInt(ts[6]));
    NumberAssignment(ts, values, parseInt);
    AssignmentStep(ts, map[], values, parseInt, Assignment(name, first, values, ts[3..]));
    assert ts[3..][1..] == ts[4..] && ts[4..][3..] == ts[7..];
    NumberAssignment(ts[4..], values[name := first], parseInt);
    AssignmentStep(ts[4..], map[name := first], values[name := first], parseInt, Assignment(name, second, values[name := first], ts[7..]));
    UpdateTwice(values, name, first, second);
    UpdateTwice(map[], name, first, second);
  }

  /** A parameter defined from an earlier one reads the earlier value
      through the running map: `w = d , v = w ;`. */
  lemma ParameterReadsEarlierOne(ts: seq<string>, values: ValueMap, parseInt: string -> int)
    requires |ts| >= 8 && !IsListToken(ts[0]) && !IsListToken(ts[4]) && ts[6] == ts[0]
    requires ts[1] == "=" && ts[3] == "," && ts[5] == "=" && ts[7] == ";"
    requires |ts[2]| > 0 && IsNum(ts[2][0])
    requires |ts[0]| > 0 && !IsNum(ts[0][0]) && ts[0][0] != '"'
    ensures ParseParameters(ts, values, parseInt)
         == Success(ParamsResult(map[ts[0] := NumberValue(parseInt(ts[2])), ts[4] := NumberValue(parseInt(ts[2]))],
                                 values[ts[0] := NumberValue(parseInt(ts[2]))][ts[4] := NumberValue(parseInt(ts[2]))], ts[8..]))
  {
    var w, v, n := ts[0], ts[4], NumberValue(parseInt(ts[2]));
    var once := values[w := n];
    NumberAssignment(ts, values, parseInt);
    AssignmentStep(ts, map[], values, parseInt, Assignment(w, n, values, ts[3..]));
    assert ts[3..][1..] == ts[4..] && ts[4..][3..] == ts[7..];
    IdentifierAssignment(ts[4..], once, parseInt);
    UpdateSame(once, w);
    AssignmentStep(ts[4..], map[w := n], once, parseInt, Assignment(v, n, once, ts[7..]));
    assert ts[7..][1..] == ts[8..];
    assert ParseParametersFrom(ts[7..], map[w := n][v := n], once[v := n], parseInt)
        == Success(ParamsResult(map[w := n][v := n], once[v := n], ts[8..]));
  }

  /** The entry `name = other` binds the value `other` has in the running
      map, reading it through `operator[]`. */
  lemma IdentifierAssignment(ts: seq<string>, values: ValueMap, parseInt: string -> int)
    requires |ts| >= 3 && ts[1] == "=" && |ts[2]| > 0 && !IsNum(ts[2][0]) && ts[2][0] != '"'
    ensures ParseAssignment(ts, values, parseInt)
         == Success(Assignment(ts[0], Lookup(values, ts[2]), values[ts[2] := Lookup(values, ts[2])], ts[3..]))
  {
    assert ts[2..][1..] == ts[3..];
  }

  lemma UpdateSame(m: ValueMap, k: string)
    requires k in m
    ensures m[k := m[k]] == m
  {
  }
}

=== FILE: versat_core.dfy ===
/** Self-contained pieces of `versat.cpp`: the instance-name check, the
    32-bit binary formatter, the letter odometer that names VCD signals, the
    output count of an accelerator, the edge operations and the debug flags.
 */
module VersatCore {
  import opened Wrappers
  import opened UtilsCommon
  import opened Accelerators

  // ---------------------------------------------------------------------
  // CheckName

  /** A character allowed at position `i` of an instance name: a letter,
      `_`, `.`, `/`, or a digit anywhere but first. */
  predicate NameCharAt(ch: char, i: int) {
    || ('a' <= ch <= 'z') || ('A' <= ch <= 'Z')
    || ('0' <= ch <= '9' && i != 0)
    || ch == '_' || ch == '.' || ch == '/'
  }

  predicate IsDigit(ch: char) {
    '0' <= ch <= '9'
  }

  /** `CheckName`: scans the name and stops at the first character not
      allowed where it stands. */
  method CheckName(name: string) returns (ok: bool)
    ensures ok <==> forall i :: 0 <= i < |name| ==> NameCharAt(name[i], i)
  {
    for i := 0 to |name|
      invariant forall j :: 0 <= j < i ==> NameCharAt(name[j], j)
    {
      var ch := name[i];
      var allowed := ('a' <= ch <= 'z') || ('A' <= ch <= 'Z') || ('0' <= ch <= '9' && i != 0)
        || ch == '_' || ch == '.' || ch == '/';
      if !allowed {
        return false;
      }
    }
    return true;
  }

  /** A name is accepted exactly when it does not start with a digit and
      every character is a letter, a digit, `_`, `.` or `/`; so a suffix of
      such characters, digits included, may follow any accepted non-empty
      name. */
  lemma CheckNameCharacterClass(name: string, suffix: string)
    ensures (forall i :: 0 <= i < |name| ==> NameCharAt(name[i], i)) <==>
      (|name| == 0 || !IsDigit(name[0])) && forall i :: 0 <= i < |name| ==> NameCharAt(name[i], 1)
    ensures |name| > 0 && (forall i :: 0 <= i < |name| ==> NameCharAt(name[i], i)) &&
            (forall i :: 0 <= i < |suffix| ==> NameCharAt(suffix[i], 1)) ==>
            forall i :: 0 <= i < |name + suffix| ==> NameCharAt((name + suffix)[i], i)
  {
    if |name| > 0 && (forall i :: 0 <= i < |name| ==> NameCharAt(name[i], i)) &&
       (forall i :: 0 <= i < |suffix| ==> NameCharAt(suffix[i], 1)) {
      forall i | 0 <= i < |name + suffix|
        ensures NameCharAt((name + suffix)[i], i)
      {
        if i >= |name| {
          assert (name + suffix)[i] == suffix[i - |name|];
        }
      }
    }
  }

  // ---------------------------------------------------------------------
  // Bin

  const TWO_32: int := 0x1_0000_0000

  /** `unsigned int` subtraction: wraps modulo 2^32. */
  function SubU32(a: int, b: int): (r: int)
    ensures 0 <= r < TWO_32
  {
    (a - b) % TWO_32
  }

  /** The unsigned test `val - x < val` holds exactly when `x <= val`. */
  lemma SubU32Below(v: int, x: int)
    requires 0 <= v < TWO_32 && 0 < x < TWO_32
    ensures SubU32(v, x) < v <==> x <= v
    ensures x <= v ==> SubU32(v, x) == v - x
  {
  }

  /** The number a string of '0' and '1' spells, most significant first. */
  function BinValue(s: string): (v: nat) {
    if |s| == 0 then 0
    else 2 * BinValue(s[..|s| - 1]) + (if s[|s| - 1] == '1' then 1 else 0)
  }

  lemma Pow2Of32()
    ensures Pow2(32) == TWO_32
  {
    assert Pow2(8) == 256;
    assert Pow2(16) == 65536;
    assert Pow2(24) == 16777216;
  }

  /** `Bin`: 32 characters '0'/'1' spelling `val`, most significant bit
      first, found by subtracting each power of two that still fits. */
  method Bin(val: int) returns (buffer: string)
    requires 0 <= val < TWO_32
    ensures |buffer| == 32
    ensures Binary(buffer) && BinValue(buffer) == val
  {
    var v := val;
    buffer := [];
    Pow2Of32();
    for i := 0 to 32
      invariant |buffer| == i && Binary(buffer)
      invariant 0 <= v < Pow2(32 - i)
      invariant BinValue(buffer) * Pow2(32 - i) + v == val
    {
      buffer, v := BinDigitStep(buffer, v, val, i);
    }
  }

  /** One turn of `Bin`'s loop: the digit for `2^(31 - i)`, taking that
      power off `v` when it still fits. */
  method BinDigitStep(before: string, v0: int, ghost val: int, i: nat) returns (after: string, v: int)
    requires i < 32 && |before| == i && Binary(before)
    requires 0 <= v0 < Pow2(32 - i) && BinValue(before) * Pow2(32 - i) + v0 == val
    ensures |after| == i + 1 && Binary(after)
    ensures 0 <= v < Pow2(32 - (i + 1)) && BinValue(after) * Pow2(32 - (i + 1)) + v == val
  {
    var x := Pow2(31 - i);
    BinBounds(i, v0);
    SubU32Below(v0, x);
    if SubU32(v0, x) < v0 {
      BinDigit(before, v0, val, i, 1);
      v := SubU32(v0, x);
      after := before + ['1'];
    } else {
      BinDigit(before, v0, val, i, 0);
      v := v0;
      after := before + ['0'];
    }
  }

  /** Every character is '0' or '1'. */
  predicate Binary(s: string) {
    forall i :: 0 <= i < |s| ==> s[i] == '0' || s[i] == '1'
  }

  /** The power of two `Bin` tries at step `i` fits in 32 bits, as does the
      value left. */
  lemma BinBounds(i: nat, v: int)
    requires i < 32 && 0 <= v < Pow2(32 - i)
    ensures 0 < Pow2(31 - i) < TWO_32 && v < TWO_32
  {
    Pow2Of32();
    Pow2StrictlyMonotonic(31 - i, 32);
    Pow2Monotonic(32 - i, 32);
  }

  /** One step of `Bin`: appending the digit for `2^(31 - i)`, and taking
      that power off when the digit is '1', keeps the value spelled so far
      plus what is left equal to `val`. */
  lemma BinDigit(before: string, v: int, val: int, i: nat, bit: int)
    requires i < 32 && (bit == 0 || bit == 1)
    requires 0 <= v < Pow2(32 - i) && (bit == 1 <==> Pow2(31 - i) <= v)
    requires Binary(before) && BinValue(before) * Pow2(32 - i) + v == val
    ensures 0 <= v - bit * Pow2(31 - i) < Pow2(32 - (i + 1))
    ensures Binary(before + [if bit == 1 then '1' else '0'])
    ensures BinValue(before + [if bit == 1 then '1' else '0']) * Pow2(32 - (i + 1)) + (v - bit * Pow2(31 - i)) == val
  {
    var x := Pow2(31 - i);
    assert Pow2(32 - i) == 2 * x;
    var after := before + [if bit == 1 then '1' else '0'];
    assert after[..|before|] == before;
    BinStep(BinValue(before), x, bit);
  }

  lemma BinStep(b: int, x: int, bit: int)
    ensures (2 * b + bit) * x == b * (2 * x) + bit * x
  {
  }

  // ---------------------------------------------------------------------
  // The VCD identifier odometer

  /** `currentMapping` and `mappingIncrements`. */
  datatype VcdMapping = VcdMapping(letters: seq<char>, increments: int)

  predicate Lowercase(letters: seq<char>) {
    forall i :: 0 <= i < |letters| ==> 'a' <= letters[i] <= 'z'
  }

  /** Four lower-case letters. */
  predicate WellFormed(m: VcdMapping) {
    |m.letters| == 4 && Lowercase(m.letters)
  }

  /** The number the letters spell in base 26, 'a' being 0 and the last
      letter the least significant. */
  function Spelled(letters: seq<char>): int {
    if |letters| == 0 then 0
    else 26 * Spelled(letters[..|letters| - 1]) + (letters[|letters| - 1] as int - 'a' as int)
  }

  function Pow26(n: nat): (r: nat)
    ensures r >= 1
  {
    if n == 0 then 1 else 26 * Pow26(n - 1)
  }

  /** `ResetMapping` */
  function ResetMapping(): (m: VcdMapping)
    ensures WellFormed(m) && Spelled(m.letters) == 0 && m.increments == 0
  {
    SpelledAllA("aaaa");
    VcdMapping("aaaa", 0)
  }

  lemma {:induction false} SpelledAllA(letters: seq<char>)
    requires forall i :: 0 <= i < |letters| ==> letters[i] == 'a'
    ensures Spelled(letters) == 0
  {
    if |letters| > 0 {
      SpelledAllA(letters[..|letters| - 1]);
    }
  }

  /** The loop of `IncrementMapping` from position `i` down: bump the
      letter, and on passing 'z' wrap it to 'a' and carry to the left;
      carrying out of the first letter asserts. */
  function IncrementFrom(m: VcdMapping, i: int): (r: Result<VcdMapping>)
    requires WellFormed(m) && -1 <= i <= 3
    decreases i + 1
    ensures r.Success? ==> WellFormed(r.value) && r.value.letters[i + 1..] == m.letters[i + 1..]
    ensures r.Success? ==> m.increments < r.value.increments <= m.increments + i + 1
  {
    if i < 0 then Failure("Increase mapping space")
    else
      var m1 := m.(increments := m.increments + 1);
      var next := m.letters[i] as int + 1;
      if next == 'z' as int + 1 then
        IncrementFrom(m1.(letters := m.letters[i := 'a']), i - 1)
      else
        Success(m1.(letters := m.letters[i := next as char]))
  }

  /** `IncrementMapping` */
  function IncrementMapping(m: VcdMapping): (r: Result<VcdMapping>)
    requires WellFormed(m)
    ensures r.Success? ==> WellFormed(r.value) && m.increments < r.value.increments <= m.increments + 4
  {
    IncrementFrom(m, 3)
  }

  /** Changing one letter changes the spelled number by the difference
      times that letter's weight. */
  lemma {:induction false} SpelledUpdate(letters: seq<char>, j: nat, c: char)
    requires j < |letters|
    ensures Spelled(letters[j := c]) ==
      Spelled(letters) + (c as int - letters[j] as int) * Pow26(|letters| - 1 - j)
  {
    var last := |letters| - 1;
    if j < last {
      SpelledUpdate(letters[..last], j, c);
      assert letters[j := c][..last] == letters[..last][j := c];
    } else {
      assert letters[j := c][..last] == letters[..last];
    }
  }

  /** All 'z' spells the largest number. */
  lemma {:induction false} SpelledAllZ(letters: seq<char>)
    requires forall i :: 0 <= i < |letters| ==> letters[i] == 'z'
    ensures Spelled(letters) == Pow26(|letters|) - 1
  {
    if |letters| > 0 {
      SpelledAllZ(letters[..|letters| - 1]);
    }
  }

  lemma {:induction false} SpelledBounds(letters: seq<char>)
    requires Lowercase(letters)
    ensures 0 <= Spelled(letters) < Pow26(|letters|)
  {
    if |letters| > 0 {
      SpelledBounds(letters[..|letters| - 1]);
    }
  }

  /** Letters `0..i` are all 'z'. */
  predicate AllZUpTo(letters: seq<char>, i: int)
    requires i < |letters|
  {
    forall j :: 0 <= j <= i ==> letters[j] == 'z'
  }

  /** From position `i`, the odometer adds the weight of position `i`, and
      fails exactly when letters `0..i` are all 'z'. */
  lemma {:induction false} IncrementFromAdds(m: VcdMapping, i: int)
    requires WellFormed(m) && -1 <= i <= 3
    decreases i + 1, 1
    ensures IncrementFrom(m, i).Success? <==> !AllZUpTo(m.letters, i)
    ensures IncrementFrom(m, i).Success? ==>
      var r := IncrementFrom(m, i).value;
      WellFormed(r) && Spelled(r.letters) == Spelled(m.letters) + Pow26(3 - i)
  {
    if i >= 0 {
      if m.letters[i] == 'z' {
        IncrementCarries(m, i);
      } else {
        var next := (m.letters[i] as int + 1) as char;
        assert IncrementFrom(m, i) == Success(VcdMapping(m.letters[i := next], m.increments + 1));
        SpelledUpdate(m.letters, i, next);
        assert next as int - m.letters[i] as int == 1;
      }
    }
  }

  /** The carrying step: a 'z' becomes 'a' and position `i - 1` goes up. */
  lemma {:induction false} IncrementCarries(m: VcdMapping, i: int)
    requires WellFormed(m) && 0 <= i <= 3 && m.letters[i] == 'z'
    decreases i + 1, 0
    ensures IncrementFrom(m, i).Success? <==> !AllZUpTo(m.letters, i)
    ensures IncrementFrom(m, i).Success? ==>
      var r := IncrementFrom(m, i).value;
      WellFormed(r) && Spelled(r.letters) == Spelled(m.letters) + Pow26(3 - i)
  {
    var m2 := VcdMapping(m.letters[i := 'a'], m.increments + 1);
    assert IncrementFrom(m, i) == IncrementFrom(m2, i - 1);
    IncrementFromAdds(m2, i - 1);
    AllZStep(m.letters, m2.letters, i);
    CarrySpelled(m.letters, i);
  }

  /** Wrapping a 'z' to 'a' and adding the next position's weight adds
      this position's weight. */
  lemma CarrySpelled(letters: seq<char>, i: nat)
    requires i < |letters| && letters[i] == 'z'
    ensures Spelled(letters[i := 'a']) + Pow26(|letters| - i) == Spelled(letters) + Pow26(|letters| - 1 - i)
  {
    SpelledUpdate(letters, i, 'a');
    var w := Pow26(|letters| - 1 - i);
    assert Pow26(|letters| - i) == 26 * w;
    assert Spelled(letters[i := 'a']) == Spelled(letters) - 25 * w;
  }

  lemma AllZStep(letters: seq<char>, carried: seq<char>, i: int)
    requires 0 <= i < |letters| == |carried|
    requires letters[i] == 'z'
    requires forall j :: 0 <= j < i ==> carried[j] == letters[j]
    ensures AllZUpTo(letters, i) <==> AllZUpTo(carried, i - 1)
  {
  }

  /** One `IncrementMapping` adds one, and asserts exactly on "zzzz". */
  lemma IncrementMappingCounts(m: VcdMapping)
    requires WellFormed(m)
    ensures IncrementMapping(m).Success? <==> Spelled(m.letters) < Pow26(4) - 1
    ensures IncrementMapping(m).Success? ==>
      WellFormed(IncrementMapping(m).value) && Spelled(IncrementMapping(m).value.letters) == Spelled(m.letters) + 1
  {
    IncrementFromAdds(m, 3);
    SpelledBounds(m.letters);
    assert Pow26(4) == 456976;
    if AllZUpTo(m.letters, 3) {
      SpelledAllZ(m.letters);
    } else {
      var j :| 0 <= j < 4 && m.letters[j] != 'z';
      SpelledUpdate(m.letters, j, 'z');
      SpelledBounds(m.letters[j := 'z']);
      var gap := 'z' as int - m.letters[j] as int;
      MulAtLeast(gap - 1, Pow26(3 - j));
      assert Spelled(m.letters) < Pow26(4) - 1;
    }
  }

  /** `n` increments after a reset. */
  function AfterIncrements(n: nat): (r: Result<VcdMapping>)
    ensures r.Success? ==> WellFormed(r.value)
  {
    if n == 0 then Success(ResetMapping())
    else
      match AfterIncrements(n - 1)
      case Failure(why) => Failure(why)
      case Success(m) => IncrementMapping(m)
  }

  /** After a reset, `n < 26^4` increments spell `n`; one more asserts. */
  lemma {:induction false} AfterIncrementsSpells(n: nat)
    ensures n < Pow26(4) ==> AfterIncrements(n).Success? && Spelled(AfterIncrements(n).value.letters) == n
    ensures n == Pow26(4) ==> AfterIncrements(n).Failure?
  {
    if n > 0 {
      AfterIncrementsSpells(n - 1);
      if n <= Pow26(4) {
        var m := AfterIncrements(n - 1).value;
        assert AfterIncrements(n) == IncrementMapping(m);
        IncrementMappingCounts(m);
      }
    }
  }

  // ---------------------------------------------------------------------
  // Output count

  /** Edge `e` has an endpoint at port `port` of `inst`. */
  predicate MeetsAt(e: Edge, inst: Instance, port: int) {
    (e.outPort.inst == inst && e.outPort.port == port) || (e.inPort.inst == inst && e.inPort.port == port)
  }

  /** One more than the largest port at which an edge meets `output`. */
  function OutputPortCount(edges: seq<Edge>, output: Instance): (outputs: int)
    ensures outputs >= 0
    ensures forall k :: 0 <= k < |edges| ==>
      (edges[k].outPort.inst == output ==> edges[k].outPort.port < outputs) &&
      (edges[k].inPort.inst == output ==> edges[k].inPort.port < outputs)
    ensures outputs > 0 ==>
      exists k :: 0 <= k < |edges| && MeetsAt(edges[k], output, outputs - 1)
  {
    if |edges| == 0 then 0
    else
      var rest := edges[..|edges| - 1];
      var edge := edges[|edges| - 1];
      var o0 := OutputPortCount(rest, output);
      assert forall k :: 0 <= k < |rest| ==> rest[k] == edges[k];
      var o1 := if edge.outPort.inst == output then Maxi(o0 - 1, edge.outPort.port) + 1 else o0;
      if edge.inPort.inst == output then Maxi(o1 - 1, edge.inPort.port) + 1 else o1
  }

  /** The `outputs` of `CalculateAcceleratorValues`: one more than the
      largest port at which an edge meets the output instance, 0 without
      one. */
  function Outputs(accel: Accelerator): (outputs: int)
    ensures outputs >= 0
    ensures accel.output.None? ==> outputs == 0
  {
    match accel.output
    case None => 0
    case Some(out) => OutputPortCount(accel.edges, out)
  }

  // ---------------------------------------------------------------------
  // Edges

  /** `ConnectUnitsWithDelay`: both instances in the accelerator and the
      ports within range, then one new edge with the given fields. */
  function ConnectUnitsWithDelay(accel: Accelerator, out: Instance, outIndex: int, input: Instance, inIndex: int, delay: int)
    : (r: Result<Accelerator>)
    ensures r.Success? <==>
      out in accel.instances && input in accel.instances && inIndex < input.decl.nInputs && outIndex < out.decl.nOutputs
    ensures r.Success? ==>
      && r.value.instances == accel.instances && r.value.output == accel.output
      && r.value.edges == accel.edges + [Edge(PortInstance(out, outIndex), PortInstance(input, inIndex), delay)]
  {
    if !(out in accel.instances && input in accel.instances) then Failure("instances of different accelerators")
    else if !(inIndex < input.decl.nInputs) then Failure("input port out of range")
    else if !(outIndex < out.decl.nOutputs) then Failure("output port out of range")
    else Success(accel.(edges := accel.edges + [Edge(PortInstance(out, outIndex), PortInstance(input, inIndex), delay)]))
  }

  /** An edge from `out:outIndex` to `in:inIndex` exists, whatever its
      delay. */
  predicate Connected(edges: seq<Edge>, out: Instance, outIndex: int, input: Instance, inIndex: int) {
    exists k :: 0 <= k < |edges| &&
      edges[k].outPort == PortInstance(out, outIndex) && edges[k].inPort == PortInstance(input, inIndex)
  }

  /** A connected edge keeps the accelerator well formed. */
  lemma ConnectKeepsValid(accel: Accelerator, out: Instance, outIndex: int, input: Instance, inIndex: int, delay: int)
    requires accel.Valid()
    requires ConnectUnitsWithDelay(accel, out, outIndex, input, inIndex, delay).Success?
    ensures ConnectUnitsWithDelay(accel, out, outIndex, input, inIndex, delay).value.Valid()
    ensures Connected(ConnectUnitsWithDelay(accel, out, outIndex, input, inIndex, delay).value.edges, out, outIndex, input, inIndex)
  {
    var r := ConnectUnitsWithDelay(accel, out, outIndex, input, inIndex, delay).value;
    assert r.edges[|accel.edges|] == Edge(PortInstance(out, outIndex), PortInstance(input, inIndex), delay);
  }

  /** `ConnectUnitsIfNotConnected`: connects with delay 0 unless the two
      ports are already connected. */
  method ConnectUnitsIfNotConnected(accel: Accelerator, out: Instance, outIndex: int, input: Instance, inIndex: int)
    returns (r: Result<Accelerator>)
    ensures Connected(accel.edges, out, outIndex, input, inIndex) ==> r == Success(accel)
    ensures !Connected(accel.edges, out, outIndex, input, inIndex) ==> r == ConnectUnitsWithDelay(accel, out, outIndex, input, inIndex, 0)
  {
    for k := 0 to |accel.edges|
      invariant forall j :: 0 <= j < k ==>
        !(accel.edges[j].outPort == PortInstance(out, outIndex) && accel.edges[j].inPort == PortInstance(input, inIndex))
    {
      var edge := accel.edges[k];
      if edge.outPort.inst == out && edge.outPort.port == outIndex && edge.inPort.inst == input && edge.inPort.port == inIndex {
        return Success(accel);
      }
    }
    r := ConnectUnitsWithDelay(accel, out, outIndex, input, inIndex, 0);
  }

  /** Connecting twice is connecting once. */
  method ConnectIfNotConnectedIdempotent(accel: Accelerator, out: Instance, outIndex: int, input: Instance, inIndex: int)
    returns (once: Result<Accelerator>, twice: Result<Accelerator>)
    ensures once.Success? ==> twice == once
    ensures once.Failure? ==> twice.Failure?
  {
    once := ConnectUnitsIfNotConnected(accel, out, outIndex, input, inIndex);
    if once.Failure? {
      return once, once;
    }
    if !Connected(accel.edges, out, outIndex, input, inIndex) {
      ConnectKeepsValidEdge(accel, out, outIndex, input, inIndex);
    }
    twice := ConnectUnitsIfNotConnected(once.value, out, outIndex, input, inIndex);
  }

  lemma ConnectKeepsValidEdge(accel: Accelerator, out: Instance, outIndex: int, input: Instance, inIndex: int)
    requires ConnectUnitsWithDelay(accel, out, outIndex, input, inIndex, 0).Success?
    ensures Connected(ConnectUnitsWithDelay(accel, out, outIndex, input, inIndex, 0).value.edges, out, outIndex, input, inIndex)
  {
    var r := ConnectUnitsWithDelay(accel, out, outIndex, input, inIndex, 0).value;
    assert r.edges[|accel.edges|] == Edge(PortInstance(out, outIndex), PortInstance(input, inIndex), 0);
  }

  /** The elements of `s` that `keep` accepts, in order. */
  function Filter<T(!new)>(s: seq<T>, keep: T -> bool): (r: seq<T>)
    ensures |r| <= |s|
    ensures forall x :: x in r <==> x in s && keep(x)
  {
    if |s| == 0 then []
    else if keep(s[0]) then [s[0]] + Filter(s[1..], keep)
    else Filter(s[1..], keep)
  }

  /** `RemoveFUInstance`: drops the edges at `inst`, then `inst` itself. */
  function RemoveFUInstance(accel: Accelerator, inst: Instance): (r: Accelerator)
    ensures inst !in r.instances
    ensures forall i :: i in r.instances <==> i in accel.instances && i != inst
    ensures forall e :: e in r.edges <==> e in accel.edges && e.outPort.inst != inst && e.inPort.inst != inst
    ensures r.output == accel.output
  {
    var edges := Filter(accel.edges, (e: Edge) => e.outPort.inst != inst && e.inPort.inst != inst);
    var instances := Filter(accel.instances, (i: Instance) => i != inst);
    Accelerator(instances, edges, accel.output)
  }

  /** Removing an instance other than the output keeps the accelerator
      well formed. */
  lemma RemoveKeepsValid(accel: Accelerator, inst: Instance)
    requires accel.Valid()
    requires accel.output != Some(inst)
    ensures RemoveFUInstance(accel, inst).Valid()
  {
  }

  // ---------------------------------------------------------------------
  // Debug flags

  /** `VersatDebugFlags` */
  datatype DebugFlag = OutputGraphDot | OutputAcceleratorsCode | OutputVersatCode | OutputVcd | UseFixedBuffers

  /** `versat->debug` */
  datatype DebugState = DebugState(
    outputGraphs: bool, outputAccelerator: bool, outputVersat: bool, outputVCD: bool, useFixedBuffers: bool)

  /** The field a flag selects. */
  function Flag(debug: DebugState, flag: DebugFlag): bool {
    match flag
    case OutputGraphDot => debug.outputGraphs
    case OutputAcceleratorsCode => debug.outputAccelerator
    case OutputVersatCode => debug.outputVersat
    case OutputVcd => debug.outputVCD
    case UseFixedBuffers => debug.useFixedBuffers
  }

  /** `SetDebug`: sets the selected flag and returns its previous value. */
  function SetDebug(debug: DebugState, flag: DebugFlag, value: bool): (r: (bool, DebugState))
    ensures r.0 == Flag(debug, flag)
    ensures Flag(r.1, flag) == value
    ensures forall f :: f != flag ==> Flag(r.1, f) == Flag(debug, f)
  {
    match flag
    case OutputGraphDot => (debug.outputGraphs, debug.(outputGraphs := value))
    case OutputAcceleratorsCode => (debug.outputAccelerator, debug.(outputAccelerator := value))
    case OutputVersatCode => (debug.outputVersat, debug.(outputVersat := value))
    case OutputVcd => (debug.outputVCD, debug.(outputVCD := value))
    case UseFixedBuffers => (debug.useFixedBuffers, debug.(useFixedBuffers := value))
  }

  /** Setting a flag back to the value returned restores the state. */
  lemma SetDebugUndo(debug: DebugState, flag: DebugFlag, value: bool)
    ensures var (last, after) := SetDebug(debug, flag, value);
            SetDebug(after, flag, last) == (value, debug)
  {
  }
}

=== FILE: wrappers.dfy ===
/** Failure-carrying results.

    The modelled C++ code stops the program when one of its `Assert`s fails,
    when it calls `exit(0)` on a bad address, or when it reaches `NOT_POSSIBLE`.
    The model returns `Failure` on those paths instead, so that every
    operation is total and the error cases are stated, not excluded.
 */
module Wrappers {

  datatype Option<+T> = None | Some(value: T) {
    predicate IsFailure() {
      None?
    }

    function PropagateFailure<U>(): Option<U>
      requires None?
    {
      None
    }

    function Extract(): T
      requires Some?
    {
      value
    }
  }

  /** `Failure(why)` stands for the point where the source aborts. */
  datatype Result<+T> = Success(value: T) | Failure(why: string) {
    predicate IsFailure() {
      Failure?
    }

    function PropagateFailure<U>(): Result<U>
      requires Failure?
    {
      Failure(why)
    }

    function Extract(): T
      requires Success?
    {
      value
    }
  }

  /** An `Assert(condition)` of the source: passes or aborts with `why`. */
  function Need(condition: bool, why: string): (r: Result<()>)
    ensures r.Success? <==> condition
  {
    if condition then Success(()) else Failure(why)
  }
}
